=== FILE: README.md ===
# SmartBudge core in Dafny

A functional model of the business logic of SmartBudge, an Android budgeting app.
It covers:

- the local Room database as keyed tables;
- the Firestore backup upload and its restore;
- the SMS parser that turns bank and mobile-money texts into transactions;
- the GitHub release check, with its version comparison and download receiver;
- the rules of the view-models behind the dashboard, the reports, the add/edit form,
  sign-in, the profile screen, the category list, the details screen and savings goals.

Every view-model action is a pure transition. The platform shows up as parameters: a
connectivity flag, the clock (`Calendar.Clock`), the signed-in uid, the backend's result,
the download's completion events and the device's permissions.

Module layout:

- **Foundations.** `Wrappers` (`Option`), `Text` (ASCII text, `trim`, `toIntOrNull`,
  `toDoubleOrNull`, `length` in UTF-16 code units), `Seqs` (filter, sum, stable descending sort), `Entities` (the five
  row types), `Tables` (an autoincrement table).
- **One module per DAO.** `TransactionDao`, `UserDao`, `CategoryDao`, `SavingsGoalDao`.
- **Release check.** `Versions` (`isNewerVersion`), `Updater` (`GitHubUpdateManager`).
- **Backup and SMS.** `Backup` (`BackupRepository`), `Sms` (`SmsReceiver`).
- **Calendar and view-models.** `Calendar`, then one module per view-model: `Home`,
  `Reports`, `AddTransaction`, `Auth`, `Profile`, `CategoryModule`, `Details`, `Goals`.

A table is `AutoTable(rows, lastKey)`. Inserting with id 0 takes key `lastKey + 1`. Any
other id replaces the row stored under it (SQLite `INSERT OR REPLACE` on an
`AUTOINCREMENT` key). Update touches an existing key only, and delete removes one key.
`ORDER BY date DESC` is a stable sort of the rows in key order.

## Model

| member | source | states |
|---|---|---|
| TransactionDao.GetAllTransactions | app/src/main/java/com/smartbudge/app/data/local/dao/TransactionDao.kt:14-15 | exactly the user's rows, by non-increasing date, each once |
| TransactionDao.GetTransactionById | app/src/main/java/com/smartbudge/app/data/local/dao/TransactionDao.kt:17-18 | the stored row with that id, or none when no row has it |
| TransactionDao.GetTransactionsByType | app/src/main/java/com/smartbudge/app/data/local/dao/TransactionDao.kt:20-21 | the user's date-descending listing kept to the rows of that type, order kept; no row twice |
| TransactionDao.GetTransactionsByCategoryNames | app/src/main/java/com/smartbudge/app/data/local/dao/TransactionDao.kt:23-29 | the user's date-descending listing kept to the rows whose category row exists and is named in the list, order kept, no row twice; rows without a category row are never listed |
| TransactionDao.InsertTransaction | app/src/main/java/com/smartbudge/app/data/local/dao/TransactionDao.kt:31-32 | id 0 gets a fresh key, any other id replaces its row; every other row is kept |
| TransactionDao.UpdateTransaction | app/src/main/java/com/smartbudge/app/data/local/dao/TransactionDao.kt:34-35 | replaces the row only when its key is stored, else changes nothing; keys never change |
| TransactionDao.DeleteTransaction | app/src/main/java/com/smartbudge/app/data/local/dao/TransactionDao.kt:37-38 | removes the row's key and keeps every other row |
| TransactionDao.ReinsertStoredRow | app/src/main/java/com/smartbudge/app/data/local/dao/TransactionDao.kt:31-32 | inserting a row that is already stored leaves the table identical |
| TransactionDao.DeleteKeepsOtherUsers | app/src/main/java/com/smartbudge/app/data/local/dao/TransactionDao.kt:14-38 | deleting one user's row leaves every other user's list exactly as it was |
| TransactionDao.DeleteRemovesOnlyThatRow | app/src/main/java/com/smartbudge/app/data/local/dao/TransactionDao.kt:14-38 | after a delete, a user's list is the old list with the rows of that id taken out and the order kept |
| UserDao.GetUser | app/src/main/java/com/smartbudge/app/data/local/dao/UserDao.kt:13-14 | the single row keyed by the user id, or none |
| UserDao.InsertUser | app/src/main/java/com/smartbudge/app/data/local/dao/UserDao.kt:16-17 | stores the row under its user id, replacing any row there; other rows unchanged |
| UserDao.UpdateUser | app/src/main/java/com/smartbudge/app/data/local/dao/UserDao.kt:19-20 | changes an existing row only; no-op for an absent key; other rows unchanged |
| CategoryDao.GetAllCategories | app/src/main/java/com/smartbudge/app/data/local/dao/CategoryDao.kt:12-13 | exactly the categories owned by the user or by nobody, each once |
| CategoryDao.GetCategoryById | app/src/main/java/com/smartbudge/app/data/local/dao/CategoryDao.kt:15-16 | the row with that key, or none |
| CategoryDao.InsertCategory | app/src/main/java/com/smartbudge/app/data/local/dao/CategoryDao.kt:18-19 | REPLACE by key; id 0 gets a fresh key |
| CategoryDao.SharedCategoryVisibleToAll | app/src/main/java/com/smartbudge/app/data/local/dao/CategoryDao.kt:12-19 | a category inserted with no owner is listed for every user |
| SavingsGoalDao.GetSavingsGoals | app/src/main/java/com/smartbudge/app/data/local/dao/SavingsGoalDao.kt:14-15 | exactly the user's goals, each once |
| SavingsGoalDao.InsertGoal | app/src/main/java/com/smartbudge/app/data/local/dao/SavingsGoalDao.kt:17-18 | REPLACE by goal id; id 0 gets a fresh key |
| SavingsGoalDao.UpdateGoal | app/src/main/java/com/smartbudge/app/data/local/dao/SavingsGoalDao.kt:20-21 | changes an existing row only, else no-op |
| SavingsGoalDao.DeleteGoal | app/src/main/java/com/smartbudge/app/data/local/dao/SavingsGoalDao.kt:23-24 | removes only that key |
| SavingsGoalDao.InsertThenDeleteGoal | app/src/main/java/com/smartbudge/app/data/local/dao/SavingsGoalDao.kt:17-24 | an inserted goal is listed for its owner, and gone from the list after its delete |
| Versions.NumericParts | app/src/main/java/com/smartbudge/app/updater/GitHubUpdateManager.kt:131-132 | keeps only segments that parse as 32-bit integers, so never more parts than segments |
| Versions.DroppedSegment | app/src/main/java/com/smartbudge/app/updater/GitHubUpdateManager.kt:131-132 | a non-numeric segment is dropped, not zeroed: later parts shift left |
| Versions.IsNewerVersion | app/src/main/java/com/smartbudge/app/updater/GitHubUpdateManager.kt:126-142 | true exactly when the zero-padded current parts are lexicographically below the remote parts |
| Versions.LexAsymmetric | app/src/main/java/com/smartbudge/app/updater/GitHubUpdateManager.kt:134-141 | the padded order is asymmetric |
| Versions.LexTransitive | app/src/main/java/com/smartbudge/app/updater/GitHubUpdateManager.kt:134-141 | the padded order is transitive |
| Versions.LexTrichotomy | app/src/main/java/com/smartbudge/app/updater/GitHubUpdateManager.kt:134-141 | two part lists are padded-equal or one is below the other, and exactly one of these |
| Versions.NewerIsStrictTotalOrder | app/src/main/java/com/smartbudge/app/updater/GitHubUpdateManager.kt:126-142 | isNewerVersion is irreflexive, asymmetric and transitive, and total up to padded equality |
| Versions.ParseShowVersion | app/src/main/java/com/smartbudge/app/updater/GitHubUpdateManager.kt:128-132 | a dotted version rendered from 32-bit parts parses back to those parts |
| Versions.TrailingZeroIsSameVersion | app/src/main/java/com/smartbudge/app/updater/GitHubUpdateManager.kt:134-137 | "x" and "x.0" are not newer than each other in either direction |
| Versions.NumericComparison | app/src/main/java/com/smartbudge/app/updater/GitHubUpdateManager.kt:131-141 | parts compare as numbers: 1.10 is newer than 1.9 |
| Updater.StripTag | app/src/main/java/com/smartbudge/app/updater/GitHubUpdateManager.kt:74-78 | a tag starting with v or V loses exactly that character; any other tag is unchanged |
| Updater.StripTagOfVersion | app/src/main/java/com/smartbudge/app/updater/GitHubUpdateManager.kt:74-132 | "v" + version and the bare version both read back as the same parts |
| Updater.FirstApk | app/src/main/java/com/smartbudge/app/updater/GitHubUpdateManager.kt:83-92 | the index of the first asset named "*.apk", or none when no asset is |
| Updater.CheckForUpdates | app/src/main/java/com/smartbudge/app/updater/GitHubUpdateManager.kt:56-107 | a release is offered iff online, answered 200 with a release, an apk exists and the tag is newer; the offer carries the first apk's URL and the stripped tag |
| Updater.OfferedOnce | app/src/main/java/com/smartbudge/app/updater/GitHubUpdateManager.kt:94-106 | once the offered version is the installed one, the same release is not offered again |
| Updater.NoDowngrade | app/src/main/java/com/smartbudge/app/updater/GitHubUpdateManager.kt:94-106 | a release older than the installed version is never offered |
| Profile.DownloadGrantsBySdk | app/src/main/java/com/smartbudge/app/updater/GitHubUpdateManager.kt:147-180 | above Android P a download needs only the install grant, below Android O only the storage grant, and in between both |
| Updater.StartDownload | app/src/main/java/com/smartbudge/app/updater/GitHubUpdateManager.kt:186-258 | a receiver for the enqueued id is registered iff online and the enqueue succeeded |
| Updater.OnDownloadComplete | app/src/main/java/com/smartbudge/app/updater/GitHubUpdateManager.kt:218-265 | the receiver unregisters exactly on its own id with status SUCCESSFUL, and installs then only if the file exists |
| Updater.OnCompletions | app/src/main/java/com/smartbudge/app/updater/GitHubUpdateManager.kt:218-245 | over any run of broadcasts, the installer launches at most once, and never after unregistering |
| Updater.InstallOnlyOnMatchingSuccess | app/src/main/java/com/smartbudge/app/updater/GitHubUpdateManager.kt:219-233 | a launch implies a broadcast with the download's own id, status SUCCESSFUL and the file present |
| Backup.ToInt | app/src/main/java/com/smartbudge/app/data/repository/BackupRepository.kt:66-70 | `Number.toInt()`: a long keeps its low 32 bits; a double is truncated toward zero and saturates at the 32-bit bounds |
| Backup.ToLong | app/src/main/java/com/smartbudge/app/data/repository/BackupRepository.kt:56-71 | `Number.toLong()`: a long stays itself; a double is truncated toward zero and saturates at the 64-bit bounds |
| Backup.BackupDocument | app/src/main/java/com/smartbudge/app/data/repository/BackupRepository.kt:29-33 | exactly the keys user, transactions and last_backup, one entry per transaction |
| Backup.Upload | app/src/main/java/com/smartbudge/app/data/repository/BackupRepository.kt:24-40 | success iff the write succeeds; success stores, under the current user's id only, that user's row and date-descending transactions stamped now; failure keeps the store |
| Backup.DecodeTransactions | app/src/main/java/com/smartbudge/app/data/repository/BackupRepository.kt:62-75 | decodes every entry iff every entry is a map, in order |
| Backup.InsertAll | app/src/main/java/com/smartbudge/app/data/repository/BackupRepository.kt:78 | the in-order upsert: an entry with an id and no later entry of that id ends stored under it, an id-0 entry lands under a fresh key, rows no entry names stay, nothing is removed |
| Backup.UnsetIdsAddRows | app/src/main/java/com/smartbudge/app/data/repository/BackupRepository.kt:66-78 | entries with id 0 each add a fresh row and overwrite nothing |
| Backup.MissingFieldsTakeDefaults | app/src/main/java/com/smartbudge/app/data/repository/BackupRepository.kt:51-74 | each field that is absent or of the wrong type takes its default: uid, "User", "", 0.0, now; 0, uid, "Expense", 0.0, 0, now, "", null |
| Backup.PresentFieldsAreRead | app/src/main/java/com/smartbudge/app/data/repository/BackupRepository.kt:51-74 | each field of the right type is read as stored, numbers through `toInt`, `toLong` or `toDouble` of its column |
| Backup.Fetch | app/src/main/java/com/smartbudge/app/data/repository/BackupRepository.kt:44-46 | the snapshot of the current user's document, found iff it is stored |
| Backup.Restore | app/src/main/java/com/smartbudge/app/data/repository/BackupRepository.kt:42-88 | missing document, null data and a failed read change nothing and fail; no key is removed; an absent or non-map user leaves users alone; a user map is upserted under its own `user_id`, or the current uid when that is not a string; a list of maps succeeds and upserts every decoded transaction; an absent or non-list transactions entry leaves transactions alone |
| Backup.DecodeEncodeTransactions | app/src/main/java/com/smartbudge/app/data/repository/BackupRepository.kt:29-75 | decoding an uploaded transaction list gives back the list |
| Backup.InsertAllStored | app/src/main/java/com/smartbudge/app/data/repository/BackupRepository.kt:78 | upserting rows that are already stored changes nothing |
| Backup.RestoreOwnBackup | app/src/main/java/com/smartbudge/app/data/repository/BackupRepository.kt:24-88 | restoring a device's own backup succeeds and leaves its database unchanged |
| Backup.UploadThenRestore | app/src/main/java/com/smartbudge/app/data/repository/BackupRepository.kt:24-88 | an upload then a download on the same account is the identity on the local database |
| Backup.RestoredListing | app/src/main/java/com/smartbudge/app/data/repository/BackupRepository.kt:62-78 | upserting a user's stored listing into an empty table gives back that same listing |
| Backup.UploadThenRestoreOnNewDevice | app/src/main/java/com/smartbudge/app/data/repository/BackupRepository.kt:24-88 | a backup restored onto an empty database succeeds and recovers the user's row and transaction list |
| Sms.Find | app/src/main/java/com/smartbudge/app/data/local/sms/SmsReceiver.kt:45-48 | the first position where `(?i)(Tk\|BDT)\s*[0-9,.]+` matches, or none when it matches nowhere |
| Sms.RemoveCommas | app/src/main/java/com/smartbudge/app/data/local/sms/SmsReceiver.kt:49 | every comma goes and every other character keeps its count; a string without commas is unchanged |
| Sms.RemoveCommasConcat | app/src/main/java/com/smartbudge/app/data/local/sms/SmsReceiver.kt:49 | removal works piece by piece, so the kept characters stay in their order |
| Sms.ParseSms | app/src/main/java/com/smartbudge/app/data/local/sms/SmsReceiver.kt:41-77 | no match or no keyword gives null; the amount is the first match's; Expense iff an expense keyword occurs, else Income; fixed user, category 0, note "Auto-detected from " + sender |
| Sms.UnsignedAmount | app/src/main/java/com/smartbudge/app/data/local/sms/SmsReceiver.kt:45-50 | a parsed amount is never negative |
| Sms.ReadsStatedAmount | app/src/main/java/com/smartbudge/app/data/local/sms/SmsReceiver.kt:45-74 | a text "Tk n…" with a keyword is read with amount n |
| Sms.ReceiveSms | app/src/main/java/com/smartbudge/app/data/local/sms/SmsReceiver.kt:24-39 | only an SMS_RECEIVED broadcast writes; each message that parses adds exactly one row, its parsed transaction under a new key above the old ones; old rows unchanged |
| Calendar.StartAsWritten | app/src/main/java/com/smartbudge/app/ui/screens/home/HomeViewModel.kt:72-77 | the instant the calendar lands on lies within the second after midnight, at the clock's millisecond |
| Home.Recent | app/src/main/java/com/smartbudge/app/ui/screens/home/HomeViewModel.kt:27-29 | the first min(10, n) rows of the date-descending list |
| Home.BalanceIsIncomeMinusExpense | app/src/main/java/com/smartbudge/app/ui/screens/home/HomeViewModel.kt:38-61 | balance is income minus every non-income amount, and income minus expense when every type is Income or Expense |
| Home.MonthExpenses | app/src/main/java/com/smartbudge/app/ui/screens/home/HomeViewModel.kt:79-80 | each row occurs as often as in the list when it is an Expense dated at or after the month start, and not at all otherwise |
| Home.MonthlySpentAsWrittenMissesFirstInstant | app/src/main/java/com/smartbudge/app/ui/screens/home/HomeViewModel.kt:72-80 | an expense at the month's first instant is left out of the app's monthly sum, and counted by the corrected one |
| Home.MonthlyAtMostTotalExpense | app/src/main/java/com/smartbudge/app/ui/screens/home/HomeViewModel.kt:61-80 | with non-negative amounts, 0 ≤ monthly spent ≤ total expense |
| Home.DashboardOf | app/src/main/java/com/smartbudge/app/ui/screens/home/HomeViewModel.kt:27-80 | recent rows, income, expense and the month's spending are those of the user's date-descending listing |
| Home.DeleteTransaction | app/src/main/java/com/smartbudge/app/ui/screens/home/HomeViewModel.kt:88-92 | afterwards every user's list is the old list without the rows of that id, order kept |
| Reports.TimeFilterPicksWindow | app/src/main/java/com/smartbudge/app/ui/screens/reports/ReportsViewModel.kt:28-77 | the screen opens on the monthly window; a filter other than Weekly or Yearly shows the same breakdown as the initial one |
| Reports.WindowStartAsWritten | app/src/main/java/com/smartbudge/app/ui/screens/reports/ReportsViewModel.kt:39-58 | Weekly starts seven days back; Yearly and anything else start within the second after midnight of the year or month start |
| Reports.UnknownFilterIsMonthly | app/src/main/java/com/smartbudge/app/ui/screens/reports/ReportsViewModel.kt:39-58 | any filter but Weekly and Yearly gives the monthly window, and the yearly window contains it |
| Reports.ExpensesBetween | app/src/main/java/com/smartbudge/app/ui/screens/reports/ReportsViewModel.kt:60 | each row occurs as often as in the list when it is an Expense dated in [start, end], both ends included, and not at all otherwise |
| Reports.BreakdownFrom | app/src/main/java/com/smartbudge/app/ui/screens/reports/ReportsViewModel.kt:60-72 | empty when the window's total is 0; otherwise exactly the listed categories with a positive amount, sorted by amount descending, each with amount over total; each row occurs as often as its category is listed, so a listing without repeats gives a breakdown without repeats | |
| Reports.BreakdownTiesKeepCategoryOrder | app/src/main/java/com/smartbudge/app/ui/screens/reports/ReportsViewModel.kt:64-72 | the stable sort keeps categories with equal positive totals in the listing's order |
| Reports.BreakdownAsWrittenMissesFirstInstant | app/src/main/java/com/smartbudge/app/ui/screens/reports/ReportsViewModel.kt:51-60 | an expense at midnight of the first is missing from the app's monthly report, and present in the corrected one |
| Reports.MonthlyReportCountsMidnight | app/src/main/java/com/smartbudge/app/ui/screens/reports/ReportsViewModel.kt:51-72 | with the window starting at midnight, every positive expense of the month shows its category |
| Reports.SharesAddUp | app/src/main/java/com/smartbudge/app/ui/screens/reports/ReportsViewModel.kt:60-72 | each share is in (0, 1]; the shares add up to at most 1, and to 1 when every expense is in a listed category |
| Reports.CategoryTotalsBound | app/src/main/java/com/smartbudge/app/ui/screens/reports/ReportsViewModel.kt:61-66 | the per-category amounts of distinct categories add up to at most the window's total |
| Reports.CategorySpendingOf | app/src/main/java/com/smartbudge/app/ui/screens/reports/ReportsViewModel.kt:25-73 | the breakdown of the current user's transactions over their visible categories in the filter's window ending now: sorted by amount, each with its category total and share |
| Reports.ScreenSharesAddUp | app/src/main/java/com/smartbudge/app/ui/screens/reports/ReportsViewModel.kt:31-73 | on the screen, shares lie in (0, 1] and add up to at most 1 |
| AddTransaction.FreshFormSavesNothing | app/src/main/java/com/smartbudge/app/ui/screens/add/AddTransactionViewModel.kt:23-108 | saving an untouched form writes nothing and skips onSuccess |
| AddTransaction.SetIsIncome | app/src/main/java/com/smartbudge/app/ui/screens/add/AddTransactionViewModel.kt:79-82 | sets the flag, clears the selected category, touches nothing else |
| AddTransaction.InitType | app/src/main/java/com/smartbudge/app/ui/screens/add/AddTransactionViewModel.kt:139-141 | income iff the argument lower-cases to "income" |
| AddTransaction.OfferedCategories | app/src/main/java/com/smartbudge/app/ui/screens/add/AddTransactionViewModel.kt:41-48 | the user's visible categories, in their listing order, kept to the form's type; no category twice |
| AddTransaction.OfferedListsPartition | app/src/main/java/com/smartbudge/app/ui/screens/add/AddTransactionViewModel.kt:41-48 | each visible Income or Expense category is offered under exactly one of the two types |
| AddTransaction.AddNewCategory | app/src/main/java/com/smartbudge/app/ui/screens/add/AddTransactionViewModel.kt:62-77 | a blank name changes nothing; otherwise the trimmed name is stored with the form's type, colour #34C759 and the user, and the field is cleared |
| AddTransaction.AddedCategoryIsOffered | app/src/main/java/com/smartbudge/app/ui/screens/add/AddTransactionViewModel.kt:41-77 | a category just added is offered in the list of the form's type |
| AddTransaction.AmountOnlyFormSavesExpense | app/src/main/java/com/smartbudge/app/ui/screens/add/AddTransactionViewModel.kt:23-108 | a fresh form with only an amount typed saves one uncategorised Expense with that amount, an empty note and the current date, under a new key |
| AddTransaction.SaveTransaction | app/src/main/java/com/smartbudge/app/ui/screens/add/AddTransactionViewModel.kt:88-108 | an unparsable amount writes nothing and skips onSuccess; otherwise edit mode updates the edited id and new mode inserts a fresh row, then onSuccess |
| AddTransaction.SavedEntryIsListed | app/src/main/java/com/smartbudge/app/ui/screens/add/AddTransactionViewModel.kt:88-108 | a new entry then appears in the user's list |
| AddTransaction.InitForEdit | app/src/main/java/com/smartbudge/app/ui/screens/add/AddTransactionViewModel.kt:143-156 | a missing id changes nothing; otherwise the form takes the row's id, amount text, note and type, and its category when it exists |
| AddTransaction.SaveUnchangedEdit | app/src/main/java/com/smartbudge/app/ui/screens/add/AddTransactionViewModel.kt:88-156 | saving an unchanged edit rewrites the row with only its date moved to now |
| AddTransaction.DefaultCategories | app/src/main/java/com/smartbudge/app/ui/screens/add/AddTransactionViewModel.kt:115-131 | twelve categories owned by the user, six Income then six Expense |
| AddTransaction.SeedDefaults | app/src/main/java/com/smartbudge/app/ui/screens/add/AddTransactionViewModel.kt:110-138 | a user who sees no category gets the twelve defaults as fresh rows; otherwise nothing changes |
| AddTransaction.SeedDefaultsIdempotent | app/src/main/java/com/smartbudge/app/ui/screens/add/AddTransactionViewModel.kt:110-138 | seeding twice is seeding once |
| Auth.LoadingExactlyWhenValid | app/src/main/java/com/smartbudge/app/ui/screens/auth/AuthViewModel.kt:32-135 | each action reaches Loading iff online and its fields pass, with the password's length counted in UTF-16 code units; offline always gives the no-internet error |
| Auth.PasswordChecksOrder | app/src/main/java/com/smartbudge/app/ui/screens/auth/AuthViewModel.kt:74-81 | for every input, any blank field gives "All fields are required"; otherwise a password shorter than 6 UTF-16 code units as typed gives the short-password error; three emoji (six code units) pass |
| Text.Utf16Length | app/src/main/java/com/smartbudge/app/ui/screens/auth/AuthViewModel.kt:78 | `String.length` in UTF-16 code units: between the character count and twice it, equal to it exactly when every character is in the Basic Multilingual Plane, twice it exactly when none is |
| Auth.RestrictedMessageHint | app/src/main/java/com/smartbudge/app/ui/screens/auth/AuthViewModel.kt:98-152 | the hint replaces any message containing the phrase, and null messages become "Signup failed" or "Registration failed" |
| Auth.LoginCompleted | app/src/main/java/com/smartbudge/app/ui/screens/auth/AuthViewModel.kt:43-66 | success authenticates; the profile row is written iff the backend reports a signed-in user and the typed name is not blank |
| Auth.SignUpCompleted | app/src/main/java/com/smartbudge/app/ui/screens/auth/AuthViewModel.kt:84-103 | success authenticates and, with a current user, stores the profile with budget 0 |
| Auth.ResetCompleted | app/src/main/java/com/smartbudge/app/ui/screens/auth/AuthViewModel.kt:117-123 | success iff the reset mail was sent; failure passes the message or its default |
| Auth.RegisterCompleted | app/src/main/java/com/smartbudge/app/ui/screens/auth/AuthViewModel.kt:136-154 | success authenticates and, with a current user, stores the profile with an empty email |
| Auth.SignUpStoresProfile | app/src/main/java/com/smartbudge/app/ui/screens/auth/AuthViewModel.kt:69-104 | a valid sign-up that succeeds ends Authenticated with the profile stored |
| Auth.ResetStateSettles | app/src/main/java/com/smartbudge/app/ui/screens/auth/AuthViewModel.kt:24-188 | a reset is idempotent, leaves no error or pending state, keeps a signed-in session, and leaves the initial and logged-out states as they are |
| Profile.UpdateName | app/src/main/java/com/smartbudge/app/ui/screens/profile/ProfileViewModel.kt:57-74 | with a loaded user only its name changes; with none a row with email "" and budget 0 is inserted |
| Profile.UpdateMonthlyBudget | app/src/main/java/com/smartbudge/app/ui/screens/profile/ProfileViewModel.kt:38-55 | with a loaded user only its budget changes; with none a row named "User" with email "" is inserted |
| Profile.EditsTouchOneField | app/src/main/java/com/smartbudge/app/ui/screens/profile/ProfileViewModel.kt:38-74 | each edit changes exactly one field of the stored row, and the two edits commute |
| Profile.UploadBackup | app/src/main/java/com/smartbudge/app/ui/screens/profile/ProfileViewModel.kt:76-86 | offline shows the no-connection text and calls nothing; online shows "Uploading..." then "Backup Successful" iff the write succeeded |
| Profile.DownloadBackup | app/src/main/java/com/smartbudge/app/ui/screens/profile/ProfileViewModel.kt:88-98 | offline shows the no-connection text; online shows "Downloading..." then "Restore Successful" iff the restore succeeded; a missing backup reports "Backup not found" and keeps the data |
| Profile.BackupThenRestore | app/src/main/java/com/smartbudge/app/ui/screens/profile/ProfileViewModel.kt:76-98 | backing up then restoring reports success twice and leaves the data as it was |
| Profile.BackupThenRestoreOnNewDevice | app/src/main/java/com/smartbudge/app/ui/screens/profile/ProfileViewModel.kt:76-98 | a backup then a download into an empty database reports success twice and recovers the profile and transaction list |
| Profile.Offer | app/src/main/java/com/smartbudge/app/ui/screens/profile/ProfileViewModel.kt:119-130 | a found release shows its version; without the storage grant the status becomes "Storage Permission Required" and nothing starts; otherwise the download starts iff installs are allowed, else the install grant is requested |
| Profile.CheckForUpdatesFlow | app/src/main/java/com/smartbudge/app/ui/screens/profile/ProfileViewModel.kt:103-142 | offline: "No Internet Connection" then null; lookup failure: "Check failed" then null; no release: "Up to date" then null; a release: download iff both grants hold, install permission requested iff only storage holds, and storage checked first |
| Profile.DownloadOnlyWhenNewerAndPermitted | app/src/main/java/com/smartbudge/app/ui/screens/profile/ProfileViewModel.kt:116-140 | a download starts only for a newer release with both grants; the status is cleared iff no release was offered |
| Profile.SecondCheckUpToDate | app/src/main/java/com/smartbudge/app/ui/screens/profile/ProfileViewModel.kt:115-135 | after installing the offered version, the next check reports "Up to date" |
| CategoryModule.NamesToMatch | app/src/main/java/com/smartbudge/app/ui/screens/category/CategoryModuleViewModel.kt:28-33 | food, entertainment and utilities in any case map to their own groups of category names; any other name maps to itself, case kept |
| CategoryModule.AliasesIgnoreCase | app/src/main/java/com/smartbudge/app/ui/screens/category/CategoryModuleViewModel.kt:28-32 | spellings that differ only in case match the same group, but are matched literally otherwise |
| CategoryModule.CategoryTransactions | app/src/main/java/com/smartbudge/app/ui/screens/category/CategoryModuleViewModel.kt:24-38 | empty for the empty name; otherwise the user's date-descending listing kept to the rows whose category is named in the matched group, order kept, no row twice |
| CategoryModule.GroceriesListedUnderFood | app/src/main/java/com/smartbudge/app/ui/screens/category/CategoryModuleViewModel.kt:28-35 | asking for "FOOD" lists the user's groceries |
| CategoryModule.DeletedRowLeavesEveryList | app/src/main/java/com/smartbudge/app/ui/screens/category/CategoryModuleViewModel.kt:44-48 | the deleted row leaves every list and every other listed row stays |
| Details.Shown | app/src/main/java/com/smartbudge/app/ui/screens/details/TransactionDetailsViewModel.kt:29-32 | the row under the route's id, or under -1 when the route has none; none when no row has that id |
| Details.CategoryName | app/src/main/java/com/smartbudge/app/ui/screens/details/TransactionDetailsViewModel.kt:34-37 | the category's name when the row and its category exist, else "Uncategorized" |
| Details.DeleteThenNotify | app/src/main/java/com/smartbudge/app/ui/screens/details/TransactionDetailsViewModel.kt:39-44 | the row is deleted, other rows kept, and onSuccess runs |
| Details.ShownRowNamesItsCategory | app/src/main/java/com/smartbudge/app/ui/screens/details/TransactionDetailsViewModel.kt:31-37 | a stored row is shown with its stored category's name |
| Goals.SaveGoal | app/src/main/java/com/smartbudge/app/ui/screens/goals/AddGoalViewModel.kt:36-52 | an unparsable target or a blank title writes nothing and skips onSuccess; otherwise one fresh goal with the title, target, saved 0 and deadline now + 30 days, then onSuccess |
| Goals.SavedGoalIsListed | app/src/main/java/com/smartbudge/app/ui/screens/goals/AddGoalViewModel.kt:40-51 | the new goal appears in the owner's list with nothing saved and a deadline 2,592,000,000 ms out |
| Goals.Progress | app/src/main/java/com/smartbudge/app/ui/screens/goals/GoalsScreen.kt:174 | progress × target = saved for a positive target, else 0 |
| Goals.Fill | app/src/main/java/com/smartbudge/app/ui/screens/goals/GoalsScreen.kt:227 | the progress clamped to [0, 1] |
| Goals.Remaining | app/src/main/java/com/smartbudge/app/ui/screens/goals/GoalsScreen.kt:246 | never negative, at least target − saved, and either 0 or exactly target − saved |
| Goals.CompletedIffReached | app/src/main/java/com/smartbudge/app/ui/screens/goals/GoalsScreen.kt:174-254 | the completed mark shows iff saved ≥ target, and for a positive target iff the bar is full |
| Goals.Totals | app/src/main/java/com/smartbudge/app/ui/screens/goals/GoalsScreen.kt:75-76 | the saved and target totals add each goal's amounts once |
| Goals.RemainingCoversGap | app/src/main/java/com/smartbudge/app/ui/screens/goals/GoalsScreen.kt:75-246 | the remaining amounts add up to at least target total − saved total, exactly when no goal is over-saved |
| Goals.AllCompletedMeansTotalReached | app/src/main/java/com/smartbudge/app/ui/screens/goals/GoalsScreen.kt:75-254 | when every card is completed, the saved total reaches the target total |

## Left out

- Compose layout, navigation, toasts, `Log` output and the dark-mode preference: presentation only.
- Coroutines, `Flow`, `stateIn` and `delay(2000)`: each action is one sequential transition.
  A status reset to null is the last value in the list of statuses written.
- Firebase Auth, Firestore, HTTP, JSON, `DownloadManager`, intents, `FileProvider` and
  connectivity are inputs. These are a boolean flag, the uid, the backend's outcome, a store
  map, the fetch result, the completion events and whether the apk file exists.
- Exception messages from platform calls are not modelled; a failure carries "null" as its text.
- `uploadUserProfile`, which `AuthViewModel` calls after sign-in, is not defined in
  `BackupRepository.kt`. That call is not part of this model.
- `saveUserToDb` runs in its own coroutine. The model writes the profile row before the state
  becomes Authenticated.
- Time zones and calendar fields: the clock hands over `now`, seven days back, and midnight
  of the first of the month and year.
- `BudgetAlertDao`, `PreferenceRepository`, `MainViewModel`, `GoalsViewModel`, the database
  setup and dependency injection: they carry no logic of their own.
- Home.BalanceIsIncomeMinusExpense: amounts are exact reals everywhere in the model, and
  `Double` rounding is modelled nowhere. This identity is the one rounding breaks: with Income
  1e16, Expense 1e16 and Income 1.0, a one-pass `Double` balance gives 1.0 while income minus
  expense gives 0.0.
- Reports.BreakdownFrom: `percentage` is the exact quotient. The `toFloat()` rounding is not
  modelled.
- Text.ParseDecimal: `toDoubleOrNull` is modelled for plain decimals only (sign, digits and
  one point). Exponents, NaN, Infinity, hex and type suffixes are rejected.
- Text.Lower: case folding is ASCII only.
- Sms.ParseSms: the same ASCII-only folding applies to `(?i)` and `contains(ignoreCase)`.
- Goals.SaveGoal: `now + 30 days` is not wrapped at 64 bits.
- Home.DashboardOf: the month's spending starts at midnight of the first, as the corrected
  start in "## Findings" does. The screen as written leaves out expenses made in the first
  milliseconds after that midnight.
- Reports.CategorySpendingOf: the monthly and yearly windows start at midnight, as the
  corrected start in "## Findings" does. The screen as written misses the same instants.
- Goals.Progress, Goals.Fill and Goals.CompletedIffReached: progress is the exact quotient.
  The screen rounds it with `toFloat()`, so a target of 100000000 with 99999999 saved
  already shows a full bar.
- Text.IsWhitespace, Text.Trim and Text.IsBlank: only ASCII white space counts. Kotlin also
  treats Unicode spaces such as U+00A0 as blank. This affects the sign-in checks, new
  category names and goal titles.
- Text.ParseInt32: only ASCII digits are read, while `toIntOrNull` also accepts other
  Unicode decimal digits. This affects Versions.NumericParts.
- Profile.UpdateName: the `user` flow's last value is the `seen` parameter. A stale value can
  differ from the stored row, and the model does not say which one it is.
- AddTransaction.InitForEdit: `Double.toString` is the `show` parameter. Its formatting is not
  modelled.
- Auth.LoadingExactlyWhenValid: only the state entered before the backend call is stated. The
  call itself is an input to the `…Completed` functions.

## Findings

| source | as written | input that shows it | evidently intended | confidence | as-written member | corrected member |
|---|---|---|---|---|---|---|
| app/src/main/java/com/smartbudge/app/ui/screens/home/HomeViewModel.kt:72-80 | the month start sets DAY_OF_MONTH, HOUR_OF_DAY, MINUTE and SECOND but never MILLISECOND, so it lies up to 999 ms after midnight | clock 500 ms after midnight of the first; an expense of 25 dated exactly at midnight: monthly spent is 0 | the month starts at 00:00:00.000 and counts that expense | not executed | Home.MonthlySpentAsWrittenMissesFirstInstant | Home.MonthExpenses |
| app/src/main/java/com/smartbudge/app/ui/screens/reports/ReportsViewModel.kt:44-58 | the Yearly and Monthly starts keep the clock's millisecond in the same way | the same clock and expense: the monthly breakdown is empty | the window starts at midnight and the expense shows with share 1 | not executed | Reports.BreakdownAsWrittenMissesFirstInstant | Reports.MonthlyReportCountsMidnight |

=== FILE: add_transaction.dfy ===
/**
  `AddTransactionViewModel`: the add/edit transaction form, the category list
  it offers, and the default categories it seeds for a user with none.
*/
module AddTransaction {
  import opened Wrappers
  import opened Text
  import opened Entities
  import opened Tables
  import opened TransactionDao
  import opened CategoryDao

  const NEW_CATEGORY_COLOR: string := "#34C759"

  /** The form's state flows. `editingId` is set once a stored transaction has
      been loaded for editing. */
  datatype Form = Form(
    amount: string,
    note: string,
    isIncome: bool,
    selectedCategory: Option<Category>,
    newCategoryName: string,
    editingId: Option<int>)

  function InitialForm(): (f: Form)
    ensures !f.isIncome && f.selectedCategory.None? && f.editingId.None?
    ensures f.amount == "" && f.note == "" && f.newCategoryName == ""
  {
    Form("", "", false, None, "", None)
  }

  // ---------------------------------------------------------------------------
  // Setters

  function SetAmount(f: Form, value: string): Form {
    f.(amount := value)
  }

  function SetNote(f: Form, value: string): Form {
    f.(note := value)
  }

  function SetNewCategoryName(f: Form, value: string): Form {
    f.(newCategoryName := value)
  }

  function SetCategory(f: Form, c: Category): Form {
    f.(selectedCategory := Some(c))
  }

  /** `setIsIncome`: switching the type always drops the selected category. */
  function SetIsIncome(f: Form, value: bool): (r: Form)
    ensures r.isIncome == value && r.selectedCategory.None?
    ensures r.(isIncome := f.isIncome, selectedCategory := f.selectedCategory) == f
  {
    f.(isIncome := value, selectedCategory := None)
  }

  /** `initType`: the form is an income form exactly when the argument,
      lower-cased, is "income". */
  function InitType(f: Form, kind: string): (r: Form)
    ensures r.isIncome <==> |kind| == 6 && forall i :: 0 <= i < 6 ==> LowerChar(kind[i]) == "income"[i]
    ensures r.(isIncome := f.isIncome) == f
  {
    f.(isIncome := Lower(kind) == "income")
  }

  lemma InitTypeExamples(f: Form)
    ensures InitType(f, "Income").isIncome
    ensures InitType(f, "INCOME").isIncome
    ensures !InitType(f, "Expense").isIncome
    ensures !InitType(f, "").isIncome
  {
    assert "Expense"[0] == 'E';
  }

  // ---------------------------------------------------------------------------
  // The category list

  function CategoryOfKind(kind: string): Category -> bool {
    (c: Category) => c.kind == kind
  }

  /** `categories`: the user's visible categories of the form's current type. */
  function OfferedCategories(cats: CategoryTable, userId: string, isIncome: bool): (r: seq<Category>)
    ensures forall c :: c in r <==>
      c in cats.rows.Values && (c.userId == Some(userId) || c.userId.None?) && c.kind == KindName(isIncome)
    ensures r == Seqs.Filter(GetAllCategories(cats, userId), CategoryOfKind(KindName(isIncome)))
    ensures WfCategories(cats) ==> NoDuplicates(r)
  {
    var all := GetAllCategories(cats, userId);
    var r := Seqs.Filter(all, CategoryOfKind(KindName(isIncome)));
    Seqs.FilterMultiset(all, CategoryOfKind(KindName(isIncome)));
    assert forall c :: c in r <==> c in all && CategoryOfKind(KindName(isIncome))(c) by {
      forall c ensures c in r <==> c in all && CategoryOfKind(KindName(isIncome))(c) {
        Seqs.FilterMembership(all, CategoryOfKind(KindName(isIncome)), c);
      }
    }
    r
  }

  /** Switching the form's type swaps between two lists that split the user's
      visible Income and Expense categories: each such category is offered
      under exactly one type. */
  lemma OfferedListsPartition(cats: CategoryTable, userId: string)
    ensures forall c :: c in OfferedCategories(cats, userId, true) ==> c !in OfferedCategories(cats, userId, false)
    ensures forall c :: c in cats.rows.Values && (c.userId == Some(userId) || c.userId.None?) && (c.kind == INCOME || c.kind == EXPENSE) ==>
              c in OfferedCategories(cats, userId, true) || c in OfferedCategories(cats, userId, false)
  {
  }

  /** `addNewCategory`: a name that trims to nothing changes nothing; any other
      name is stored, trimmed, as a category of the form's type owned by the
      user, and the field is cleared. */
  function AddNewCategory(f: Form, cats: CategoryTable, userId: string): (r: (Form, CategoryTable))
    requires WfCategories(cats)
    ensures WfCategories(r.1)
    ensures IsBlank(f.newCategoryName) ==> r == (f, cats)
    ensures !IsBlank(f.newCategoryName) ==>
      && r.0 == f.(newCategoryName := "")
      && exists k :: k !in cats.rows && r.1.rows.Keys == cats.rows.Keys + {k}
           && r.1.rows[k] == Category(k, Some(userId), Trim(f.newCategoryName), KindName(f.isIncome), NEW_CATEGORY_COLOR)
    ensures forall k :: k in cats.rows ==> k in r.1.rows && r.1.rows[k] == cats.rows[k]
  {
    var name := Trim(f.newCategoryName);
    if |name| == 0 then (f, cats)
    else
      var c := Category(UNSET_ID, Some(userId), name, KindName(f.isIncome), NEW_CATEGORY_COLOR);
      var ins := InsertCategory(cats, c);
      (f.(newCategoryName := ""), ins.table)
  }

  /** A category just added is offered in the list of the form's type. */
  lemma AddedCategoryIsOffered(f: Form, cats: CategoryTable, userId: string)
    requires WfCategories(cats) && !IsBlank(f.newCategoryName)
    ensures exists c :: c in OfferedCategories(AddNewCategory(f, cats, userId).1, userId, f.isIncome)
                     && c.name == Trim(f.newCategoryName) && c !in cats.rows.Values
  {
    var r := AddNewCategory(f, cats, userId).1;
    var k :| k !in cats.rows && r.rows.Keys == cats.rows.Keys + {k}
             && r.rows[k] == Category(k, Some(userId), Trim(f.newCategoryName), KindName(f.isIncome), NEW_CATEGORY_COLOR);
    var c := r.rows[k];
    assert c in r.rows.Values;
    ValueAt(cats.rows, c);
  }

  // ---------------------------------------------------------------------------
  // Saving

  /** The row `saveTransaction` builds from the form: the editing id or 0, the
      form's type, the selected category or 0, and the current time. */
  function Draft(f: Form, userId: string, amount: real, now: int): (x: Transaction)
    ensures x.id == f.editingId.GetOr(UNSET_ID)
    ensures x.kind == INCOME <==> f.isIncome
    ensures x.kind == EXPENSE <==> !f.isIncome
    ensures f.selectedCategory.None? ==> x.categoryId == 0
    ensures f.selectedCategory.Some? ==> x.categoryId == f.selectedCategory.value.id
    ensures x.date == now && x.amount == amount && x.note == f.note && x.userId == userId
    ensures x.receiptUrl.None?
  {
    var categoryId := match f.selectedCategory case Some(c) => c.id case None => 0;
    Transaction(f.editingId.GetOr(UNSET_ID), userId, KindName(f.isIncome), amount, categoryId, now, f.note, None)
  }

  /** The table after saving, and whether `onSuccess` was called. */
  datatype Saved = Saved(table: TransactionTable, succeeded: bool)

  /** `saveTransaction`: an amount that does not parse writes nothing and never
      reports success; otherwise an edit updates the row with the editing id
      (if it still exists) and a new entry is inserted under a fresh key. */
  function SaveTransaction(f: Form, t: TransactionTable, userId: string, now: int): (r: Saved)
    requires WfTransactions(t)
    ensures WfTransactions(r.table)
    ensures ParseDecimal(f.amount).None? ==> r == Saved(t, false)
    ensures ParseDecimal(f.amount).Some? ==> r.succeeded
    ensures ParseDecimal(f.amount).Some? && f.editingId.Some? ==>
      var x := Draft(f, userId, ParseDecimal(f.amount).value, now);
      && r.table.rows.Keys == t.rows.Keys
      && (x.id in t.rows ==> r.table.rows[x.id] == x)
      && (x.id !in t.rows ==> r.table == t)
      && forall k :: k in t.rows && k != x.id ==> r.table.rows[k] == t.rows[k]
    ensures ParseDecimal(f.amount).Some? && f.editingId.None? ==>
      var x := Draft(f, userId, ParseDecimal(f.amount).value, now);
      && (exists k :: k !in t.rows && r.table.rows.Keys == t.rows.Keys + {k} && r.table.rows[k] == x.(id := k))
      && forall k :: k in t.rows ==> r.table.rows[k] == t.rows[k]
  {
    match ParseDecimal(f.amount)
    case None => Saved(t, false)
    case Some(amount) =>
      var x := Draft(f, userId, amount, now);
      if f.editingId.Some? then Saved(UpdateTransaction(t, x), true)
      else
        var ins := InsertTransaction(t, x);
        Saved(ins.table, true)
  }

  /** Saving a fresh form without typing an amount writes nothing. */
  lemma FreshFormSavesNothing(t: TransactionTable, userId: string, now: int)
    requires WfTransactions(t)
    ensures SaveTransaction(InitialForm(), t, userId, now) == Saved(t, false)
  {
  }

  /** Saving a fresh form with only an amount typed adds one uncategorised
      expense with that amount and an empty note, dated now, under a new key. */
  lemma AmountOnlyFormSavesExpense(t: TransactionTable, userId: string, now: int, amount: string)
    requires WfTransactions(t) && ParseDecimal(amount).Some?
    ensures var r := SaveTransaction(SetAmount(InitialForm(), amount), t, userId, now);
            && r.succeeded
            && exists k :: k !in t.rows && r.table.rows.Keys == t.rows.Keys + {k}
                 && r.table.rows[k] == Transaction(k, userId, EXPENSE, ParseDecimal(amount).value, 0, now, "", None)
  {
  }

  /** A new entry saved from the form shows up in the user's transaction list
      with the parsed amount and the form's type. */
  lemma SavedEntryIsListed(f: Form, t: TransactionTable, userId: string, now: int)
    requires WfTransactions(t) && f.editingId.None? && ParseDecimal(f.amount).Some?
    ensures exists x :: x in GetAllTransactions(SaveTransaction(f, t, userId, now).table, userId)
                     && x.amount == ParseDecimal(f.amount).value
                     && (x.kind == INCOME <==> f.isIncome) && x.date == now
  {
    var r := SaveTransaction(f, t, userId, now).table;
    var x := Draft(f, userId, ParseDecimal(f.amount).value, now);
    var k :| k !in t.rows && r.rows.Keys == t.rows.Keys + {k} && r.rows[k] == x.(id := k);
    assert r.rows[k] in r.rows.Values;
  }

  // ---------------------------------------------------------------------------
  // Editing

  /** `initForEdit(id)`: loads the stored transaction into the form. `show` is
      `Double.toString`, which the model takes as given. When the transaction's
      category row is missing, the selected category is left as it was. */
  function InitForEdit(f: Form, t: TransactionTable, cats: CategoryTable, id: int, show: real -> string): (r: Form)
    requires WfTransactions(t) && WfCategories(cats)
    ensures GetTransactionById(t, id).None? ==> r == f
    ensures GetTransactionById(t, id).Some? ==>
      var x := GetTransactionById(t, id).value;
      && r.editingId == Some(x.id) && r.amount == show(x.amount) && r.note == x.note
      && (r.isIncome <==> x.kind == INCOME)
      && r.newCategoryName == f.newCategoryName
      && r.selectedCategory == (if GetCategoryById(cats, x.categoryId).Some? then GetCategoryById(cats, x.categoryId) else f.selectedCategory)
  {
    match GetTransactionById(t, id)
    case None => f
    case Some(x) =>
      var loaded := f.(editingId := Some(x.id), amount := show(x.amount), note := x.note, isIncome := x.kind == INCOME);
      match GetCategoryById(cats, x.categoryId)
      case Some(c) => loaded.(selectedCategory := Some(c))
      case None => loaded
  }

  /** Opening a stored transaction for editing and saving it unchanged rewrites
      only its date, its type (anything but "Income" becomes "Expense"), its
      category when that category no longer exists (the form's earlier
      selection is used), and its receipt link, which is dropped. */
  lemma SaveUnchangedEdit(t: TransactionTable, cats: CategoryTable, id: int, show: real -> string, userId: string, now: int)
    requires WfTransactions(t) && WfCategories(cats)
    requires GetTransactionById(t, id).Some?
    requires ParseDecimal(show(GetTransactionById(t, id).value.amount)) == Some(GetTransactionById(t, id).value.amount)
    ensures var x := GetTransactionById(t, id).value;
            var f := InitForEdit(InitialForm(), t, cats, id, show);
            var r := SaveTransaction(f, t, userId, now);
            && r.succeeded
            && r.table.rows.Keys == t.rows.Keys
            && r.table.rows[id] == x.(userId := userId, kind := if x.kind == INCOME then INCOME else EXPENSE, date := now,
                                      categoryId := if x.categoryId in cats.rows then x.categoryId else 0,
                                      receiptUrl := None)
  {
    var x := GetTransactionById(t, id).value;
    var f := InitForEdit(InitialForm(), t, cats, id, show);
    assert x.id == id;
    if x.categoryId in cats.rows {
      assert cats.rows[x.categoryId].id == x.categoryId;
    }
  }

  // ---------------------------------------------------------------------------
  // Default categories

  function DefaultCategory(userId: string, name: string, kind: string, color: string): Category {
    Category(UNSET_ID, Some(userId), name, kind, color)
  }

  /** The twelve categories seeded for a user who sees none. */
  function DefaultCategories(userId: string): (r: seq<Category>)
    ensures |r| == 12
    ensures forall i :: 0 <= i < |r| ==> r[i].id == UNSET_ID && r[i].userId == Some(userId)
    ensures forall i :: 0 <= i < 6 ==> r[i].kind == INCOME && r[i].color == NEW_CATEGORY_COLOR
    ensures forall i :: 6 <= i < 12 ==> r[i].kind == EXPENSE
  {
    [ DefaultCategory(userId, "Salary", INCOME, NEW_CATEGORY_COLOR),
      DefaultCategory(userId, "Freelance", INCOME, NEW_CATEGORY_COLOR),
      DefaultCategory(userId, "Investments", INCOME, NEW_CATEGORY_COLOR),
      DefaultCategory(userId, "Gifts", INCOME, NEW_CATEGORY_COLOR),
      DefaultCategory(userId, "Rental", INCOME, NEW_CATEGORY_COLOR),
      DefaultCategory(userId, "Other Income", INCOME, NEW_CATEGORY_COLOR),
      DefaultCategory(userId, "Food & Dining", EXPENSE, "#FF9500"),
      DefaultCategory(userId, "Transportation", EXPENSE, "#5AC8FA"),
      DefaultCategory(userId, "Housing & Utilities", EXPENSE, "#FF3B30"),
      DefaultCategory(userId, "Shopping", EXPENSE, "#AF52DE"),
      DefaultCategory(userId, "Healthcare", EXPENSE, "#FF2D55"),
      DefaultCategory(userId, "Other Expenses", EXPENSE, "#8E8E93") ]
  }

  /** `forEach { insertCategory(it) }` over categories without an id: each
      receives a fresh key and no stored row changes. */
  function InsertCategories(t: CategoryTable, cs: seq<Category>): (r: CategoryTable)
    requires WfCategories(t)
    requires forall i :: 0 <= i < |cs| ==> cs[i].id == UNSET_ID
    ensures WfCategories(r)
    ensures |r.rows| == |t.rows| + |cs|
    ensures forall k :: k in t.rows ==> k in r.rows && r.rows[k] == t.rows[k]
    ensures forall i :: 0 <= i < |cs| ==> exists k :: k in r.rows && k !in t.rows && r.rows[k] == cs[i].(id := k)
    decreases |cs|
  {
    if |cs| == 0 then t
    else
      var ins := InsertCategory(t, cs[0]);
      var r := InsertCategories(ins.table, cs[1..]);
      InsertCategoriesStep(t, cs, ins, r);
      r
  }

  /** One step of `InsertCategories`: the first category, then the rest. */
  lemma InsertCategoriesStep(t: CategoryTable, cs: seq<Category>, ins: Inserted<Category>, r: CategoryTable)
    requires WfCategories(t) && |cs| > 0 && cs[0].id == UNSET_ID
    requires ins == InsertCategory(t, cs[0])
    requires |r.rows| == |ins.table.rows| + |cs[1..]|
    requires forall k :: k in ins.table.rows ==> k in r.rows && r.rows[k] == ins.table.rows[k]
    requires forall i :: 0 <= i < |cs[1..]| ==>
      exists k :: k in r.rows && k !in ins.table.rows && r.rows[k] == cs[1..][i].(id := k)
    ensures |r.rows| == |t.rows| + |cs|
    ensures forall k :: k in t.rows ==> k in r.rows && r.rows[k] == t.rows[k]
    ensures forall i :: 0 <= i < |cs| ==> exists k :: k in r.rows && k !in t.rows && r.rows[k] == cs[i].(id := k)
  {
    assert ins.table.rows.Keys == t.rows.Keys + {ins.key} && ins.key !in t.rows.Keys;
    assert |ins.table.rows.Keys| == |t.rows.Keys| + 1;
    forall i | 0 <= i < |cs| ensures exists k :: k in r.rows && k !in t.rows && r.rows[k] == cs[i].(id := k) {
      if i == 0 {
        assert ins.key in r.rows && ins.key !in t.rows;
      } else {
        assert cs[i] == cs[1..][i - 1];
      }
    }
  }

  /** The init block: a user who sees no category gets the twelve defaults;
      otherwise nothing changes. */
  function SeedDefaults(cats: CategoryTable, userId: string): (r: CategoryTable)
    requires WfCategories(cats)
    ensures WfCategories(r)
    ensures |GetAllCategories(cats, userId)| > 0 ==> r == cats
    ensures |GetAllCategories(cats, userId)| == 0 ==>
      && |r.rows| == |cats.rows| + 12
      && forall d :: d in DefaultCategories(userId) ==> exists k :: k in r.rows && k !in cats.rows && r.rows[k] == d.(id := k)
  {
    if |GetAllCategories(cats, userId)| == 0 then InsertCategories(cats, DefaultCategories(userId))
    else cats
  }

  /** Seeding twice is seeding once: after the first run the user sees the
      defaults, so the second run changes nothing. */
  lemma SeedDefaultsIdempotent(cats: CategoryTable, userId: string)
    requires WfCategories(cats)
    ensures SeedDefaults(SeedDefaults(cats, userId), userId) == SeedDefaults(cats, userId)
  {
    var r := SeedDefaults(cats, userId);
    if |GetAllCategories(cats, userId)| == 0 {
      var d := DefaultCategories(userId)[0];
      assert d in DefaultCategories(userId);
      var k :| k in r.rows && k !in cats.rows && r.rows[k] == d.(id := k);
      assert r.rows[k] in r.rows.Values;
      assert r.rows[k] in GetAllCategories(r, userId);
    }
  }
}

=== FILE: auth.dfy ===
/**
  `AuthViewModel`: the sign-in state machine. Each entry point first checks
  connectivity, then validates its fields, and only then moves to `Loading`
  and calls the identity backend; the backend's answer is a second, separate
  transition.
*/
module Auth {
  import opened Wrappers
  import opened Text
  import opened Entities
  import opened UserDao

  datatype AuthState = Idle | Loading | Authenticated | Success(message: string) | Error(error: string)

  const NO_INTERNET_PREFIX: string := "No Internet"
  const NO_INTERNET: string := NO_INTERNET_PREFIX + " Connection. Please check your network and try again."
  const NO_INTERNET_RESET: string := NO_INTERNET_PREFIX + " Connection. Please check your network to reset password."
  const EMPTY_CREDENTIALS: string := "Email and password cannot be empty"
  const MISSING_FIELDS: string := "All fields are required"
  const SHORT_PASSWORD: string := "Password must be at least 6 characters"
  const MIN_PASSWORD_LENGTH: nat := 6
  const MISSING_NAME: string := "Please enter a name"
  const MISSING_EMAIL: string := "Please enter your email"
  const RESET_SENT: string := "Password reset email sent"
  const LOGIN_FAILED: string := "Login failed"
  const SIGNUP_FAILED: string := "Signup failed"
  const RESET_FAILED: string := "Failed to send reset email"
  const REGISTRATION_FAILED: string := "Registration failed"
  const RESTRICTED: string := "restricted to administrators"
  const EMAIL_PROVIDER_HINT: string := "Firebase Auth Error: Please enable 'Email/Password' in your Firebase Console."
  const ANONYMOUS_PROVIDER_HINT: string := "Firebase Auth Error: Please enable 'Anonymous' authentication in your Firebase Console."

  /** What the backend task reported: success, with whether `currentUser` was
      then non-null, or failure with the exception's message (if any). */
  datatype BackendResult = Succeeded(hasUser: bool) | Failed(message: Option<string>)

  /** Case-sensitive `contains`. */
  predicate Contains(s: string, needle: string)
    decreases |s|
  {
    (|needle| <= |s| && s[..|needle|] == needle) || (|s| > 0 && Contains(s[1..], needle))
  }

  lemma {:induction false} ContainsAfter(prefix: string, needle: string, rest: string)
    ensures Contains(prefix + needle + rest, needle)
    decreases |prefix|
  {
    var s := prefix + needle + rest;
    if |prefix| == 0 {
      assert s == needle + rest;
      assert s[..|needle|] == needle;
    } else {
      ContainsAfter(prefix[1..], needle, rest);
      assert s[1..] == prefix[1..] + needle + rest;
    }
  }

  lemma {:induction false} ShortNeverContains(s: string, needle: string)
    requires |s| < |needle|
    ensures !Contains(s, needle)
    decreases |s|
  {
    if |s| > 0 {
      ShortNeverContains(s[1..], needle);
    }
  }

  predicate StartsWith(s: string, prefix: string) {
    |prefix| <= |s| && s[..|prefix|] == prefix
  }

  lemma NoInternetMessages()
    ensures StartsWith(NO_INTERNET, NO_INTERNET_PREFIX)
    ensures StartsWith(NO_INTERNET_RESET, NO_INTERNET_PREFIX)
  {
    assert NO_INTERNET[..|NO_INTERNET_PREFIX|] == NO_INTERNET_PREFIX;
    assert NO_INTERNET_RESET[..|NO_INTERNET_PREFIX|] == NO_INTERNET_PREFIX;
  }

  // ---------------------------------------------------------------------------
  // Starting an operation

  /** The state set by the synchronous part of `login`. */
  function Login(online: bool, email: string, password: string): AuthState {
    if !online then Error(NO_INTERNET)
    else if IsBlank(email) || IsBlank(password) then Error(EMPTY_CREDENTIALS)
    else Loading
  }

  /** The state set by the synchronous part of `signUp`: blank fields are
      reported before a short password, and the length is that of the password
      as typed, in UTF-16 code units as Kotlin's `String.length` counts. */
  function SignUp(online: bool, email: string, password: string, name: string): AuthState {
    if !online then Error(NO_INTERNET)
    else if IsBlank(email) || IsBlank(password) || IsBlank(name) then Error(MISSING_FIELDS)
    else if Utf16Length(password) < MIN_PASSWORD_LENGTH then Error(SHORT_PASSWORD)
    else Loading
  }

  function ResetPassword(online: bool, email: string): AuthState {
    if !online then Error(NO_INTERNET_RESET)
    else if IsBlank(email) then Error(MISSING_EMAIL)
    else Loading
  }

  function RegisterWithName(online: bool, name: string): AuthState {
    if !online then Error(NO_INTERNET)
    else if IsBlank(name) then Error(MISSING_NAME)
    else Loading
  }

  /** Each entry point reaches `Loading`, and so calls the backend, exactly when
      the device is online and the fields pass validation; offline, each sets
      an error starting with "No Internet". */
  lemma LoadingExactlyWhenValid(online: bool, email: string, password: string, name: string)
    ensures Login(online, email, password) == Loading <==> online && !IsBlank(email) && !IsBlank(password)
    ensures SignUp(online, email, password, name) == Loading <==>
              online && !IsBlank(email) && !IsBlank(password) && !IsBlank(name) && Utf16Length(password) >= MIN_PASSWORD_LENGTH
    ensures ResetPassword(online, email) == Loading <==> online && !IsBlank(email)
    ensures RegisterWithName(online, name) == Loading <==> online && !IsBlank(name)
    ensures !online ==>
      && Login(online, email, password).Error? && StartsWith(Login(online, email, password).error, NO_INTERNET_PREFIX)
      && SignUp(online, email, password, name).Error? && StartsWith(SignUp(online, email, password, name).error, NO_INTERNET_PREFIX)
      && ResetPassword(online, email).Error? && StartsWith(ResetPassword(online, email).error, NO_INTERNET_PREFIX)
      && RegisterWithName(online, name).Error? && StartsWith(RegisterWithName(online, name).error, NO_INTERNET_PREFIX)
  {
    NoInternetMessages();
  }

  /** Blank fields are reported before a short password, and the length
      checked is that of the password as typed, in UTF-16 code units: a
      six-space password is reported as a missing field, a padded four-letter
      one passes, and so do three emoji, six code units between them. */
  lemma PasswordChecksOrder(email: string, password: string, name: string)
    ensures IsBlank(email) || IsBlank(password) || IsBlank(name) ==>
              SignUp(true, email, password, name) == Error(MISSING_FIELDS)
    ensures !IsBlank(email) && !IsBlank(password) && !IsBlank(name) && Utf16Length(password) < MIN_PASSWORD_LENGTH ==>
              SignUp(true, email, password, name) == Error(SHORT_PASSWORD)
    ensures SignUp(true, "a@b.c", "      ", "Ann") == Error(MISSING_FIELDS)
    ensures SignUp(true, "a@b.c", " abcd ", "Ann") == Loading
    ensures SignUp(true, "a@b.c", "abcde", "Ann") == Error(SHORT_PASSWORD)
    ensures SignUp(true, "a@b.c", "\U{1F600}\U{1F600}\U{1F600}", "Ann") == Loading
  {
    assert IsBlank("      ");
    assert !IsWhitespace(" abcd "[1]) && !IsWhitespace("abcde"[0]) && !IsWhitespace("\U{1F600}\U{1F600}\U{1F600}"[0]);
    SignUpOfPassword(" abcd ", 6);
    SignUpOfPassword("abcde", 5);
    SignUpOfPassword("\U{1F600}\U{1F600}\U{1F600}", 6);
  }

  /** Sign-up of "a@b.c" and "Ann" with a visible password of `units` code
      units: accepted from six units on, else reported as short. */
  lemma SignUpOfPassword(password: string, units: nat)
    requires !IsBlank(password)
    requires Utf16Length(password) == units
    ensures SignUp(true, "a@b.c", password, "Ann") == if units < MIN_PASSWORD_LENGTH then Error(SHORT_PASSWORD) else Loading
  {
    assert !IsBlank("a@b.c") by { assert !IsWhitespace("a@b.c"[0]); }
    assert !IsBlank("Ann") by { assert !IsWhitespace("Ann"[0]); }
  }

  // ---------------------------------------------------------------------------
  // The backend's answer

  /** The error state for a failed backend task: the message, or the
      operation's default when there is none, replaced by a configuration hint
      when it says the provider is restricted to administrators. */
  function FailureState(message: Option<string>, default: string, hint: string): (r: AuthState)
    ensures r.Error?
    ensures Contains(message.GetOr(default), RESTRICTED) ==> r.error == hint
    ensures !Contains(message.GetOr(default), RESTRICTED) ==> r.error == message.GetOr(default)
  {
    var error := message.GetOr(default);
    if Contains(error, RESTRICTED) then Error(hint) else Error(error)
  }

  /** The row `saveUserToDb` writes: no budget yet, created now. */
  function NewUser(uid: string, name: string, email: string, now: int): (u: User)
    ensures u.userId == uid && u.name == name && u.email == email
    ensures u.monthlyBudget == 0.0 && u.createdAt == now
  {
    User(uid, name, email, 0.0, now)
  }

  /** `login`'s completion. On success with a user, `users` is the table after
      the cloud restore ran; a non-blank name typed at login is saved. */
  function LoginCompleted(result: BackendResult, users: UserTable, uid: string, email: string, name: string, now: int)
    : (r: (AuthState, UserTable))
    requires WfUsers(users)
    ensures WfUsers(r.1)
    ensures result.Succeeded? ==> r.0 == Authenticated
    ensures result.Failed? ==> r.0 == FailureState(result.message, LOGIN_FAILED, EMAIL_PROVIDER_HINT)
    ensures r.1 != users ==> result == Succeeded(true) && !IsBlank(name) && r.1 == InsertUser(users, NewUser(uid, name, email, now))
    ensures result == Succeeded(true) && !IsBlank(name) ==> r.1 == InsertUser(users, NewUser(uid, name, email, now))
  {
    match result
    case Succeeded(hasUser) =>
      if hasUser && !IsBlank(name) then (Authenticated, InsertUser(users, NewUser(uid, name, email, now)))
      else (Authenticated, users)
    case Failed(message) => (FailureState(message, LOGIN_FAILED, EMAIL_PROVIDER_HINT), users)
  }

  function SignUpCompleted(result: BackendResult, users: UserTable, uid: string, email: string, name: string, now: int)
    : (r: (AuthState, UserTable))
    requires WfUsers(users)
    ensures WfUsers(r.1)
    ensures result.Succeeded? ==> r.0 == Authenticated
    ensures result == Succeeded(true) ==> r.1 == InsertUser(users, NewUser(uid, name, email, now))
    ensures result != Succeeded(true) ==> r.1 == users
    ensures result.Failed? ==> r.0 == FailureState(result.message, SIGNUP_FAILED, EMAIL_PROVIDER_HINT)
  {
    match result
    case Succeeded(hasUser) =>
      if hasUser then (Authenticated, InsertUser(users, NewUser(uid, name, email, now)))
      else (Authenticated, users)
    case Failed(message) => (FailureState(message, SIGNUP_FAILED, EMAIL_PROVIDER_HINT), users)
  }

  /** `resetPassword`'s completion; its failure message is passed through
      without the restricted-provider check. */
  function ResetCompleted(result: BackendResult): (r: AuthState)
    ensures result.Succeeded? <==> r == Success(RESET_SENT)
    ensures result.Failed? ==> r == Error(result.message.GetOr(RESET_FAILED))
  {
    match result
    case Succeeded(_) => Success(RESET_SENT)
    case Failed(message) => Error(message.GetOr(RESET_FAILED))
  }

  function RegisterCompleted(result: BackendResult, users: UserTable, uid: string, name: string, now: int)
    : (r: (AuthState, UserTable))
    requires WfUsers(users)
    ensures WfUsers(r.1)
    ensures result.Succeeded? ==> r.0 == Authenticated
    ensures result == Succeeded(true) ==> r.1 == InsertUser(users, NewUser(uid, name, "", now))
    ensures result != Succeeded(true) ==> r.1 == users
    ensures result.Failed? ==> r.0 == FailureState(result.message, REGISTRATION_FAILED, ANONYMOUS_PROVIDER_HINT)
  {
    match result
    case Succeeded(hasUser) =>
      if hasUser then (Authenticated, InsertUser(users, NewUser(uid, name, "", now)))
      else (Authenticated, users)
    case Failed(message) => (FailureState(message, REGISTRATION_FAILED, ANONYMOUS_PROVIDER_HINT), users)
  }

  /** The whole `signUp`: the synchronous checks, then, if the backend was
      called, its answer. */
  function SignUpFlow(online: bool, email: string, password: string, name: string,
                      result: BackendResult, users: UserTable, uid: string, now: int): (r: (AuthState, UserTable))
    requires WfUsers(users)
    ensures WfUsers(r.1)
    ensures r.0 == Authenticated <==> SignUp(online, email, password, name) == Loading && result.Succeeded?
    ensures r.1 != users ==> r.0 == Authenticated && GetUser(r.1, uid) == Some(NewUser(uid, name, email, now))
  {
    var started := SignUp(online, email, password, name);
    if started != Loading then (started, users)
    else SignUpCompleted(result, users, uid, email, name, now)
  }

  /** A successful sign-up stores a profile under the new uid with an empty
      budget. */
  lemma SignUpStoresProfile(email: string, password: string, name: string, users: UserTable, uid: string, now: int)
    requires WfUsers(users)
    requires SignUp(true, email, password, name) == Loading
    ensures var r := SignUpFlow(true, email, password, name, Succeeded(true), users, uid, now);
            r.0 == Authenticated && GetUser(r.1, uid) == Some(NewUser(uid, name, email, now))
  {
    WriteThenGet(users, NewUser(uid, name, email, now));
  }

  /** The configuration hint replaces exactly the messages that mention the
      restriction; a missing message falls back to the operation's default. */
  lemma RestrictedMessageHint(prefix: string, suffix: string)
    ensures FailureState(Some(prefix + RESTRICTED + suffix), SIGNUP_FAILED, EMAIL_PROVIDER_HINT) == Error(EMAIL_PROVIDER_HINT)
    ensures FailureState(None, SIGNUP_FAILED, EMAIL_PROVIDER_HINT) == Error(SIGNUP_FAILED)
    ensures FailureState(None, REGISTRATION_FAILED, ANONYMOUS_PROVIDER_HINT) == Error(REGISTRATION_FAILED)
  {
    ContainsAfter(prefix, RESTRICTED, suffix);
    ShortNeverContains(SIGNUP_FAILED, RESTRICTED);
    ShortNeverContains(REGISTRATION_FAILED, RESTRICTED);
  }

  // ---------------------------------------------------------------------------
  // Leaving

  /** The view-model's initial state. */
  function Init(hasCurrentUser: bool): (r: AuthState)
    ensures r == Authenticated <==> hasCurrentUser
    ensures !hasCurrentUser ==> r == Idle
  {
    if hasCurrentUser then Authenticated else Idle
  }

  function Logout(s: AuthState): (r: AuthState)
    ensures r == Idle
  {
    Idle
  }

  /** `resetState`: clears errors, messages and loading, but never signs out. */
  function ResetState(s: AuthState): (r: AuthState)
    ensures s == Authenticated ==> r == s
    ensures s != Authenticated ==> r == Idle
  {
    if s.Authenticated? then s else Idle
  }

  /** Resetting twice is resetting once, and a reset never leaves an error or a
      pending operation behind. */
  lemma ResetStateSettles(s: AuthState)
    ensures ResetState(ResetState(s)) == ResetState(s)
    ensures ResetState(s) == Idle || ResetState(s) == Authenticated
    ensures Logout(s) == ResetState(Logout(s))
    ensures forall signedIn: bool :: ResetState(Init(signedIn)) == Init(signedIn)
  {
  }
}

=== FILE: backup.dfy ===
/**
  `BackupRepository`: uploading the signed-in user's profile and transactions
  as one cloud document, and restoring them from it. The cloud store is a map
  from document id to document; whether a request reaches it is a parameter,
  and so is the clock.
*/
module Backup {
  import opened Wrappers
  import opened Text
  import opened Entities
  import opened Tables
  import opened TransactionDao
  import opened UserDao

  const ANONYMOUS: string := "anonymous"
  const BACKUP_NOT_FOUND: string := "Backup not found"
  const NO_DATA_FOUND: string := "No data found"
  const DEFAULT_USER_NAME: string := "User"

  const LONG_MIN: int := -0x8000_0000_0000_0000
  const LONG_MAX: int := 0x7FFF_FFFF_FFFF_FFFF

  /** A value stored in a cloud document. Whole numbers are stored as 64-bit
      integers, Kotlin `Double`s as floating-point numbers. */
  datatype Value =
    | VNull
    | VBool(b: bool)
    | VLong(n: int)
    | VDouble(x: real)
    | VString(s: string)
    | VList(items: seq<Value>)
    | VMap(fields: map<string, Value>)

  type Document = map<string, Value>
  type CloudStore = map<string, Document>

  /** The local database the repository reads and writes. */
  datatype Local = Local(users: UserTable, transactions: TransactionTable)

  ghost predicate WfLocal(l: Local) {
    WfUsers(l.users) && WfTransactions(l.transactions)
  }

  datatype Outcome = Success | Failure(message: Option<string>)

  /** `auth.currentUser?.uid ?: "anonymous"` */
  function CurrentUserId(uid: Option<string>): (r: string)
    ensures uid.Some? ==> r == uid.value
    ensures uid.None? ==> r == ANONYMOUS
  {
    uid.GetOr(ANONYMOUS)
  }

  // ---------------------------------------------------------------------------
  // Kotlin number conversions

  predicate IsLong(n: int) {
    LONG_MIN <= n <= LONG_MAX
  }

  /** `Long.toInt()`: keeps the low 32 bits, read as two's complement. */
  function Wrap32(n: int): (r: int)
    ensures IsInt32(r)
    ensures (n - r) % 0x1_0000_0000 == 0
    ensures IsInt32(n) ==> r == n
  {
    (n - INT_MIN) % 0x1_0000_0000 + INT_MIN
  }

  /** Rounding toward zero, as a JVM cast from `double` does. */
  function TruncateTowardZero(x: real): (r: int)
    ensures x >= 0.0 ==> r as real <= x < r as real + 1.0
    ensures x < 0.0 ==> r as real - 1.0 < x <= r as real
  {
    if x >= 0.0 then x.Floor else -((-x).Floor)
  }

  function Clamp(n: int, lo: int, hi: int): (r: int)
    requires lo <= hi
    ensures lo <= r <= hi
    ensures lo <= n <= hi ==> r == n
  {
    if n < lo then lo else if n > hi then hi else n
  }

  predicate IsNumber(v: Value) {
    v.VLong? || v.VDouble?
  }

  /** `Number.toInt()`: a 64-bit integer keeps its low 32 bits; a double is
      rounded toward zero and saturates at the ends of the `Int` range. */
  function ToInt(v: Value): (r: int)
    requires IsNumber(v)
    ensures IsInt32(r)
    ensures v.VLong? ==> (v.n - r) % 0x1_0000_0000 == 0
    ensures v.VLong? && IsInt32(v.n) ==> r == v.n
    ensures v.VDouble? && 0.0 <= v.x < INT_MAX as real ==> r as real <= v.x < r as real + 1.0
    ensures v.VDouble? && INT_MIN as real < v.x < 0.0 ==> r as real - 1.0 < v.x <= r as real
    ensures v.VDouble? && v.x >= INT_MAX as real ==> r == INT_MAX
    ensures v.VDouble? && v.x <= INT_MIN as real ==> r == INT_MIN
  {
    match v
    case VLong(n) => Wrap32(n)
    case VDouble(x) => Clamp(TruncateTowardZero(x), INT_MIN, INT_MAX)
  }

  /** `Number.toLong()`: a 64-bit integer as it is; a double rounded toward
      zero and saturated at the ends of the `Long` range. */
  function ToLong(v: Value): (r: int)
    requires IsNumber(v)
    ensures v.VLong? ==> r == v.n
    ensures v.VDouble? ==> IsLong(r)
    ensures v.VDouble? && 0.0 <= v.x < LONG_MAX as real ==> r as real <= v.x < r as real + 1.0
    ensures v.VDouble? && LONG_MIN as real < v.x < 0.0 ==> r as real - 1.0 < v.x <= r as real
    ensures v.VDouble? && v.x >= LONG_MAX as real ==> r == LONG_MAX
    ensures v.VDouble? && v.x <= LONG_MIN as real ==> r == LONG_MIN
  {
    match v
    case VLong(n) => n
    case VDouble(x) => Clamp(TruncateTowardZero(x), LONG_MIN, LONG_MAX)
  }

  /** `Number.toDouble()` */
  function ToDouble(v: Value): (r: real)
    requires IsNumber(v)
    ensures v.VDouble? ==> r == v.x
    ensures v.VLong? ==> r == v.n as real
  {
    match v
    case VLong(n) => n as real
    case VDouble(x) => x
  }

  // ---------------------------------------------------------------------------
  // Reading fields with `as?` and a fallback

  /** `m[key] as? String` */
  function StringField(m: map<string, Value>, key: string): (r: Option<string>)
    ensures r.Some? <==> key in m && m[key].VString?
    ensures r.Some? ==> m[key] == VString(r.value)
  {
    if key in m && m[key].VString? then Some(m[key].s) else None
  }

  function StringOr(m: map<string, Value>, key: string, default: string): string {
    StringField(m, key).GetOr(default)
  }

  function IntOr(m: map<string, Value>, key: string, default: int): int {
    if key in m && IsNumber(m[key]) then ToInt(m[key]) else default
  }

  function LongOr(m: map<string, Value>, key: string, default: int): int {
    if key in m && IsNumber(m[key]) then ToLong(m[key]) else default
  }

  function DoubleOr(m: map<string, Value>, key: string, default: real): real {
    if key in m && IsNumber(m[key]) then ToDouble(m[key]) else default
  }

  // ---------------------------------------------------------------------------
  // Encoding (the document `uploadData` writes)

  function EncodeUser(u: User): Value {
    VMap(map[
      "user_id" := VString(u.userId),
      "name" := VString(u.name),
      "email" := VString(u.email),
      "monthly_budget" := VDouble(u.monthlyBudget),
      "created_at" := VLong(u.createdAt)])
  }

  function EncodeTransaction(t: Transaction): Value {
    VMap(map[
      "transaction_id" := VLong(t.id),
      "user_id" := VString(t.userId),
      "type" := VString(t.kind),
      "amount" := VDouble(t.amount),
      "category_id" := VLong(t.categoryId),
      "date" := VLong(t.date),
      "note" := VString(t.note),
      "receipt_url" := if t.receiptUrl.Some? then VString(t.receiptUrl.value) else VNull])
  }

  function EncodeTransactions(txs: seq<Transaction>): (r: seq<Value>)
    ensures |r| == |txs|
    ensures forall i :: 0 <= i < |txs| ==> r[i] == EncodeTransaction(txs[i])
  {
    seq(|txs|, i requires 0 <= i < |txs| => EncodeTransaction(txs[i]))
  }

  /** The backup document: the user row (null when there is none), the user's
      transactions, and the time of the backup. */
  function BackupDocument(user: Option<User>, txs: seq<Transaction>, now: int): (d: Document)
    ensures d.Keys == {"user", "transactions", "last_backup"}
    ensures d["user"].VNull? <==> user.None?
    ensures d["transactions"].VList? && |d["transactions"].items| == |txs|
    ensures d["last_backup"] == VLong(now)
  {
    map[
      "user" := if user.Some? then EncodeUser(user.value) else VNull,
      "transactions" := VList(EncodeTransactions(txs)),
      "last_backup" := VLong(now)]
  }

  /** The document `uploadData` builds for user `me`: the user's row and the
      user's transactions, newest first. */
  function BackupOf(l: Local, me: string, now: int): Document
    requires WfLocal(l)
  {
    BackupDocument(GetUser(l.users, me), GetAllTransactions(l.transactions, me), now)
  }

  /** `uploadData()`: writes the current user's backup document, replacing any
      earlier one; a failed write leaves the store as it was. */
  function Upload(l: Local, uid: Option<string>, now: int, store: CloudStore, writeSucceeds: bool)
    : (r: (CloudStore, Outcome))
    requires WfLocal(l)
    ensures r.1 == Success <==> writeSucceeds
    ensures r.1.Failure? ==> r.0 == store
    ensures r.1 == Success ==> r.0.Keys == store.Keys + {CurrentUserId(uid)}
    ensures forall k :: k in store && k != CurrentUserId(uid) ==> k in r.0 && r.0[k] == store[k]
    ensures r.1 == Success ==> CurrentUserId(uid) in r.0 && r.0[CurrentUserId(uid)] == BackupOf(l, CurrentUserId(uid), now)
  {
    var me := CurrentUserId(uid);
    var doc := BackupOf(l, me, now);
    if writeSucceeds then (store[me := doc], Success) else (store, Failure(None))
  }

  // ---------------------------------------------------------------------------
  // Decoding (what `downloadData` rebuilds), with the app's fallbacks

  function DecodeUser(m: map<string, Value>, me: string, now: int): User {
    User(
      StringOr(m, "user_id", me),
      StringOr(m, "name", DEFAULT_USER_NAME),
      StringOr(m, "email", ""),
      DoubleOr(m, "monthly_budget", 0.0),
      LongOr(m, "created_at", now))
  }

  function DecodeTransaction(m: map<string, Value>, me: string, now: int): (t: Transaction)
    ensures IsInt32(t.id) && IsInt32(t.categoryId)
  {
    Transaction(
      IntOr(m, "transaction_id", UNSET_ID),
      StringOr(m, "user_id", me),
      StringOr(m, "type", EXPENSE),
      DoubleOr(m, "amount", 0.0),
      IntOr(m, "category_id", 0),
      LongOr(m, "date", now),
      StringOr(m, "note", ""),
      StringField(m, "receipt_url"))
  }

  /** The `map` over the transaction list; an element that is not a map makes
      the cast inside the lambda throw, which fails the whole list. */
  function DecodeTransactions(items: seq<Value>, me: string, now: int): (r: Option<seq<Transaction>>)
    ensures r.Some? <==> forall i :: 0 <= i < |items| ==> items[i].VMap?
    ensures r.Some? ==> |r.value| == |items|
    ensures r.Some? ==> forall i :: 0 <= i < |items| ==>
      r.value[i] == DecodeTransaction(items[i].fields, me, now)
    decreases |items|
  {
    if |items| == 0 then Some([])
    else if !items[0].VMap? then None
    else match DecodeTransactions(items[1..], me, now)
      case None =>
        assert !forall i :: 0 <= i < |items[1..]| ==> items[1..][i].VMap?;
        None
      case Some(rest) => Some([DecodeTransaction(items[0].fields, me, now)] + rest)
  }

  /** Some entry at position `lo` or later carries id `k`. */
  predicate NamedFrom(txs: seq<Transaction>, lo: nat, k: int) {
    exists j :: lo <= j < |txs| && txs[j].id == k
  }

  lemma NamedFromTail(txs: seq<Transaction>, lo: nat, k: int)
    requires |txs| > 0
    ensures NamedFrom(txs, lo + 1, k) <==> NamedFrom(txs[1..], lo, k)
  {
    if NamedFrom(txs, lo + 1, k) {
      var j :| lo + 1 <= j < |txs| && txs[j].id == k;
      assert txs[1..][j - 1].id == k;
    }
    if NamedFrom(txs[1..], lo, k) {
      var j :| lo <= j < |txs[1..]| && txs[1..][j].id == k;
      assert txs[j + 1].id == k;
    }
  }

  /** `r` is `t` after upserting the entries `txs` in turn. A row that no entry
      names is kept; an entry with an id is stored under it unless a later
      entry names the same id; an entry without one is stored under a fresh
      key, unless a later entry names that key. Every row comes from the table
      or from an entry, under the entry's own id or a fresh key. */
  ghost predicate Upserted(t: TransactionTable, txs: seq<Transaction>, r: TransactionTable) {
    && t.rows.Keys <= r.rows.Keys
    && r.lastKey >= t.lastKey
    && (forall k :: k in r.rows ==>
         (k in t.rows && r.rows[k] == t.rows[k]) ||
         exists i :: 0 <= i < |txs| && (txs[i].id == k || txs[i].id == UNSET_ID) && r.rows[k] == txs[i].(id := k))
    && (forall k :: k in t.rows && !NamedFrom(txs, 0, k) ==> r.rows[k] == t.rows[k])
    && (forall i :: 0 <= i < |txs| && txs[i].id != UNSET_ID && !NamedFrom(txs, i + 1, txs[i].id) ==>
         txs[i].id in r.rows && r.rows[txs[i].id] == txs[i])
    && (forall i :: 0 <= i < |txs| && txs[i].id == UNSET_ID ==>
         exists k :: k !in t.rows && k in r.rows && (!NamedFrom(txs, i + 1, k) ==> r.rows[k] == txs[i].(id := k)))
  }

  /** `transactions.forEach { transactionDao.insertTransaction(it) }` */
  function InsertAll(t: TransactionTable, txs: seq<Transaction>): (r: TransactionTable)
    requires WfTransactions(t)
    ensures WfTransactions(r)
    ensures Upserted(t, txs, r)
    decreases |txs|
  {
    if |txs| == 0 then t
    else
      var ins := InsertTransaction(t, txs[0]);
      var r := InsertAll(ins.table, txs[1..]);
      InsertAllStep(t, txs, ins, r);
      r
  }

  /** One step of `InsertAll`: upserting the first entry, then the rest. */
  lemma InsertAllStep(t: TransactionTable, txs: seq<Transaction>, ins: Inserted<Transaction>, r: TransactionTable)
    requires WfTransactions(t) && |txs| > 0
    requires ins == InsertTransaction(t, txs[0])
    requires WfTransactions(r) && Upserted(ins.table, txs[1..], r)
    ensures Upserted(t, txs, r)
  {
    StepRowsFrom(t, txs, ins, r);
    StepUnnamedKept(t, txs, ins, r);
    StepNamedStored(t, txs, ins, r);
    StepUnsetStored(t, txs, ins, r);
  }

  /** Every row after the step is an old row or comes from an entry. */
  lemma StepRowsFrom(t: TransactionTable, txs: seq<Transaction>, ins: Inserted<Transaction>, r: TransactionTable)
    requires WfTransactions(t) && |txs| > 0
    requires ins == InsertTransaction(t, txs[0])
    requires WfTransactions(r) && Upserted(ins.table, txs[1..], r)
    ensures forall k :: k in r.rows ==>
      (k in t.rows && r.rows[k] == t.rows[k]) ||
      exists i :: 0 <= i < |txs| && (txs[i].id == k || txs[i].id == UNSET_ID) && r.rows[k] == txs[i].(id := k)
  {
    var t', kk, rest := ins.table, ins.key, txs[1..];
    forall k | k in r.rows
      ensures (k in t.rows && r.rows[k] == t.rows[k]) ||
              exists i :: 0 <= i < |txs| && (txs[i].id == k || txs[i].id == UNSET_ID) && r.rows[k] == txs[i].(id := k)
    {
      if !(k in t'.rows && r.rows[k] == t'.rows[k]) {
        var i :| 0 <= i < |rest| && (rest[i].id == k || rest[i].id == UNSET_ID) && r.rows[k] == rest[i].(id := k);
        assert txs[i + 1] == rest[i];
      } else if !(k in t.rows && t'.rows[k] == t.rows[k]) {
        assert k == kk && r.rows[k] == txs[0].(id := k);
      }
    }
  }

  /** A row no entry names is kept. */
  lemma StepUnnamedKept(t: TransactionTable, txs: seq<Transaction>, ins: Inserted<Transaction>, r: TransactionTable)
    requires WfTransactions(t) && |txs| > 0
    requires ins == InsertTransaction(t, txs[0])
    requires WfTransactions(r) && Upserted(ins.table, txs[1..], r)
    ensures forall k :: k in t.rows && !NamedFrom(txs, 0, k) ==> r.rows[k] == t.rows[k]
  {
    forall k | k in t.rows && !NamedFrom(txs, 0, k) ensures r.rows[k] == t.rows[k] {
      assert txs[0].id != k;
      assert k != ins.key;
      NamedFromTail(txs, 0, k);
    }
  }

  /** An entry with an id that no later entry names is stored as it is. */
  lemma StepNamedStored(t: TransactionTable, txs: seq<Transaction>, ins: Inserted<Transaction>, r: TransactionTable)
    requires WfTransactions(t) && |txs| > 0
    requires ins == InsertTransaction(t, txs[0])
    requires WfTransactions(r) && Upserted(ins.table, txs[1..], r)
    ensures forall i :: 0 <= i < |txs| && txs[i].id != UNSET_ID && !NamedFrom(txs, i + 1, txs[i].id) ==>
      txs[i].id in r.rows && r.rows[txs[i].id] == txs[i]
  {
    var t', kk, rest := ins.table, ins.key, txs[1..];
    forall i | 0 <= i < |txs| && txs[i].id != UNSET_ID && !NamedFrom(txs, i + 1, txs[i].id)
      ensures txs[i].id in r.rows && r.rows[txs[i].id] == txs[i]
    {
      NamedFromTail(txs, i, txs[i].id);
      if i == 0 {
        assert kk == txs[0].id && t'.rows[kk] == txs[0];
        assert !NamedFrom(rest, 0, kk);
      } else {
        assert rest[i - 1] == txs[i];
      }
    }
  }

  /** An entry without an id gets a key that was free before the step. */
  lemma StepUnsetStored(t: TransactionTable, txs: seq<Transaction>, ins: Inserted<Transaction>, r: TransactionTable)
    requires WfTransactions(t) && |txs| > 0
    requires ins == InsertTransaction(t, txs[0])
    requires WfTransactions(r) && Upserted(ins.table, txs[1..], r)
    ensures forall i :: 0 <= i < |txs| && txs[i].id == UNSET_ID ==>
      exists k :: k !in t.rows && k in r.rows && (!NamedFrom(txs, i + 1, k) ==> r.rows[k] == txs[i].(id := k))
  {
    var t', kk, rest := ins.table, ins.key, txs[1..];
    forall i | 0 <= i < |txs| && txs[i].id == UNSET_ID
      ensures exists k :: k !in t.rows && k in r.rows && (!NamedFrom(txs, i + 1, k) ==> r.rows[k] == txs[i].(id := k))
    {
      if i == 0 {
        NamedFromTail(txs, 0, kk);
        assert kk !in t.rows && kk in r.rows;
      } else {
        assert rest[i - 1] == txs[i];
        var k :| k !in t'.rows && k in r.rows && (!NamedFrom(rest, i, k) ==> r.rows[k] == rest[i - 1].(id := k));
        NamedFromTail(txs, i, k);
      }
    }
  }

  /** Entries without an id never overwrite: each becomes a row of its own
      under a fresh key, and every earlier row stays as it was. */
  lemma {:induction false} UnsetIdsAddRows(t: TransactionTable, txs: seq<Transaction>)
    requires WfTransactions(t)
    requires forall i :: 0 <= i < |txs| ==> txs[i].id == UNSET_ID
    ensures |InsertAll(t, txs).rows| == |t.rows| + |txs|
    ensures forall k :: k in t.rows ==> InsertAll(t, txs).rows[k] == t.rows[k]
    decreases |txs|
  {
    if |txs| > 0 {
      var ins := InsertTransaction(t, txs[0]);
      assert ins.table.rows.Keys == t.rows.Keys + {ins.key} && ins.key !in t.rows.Keys;
      assert |ins.table.rows.Keys| == |t.rows.Keys| + 1;
      UnsetIdsAddRows(ins.table, txs[1..]);
    }
  }

  /** `m[key] as? String` succeeds. */
  predicate HasString(m: map<string, Value>, key: string) {
    key in m && m[key].VString?
  }

  /** `m[key] as? Number` succeeds. */
  predicate HasNumber(m: map<string, Value>, key: string) {
    key in m && IsNumber(m[key])
  }

  /** A field that is missing from a backup entry, or holds a value of the
      wrong type, takes its fixed default; the `user_id` default is the
      current user, the date defaults are the current time. */
  lemma MissingFieldsTakeDefaults(m: map<string, Value>, me: string, now: int)
    ensures var u := DecodeUser(m, me, now);
      && (!HasString(m, "user_id") ==> u.userId == me)
      && (!HasString(m, "name") ==> u.name == DEFAULT_USER_NAME)
      && (!HasString(m, "email") ==> u.email == "")
      && (!HasNumber(m, "monthly_budget") ==> u.monthlyBudget == 0.0)
      && (!HasNumber(m, "created_at") ==> u.createdAt == now)
    ensures var t := DecodeTransaction(m, me, now);
      && (!HasNumber(m, "transaction_id") ==> t.id == UNSET_ID)
      && (!HasString(m, "user_id") ==> t.userId == me)
      && (!HasString(m, "type") ==> t.kind == EXPENSE)
      && (!HasNumber(m, "amount") ==> t.amount == 0.0)
      && (!HasNumber(m, "category_id") ==> t.categoryId == 0)
      && (!HasNumber(m, "date") ==> t.date == now)
      && (!HasString(m, "note") ==> t.note == "")
      && (!HasString(m, "receipt_url") ==> t.receiptUrl.None?)
  {
  }

  /** A field of the right type is read as stored: a string as it is, a
      number through the Kotlin conversion of its column's type. */
  lemma PresentFieldsAreRead(m: map<string, Value>, me: string, now: int)
    ensures var u := DecodeUser(m, me, now);
      && (HasString(m, "user_id") ==> m["user_id"] == VString(u.userId))
      && (HasString(m, "name") ==> m["name"] == VString(u.name))
      && (HasString(m, "email") ==> m["email"] == VString(u.email))
      && (HasNumber(m, "monthly_budget") ==> u.monthlyBudget == ToDouble(m["monthly_budget"]))
      && (HasNumber(m, "created_at") ==> u.createdAt == ToLong(m["created_at"]))
    ensures var t := DecodeTransaction(m, me, now);
      && (HasNumber(m, "transaction_id") ==> t.id == ToInt(m["transaction_id"]))
      && (HasString(m, "user_id") ==> m["user_id"] == VString(t.userId))
      && (HasString(m, "type") ==> m["type"] == VString(t.kind))
      && (HasNumber(m, "amount") ==> t.amount == ToDouble(m["amount"]))
      && (HasNumber(m, "category_id") ==> t.categoryId == ToInt(m["category_id"]))
      && (HasNumber(m, "date") ==> t.date == ToLong(m["date"]))
      && (HasString(m, "note") ==> m["note"] == VString(t.note))
      && (HasString(m, "receipt_url") ==> m["receipt_url"] == VString(t.receiptUrl.value))
  {
  }

  /** The answer of `document(uid).get()`: the request threw, or a snapshot
      that exists or not and carries the document's data. */
  datatype Snapshot = FetchFailed | Snapshot(found: bool, data: Option<Document>)

  /** Fetching the user's backup document from the store. */
  function Fetch(store: CloudStore, uid: Option<string>, reachable: bool): (s: Snapshot)
    ensures s.Snapshot? <==> reachable
    ensures s.Snapshot? ==> (s.found <==> CurrentUserId(uid) in store)
    ensures s.Snapshot? && s.found ==> s.data == Some(store[CurrentUserId(uid)])
  {
    var me := CurrentUserId(uid);
    if !reachable then FetchFailed
    else if me in store then Snapshot(true, Some(store[me]))
    else Snapshot(false, None)
  }

  /** `downloadData()`: upserts the user row when the document holds a user map,
      then upserts every transaction of the list when it holds one. */
  function Restore(l: Local, snap: Snapshot, uid: Option<string>, now: int): (r: (Local, Outcome))
    requires WfLocal(l)
    ensures WfLocal(r.0)
    ensures snap.FetchFailed? ==> r == (l, Failure(None))
    ensures snap.Snapshot? && !snap.found ==> r == (l, Failure(Some(BACKUP_NOT_FOUND)))
    ensures snap.Snapshot? && snap.found && snap.data.None? ==> r == (l, Failure(Some(NO_DATA_FOUND)))
    ensures l.users.Keys <= r.0.users.Keys
    ensures l.transactions.rows.Keys <= r.0.transactions.rows.Keys
    ensures snap.Snapshot? && snap.found && snap.data.Some? ==>
      var d := snap.data.value;
      && ("user" !in d || !d["user"].VMap? ==> r.0.users == l.users)
      && ("user" in d && d["user"].VMap? ==>
            r.0.users == InsertUser(l.users, DecodeUser(d["user"].fields, CurrentUserId(uid), now)))
      && ("transactions" in d && d["transactions"].VList? &&
          (forall i :: 0 <= i < |d["transactions"].items| ==> d["transactions"].items[i].VMap?)
          ==> r.1 == Success
              && r.0.transactions == InsertAll(l.transactions, DecodeTransactions(d["transactions"].items, CurrentUserId(uid), now).value))
      && ("transactions" !in d || !d["transactions"].VList? ==> r == (Local(r.0.users, l.transactions), Success))
      && ("transactions" in d && d["transactions"].VList? &&
          (exists i :: 0 <= i < |d["transactions"].items| && !d["transactions"].items[i].VMap?)
          ==> r == (Local(r.0.users, l.transactions), Failure(None)))
  {
    var me := CurrentUserId(uid);
    match snap
    case FetchFailed => (l, Failure(None))
    case Snapshot(found, data) =>
      if !found then (l, Failure(Some(BACKUP_NOT_FOUND)))
      else if data.None? then (l, Failure(Some(NO_DATA_FOUND)))
      else
        var d := data.value;
        var users :=
          if "user" in d && d["user"].VMap? then InsertUser(l.users, DecodeUser(d["user"].fields, me, now))
          else l.users;
        if "transactions" in d && d["transactions"].VList? then
          match DecodeTransactions(d["transactions"].items, me, now)
          case None => (Local(users, l.transactions), Failure(None))
          case Some(txs) => (Local(users, InsertAll(l.transactions, txs)), Success)
        else (Local(users, l.transactions), Success)
  }

  // ---------------------------------------------------------------------------
  // Round trip: restoring the backup just uploaded changes nothing

  /** The columns whose Kotlin type is `Int` hold `Int` values. */
  ghost predicate IntColumnsFit(t: TransactionTable) {
    forall x :: x in t.rows.Values ==> IsInt32(x.id) && IsInt32(x.categoryId)
  }

  lemma DecodeEncodeUser(u: User, me: string, now: int)
    ensures DecodeUser(EncodeUser(u).fields, me, now) == u
  {
  }

  lemma DecodeEncodeTransaction(t: Transaction, me: string, now: int)
    requires IsInt32(t.id) && IsInt32(t.categoryId)
    ensures DecodeTransaction(EncodeTransaction(t).fields, me, now) == t
  {
  }

  lemma DecodeEncodeTransactions(txs: seq<Transaction>, me: string, now: int)
    requires forall i :: 0 <= i < |txs| ==> IsInt32(txs[i].id) && IsInt32(txs[i].categoryId)
    ensures DecodeTransactions(EncodeTransactions(txs), me, now) == Some(txs)
  {
    var items := EncodeTransactions(txs);
    assert forall i :: 0 <= i < |items| ==> items[i].VMap?;
    var r := DecodeTransactions(items, me, now).value;
    forall i | 0 <= i < |txs| ensures r[i] == txs[i] {
      DecodeEncodeTransaction(txs[i], me, now);
    }
    assert r == txs;
  }

  lemma {:induction false} InsertAllStored(t: TransactionTable, txs: seq<Transaction>)
    requires WfTransactions(t)
    requires forall i :: 0 <= i < |txs| ==> txs[i] in t.rows.Values
    ensures InsertAll(t, txs) == t
    decreases |txs|
  {
    if |txs| > 0 {
      ReinsertStoredRow(t, txs[0]);
      InsertAllStored(t, txs[1..]);
    }
  }

  /** A document made only of rows the database already holds restores to
      that same database. */
  lemma RestoreStoredRows(l: Local, user: Option<User>, txs: seq<Transaction>, uid: Option<string>, now: int, later: int)
    requires WfLocal(l)
    requires user.Some? ==> user.value.userId in l.users && l.users[user.value.userId] == user.value
    requires forall i :: 0 <= i < |txs| ==>
      txs[i] in l.transactions.rows.Values && IsInt32(txs[i].id) && IsInt32(txs[i].categoryId)
    ensures Restore(l, Snapshot(true, Some(BackupDocument(user, txs, now))), uid, later) == (l, Success)
  {
    var me := CurrentUserId(uid);
    var d := BackupDocument(user, txs, now);
    var users :=
      if "user" in d && d["user"].VMap? then InsertUser(l.users, DecodeUser(d["user"].fields, me, later))
      else l.users;
    assert users == l.users by {
      if user.Some? {
        DecodeEncodeUser(user.value, me, later);
        assert l.users[user.value.userId := user.value] == l.users;
      }
    }
    assert d["transactions"] == VList(EncodeTransactions(txs));
    DecodeEncodeTransactions(txs, me, later);
    InsertAllStored(l.transactions, txs);
  }

  lemma OwnRowsFit(t: TransactionTable, me: string)
    requires IntColumnsFit(t)
    ensures var txs := GetAllTransactions(t, me);
            forall i :: 0 <= i < |txs| ==>
              txs[i] in t.rows.Values && IsInt32(txs[i].id) && IsInt32(txs[i].categoryId)
  {
    var txs := GetAllTransactions(t, me);
    forall i | 0 <= i < |txs|
      ensures txs[i] in t.rows.Values && IsInt32(txs[i].id) && IsInt32(txs[i].categoryId)
    {
      assert txs[i] in txs;
    }
  }

  /** The document holding exactly the user's current rows restores to the
      database it was made from. */
  lemma RestoreOwnBackup(l: Local, uid: Option<string>, now: int, later: int)
    requires WfLocal(l) && IntColumnsFit(l.transactions)
    ensures var me := CurrentUserId(uid);
            var d := BackupDocument(GetUser(l.users, me), GetAllTransactions(l.transactions, me), now);
            Restore(l, Snapshot(true, Some(d)), uid, later) == (l, Success)
  {
    var me := CurrentUserId(uid);
    var user := GetUser(l.users, me);
    var txs := GetAllTransactions(l.transactions, me);
    OwnRowsFit(l.transactions, me);
    RestoreStoredRows(l, user, txs, uid, now, later);
  }

  /** Uploading and then restoring into the same database, for the same user,
      leaves the database exactly as it was. */
  lemma UploadThenRestore(l: Local, uid: Option<string>, now: int, later: int, store: CloudStore)
    requires WfLocal(l) && IntColumnsFit(l.transactions)
    ensures Restore(l, Fetch(Upload(l, uid, now, store, true).0, uid, true), uid, later) == (l, Success)
  {
    var me := CurrentUserId(uid);
    var d := BackupDocument(GetUser(l.users, me), GetAllTransactions(l.transactions, me), now);
    assert Upload(l, uid, now, store, true).0 == store[me := d];
    assert Fetch(store[me := d], uid, true) == Snapshot(true, Some(d));
    RestoreOwnBackup(l, uid, now, later);
  }

  // ---------------------------------------------------------------------------
  // Round trip onto a new device: restoring into an empty database recovers
  // the user's profile and the user's transaction list

  /** The database of a freshly installed app. */
  function EmptyLocal(): (l: Local)
    ensures WfLocal(l) && l.users == map[] && l.transactions.rows == map[]
  {
    Local(map[], EmptyTable())
  }

  /** The user's listing holds stored rows with distinct, allocated ids. */
  lemma ListingIds(t: TransactionTable, me: string)
    requires WfTransactions(t)
    ensures var txs := GetAllTransactions(t, me);
      && (forall i :: 0 <= i < |txs| ==> txs[i].id in t.rows && t.rows[txs[i].id] == txs[i] && txs[i].id != UNSET_ID)
      && (forall i, j :: 0 <= i < j < |txs| ==> txs[i].id != txs[j].id)
  {
    var txs := GetAllTransactions(t, me);
    forall i | 0 <= i < |txs| ensures txs[i].id in t.rows && t.rows[txs[i].id] == txs[i] && txs[i].id != UNSET_ID {
      assert txs[i] in txs;
      ValueAt(t.rows, txs[i]);
    }
    forall i, j | 0 <= i < j < |txs| ensures txs[i].id != txs[j].id {
      NoDuplicatesDistinct(txs, i, j);
    }
  }

  /** Upserting entries with distinct, allocated ids into an empty table
      stores each entry under its id and nothing else. */
  lemma InsertDistinctIntoEmpty(txs: seq<Transaction>)
    requires forall i :: 0 <= i < |txs| ==> txs[i].id != UNSET_ID
    requires forall i, j :: 0 <= i < j < |txs| ==> txs[i].id != txs[j].id
    ensures var r := InsertAll(EmptyTable(), txs);
      && (forall i :: 0 <= i < |txs| ==> txs[i].id in r.rows && r.rows[txs[i].id] == txs[i])
      && (forall k :: k in r.rows ==> exists i :: 0 <= i < |txs| && txs[i].id == k && r.rows[k] == txs[i])
  {
    var r := InsertAll(EmptyTable(), txs);
    forall i | 0 <= i < |txs| ensures txs[i].id in r.rows && r.rows[txs[i].id] == txs[i] {
      assert !NamedFrom(txs, i + 1, txs[i].id);
    }
    forall k | k in r.rows ensures exists i :: 0 <= i < |txs| && txs[i].id == k && r.rows[k] == txs[i] {
      var i :| 0 <= i < |txs| && (txs[i].id == k || txs[i].id == UNSET_ID) && r.rows[k] == txs[i].(id := k);
      assert txs[i].id == k;
    }
  }

  /** A table holding each row of a user's listing under its id, and nothing
      else, holds exactly that user's rows. */
  lemma ListingRows(t: TransactionTable, me: string, r: TransactionTable)
    requires WfTransactions(t)
    requires var txs := GetAllTransactions(t, me);
      && (forall i :: 0 <= i < |txs| ==> txs[i].id in r.rows && r.rows[txs[i].id] == txs[i])
      && (forall k :: k in r.rows ==> exists i :: 0 <= i < |txs| && txs[i].id == k && r.rows[k] == txs[i])
    ensures forall k :: k in r.rows && OwnedBy(me)(r.rows[k]) <==> k in t.rows && OwnedBy(me)(t.rows[k])
    ensures forall k :: k in r.rows && OwnedBy(me)(r.rows[k]) ==> r.rows[k] == t.rows[k]
  {
    var txs := GetAllTransactions(t, me);
    ListingIds(t, me);
    forall k | k in r.rows ensures k in t.rows && r.rows[k] == t.rows[k] && r.rows[k].userId == me {
      var i :| 0 <= i < |txs| && txs[i].id == k && r.rows[k] == txs[i];
      assert txs[i] in txs;
    }
    forall k | k in t.rows && t.rows[k].userId == me ensures k in r.rows && r.rows[k] == t.rows[k] {
      assert t.rows[k] in t.rows.Values;
      var i :| 0 <= i < |txs| && txs[i] == t.rows[k];
    }
  }

  /** Upserting a user's listing into an empty table gives back the same listing. */
  lemma RestoredListing(t: TransactionTable, me: string)
    requires WfTransactions(t)
    ensures GetAllTransactions(InsertAll(EmptyTable(), GetAllTransactions(t, me)), me) == GetAllTransactions(t, me)
  {
    var txs := GetAllTransactions(t, me);
    var r := InsertAll(EmptyTable(), txs);
    ListingIds(t, me);
    InsertDistinctIntoEmpty(txs);
    ListingRows(t, me, r);
    FilteredScansAgree(r, t, OwnedBy(me));
    GetAllIsSortedScan(t, me);
    GetAllIsSortedScan(r, me);
  }

  /** Uploading from one device and restoring on a new one, for the same
      user, succeeds and recovers the user's profile and the user's whole
      transaction list, in the same order. */
  lemma UploadThenRestoreOnNewDevice(l: Local, uid: Option<string>, now: int, later: int, store: CloudStore)
    requires WfLocal(l) && IntColumnsFit(l.transactions)
    ensures var me := CurrentUserId(uid);
            var r := Restore(EmptyLocal(), Fetch(Upload(l, uid, now, store, true).0, uid, true), uid, later);
            && r.1 == Success
            && GetUser(r.0.users, me) == GetUser(l.users, me)
            && GetAllTransactions(r.0.transactions, me) == GetAllTransactions(l.transactions, me)
  {
    var me := CurrentUserId(uid);
    var user := GetUser(l.users, me);
    var txs := GetAllTransactions(l.transactions, me);
    var d := BackupOf(l, me, now);
    assert Fetch(Upload(l, uid, now, store, true).0, uid, true) == Snapshot(true, Some(d));
    OwnRowsFit(l.transactions, me);
    DecodeEncodeTransactions(txs, me, later);
    assert d["transactions"] == VList(EncodeTransactions(txs));
    var r := Restore(EmptyLocal(), Snapshot(true, Some(d)), uid, later);
    assert r.0.transactions == InsertAll(EmptyTable(), txs);
    RestoredListing(l.transactions, me);
    if user.Some? {
      DecodeEncodeUser(user.value, me, later);
      assert r.0.users == map[me := user.value];
    } else {
      assert r.0.users == map[];
    }
  }
}

=== FILE: calendar.dfy ===
/**
  The calendar instants the view-models compute with `java.util.Calendar`.
  Time zone rules are not modelled: the local midnights the calendar lands on
  are given, and all of them fall on whole seconds.
*/
module Calendar {

  const MS_PER_SECOND: int := 1000

  /** `now` is the time the calendar was created at (epoch milliseconds);
      `weekAgo` is the same wall-clock time seven days earlier; `monthStart` and
      `yearStart` are 00:00:00.000 local time on the first day of the current
      month and year. */
  datatype Clock = Clock(now: int, weekAgo: int, monthStart: int, yearStart: int)

  ghost predicate ValidClock(c: Clock) {
    && 0 <= c.yearStart <= c.monthStart <= c.now
    && c.weekAgo <= c.now
    && c.monthStart % MS_PER_SECOND == 0
    && c.yearStart % MS_PER_SECOND == 0
  }

  /** The calendar's MILLISECOND field. */
  function MillisOfSecond(c: Clock): (ms: int)
    requires ValidClock(c)
    ensures 0 <= ms < MS_PER_SECOND
  {
    c.now % MS_PER_SECOND
  }

  /** The instant reached by setting the day field to 1 and HOUR_OF_DAY,
      MINUTE and SECOND to 0, as the app does: MILLISECOND is never reset,
      so the instant lies up to 999 ms after the real midnight. */
  function StartAsWritten(midnight: int, c: Clock): (r: int)
    requires ValidClock(c) && midnight % MS_PER_SECOND == 0
    ensures midnight <= r < midnight + MS_PER_SECOND
    ensures r % MS_PER_SECOND == c.now % MS_PER_SECOND
  {
    midnight + MillisOfSecond(c)
  }

  /** The instant just after midnight of the first of the month is before the
      start the app computes whenever the clock's millisecond is not 0. */
  lemma StartAsWrittenIsLate(c: Clock)
    requires ValidClock(c) && c.now % MS_PER_SECOND != 0
    ensures c.monthStart < StartAsWritten(c.monthStart, c)
    ensures c.yearStart < StartAsWritten(c.yearStart, c)
  {
  }
}

=== FILE: category_dao.dfy ===
/**
  `CategoryDao`: the `categories` table. A category with no owner is shared by
  every user.
*/
module CategoryDao {
  import opened Wrappers
  import opened Entities
  import opened Tables
  import opened Seqs

  type CategoryTable = AutoTable<Category>

  function CategoryKey(c: Category): int {
    c.id
  }

  ghost predicate WfCategories(t: CategoryTable) {
    Valid(t) && forall k :: k in t.rows ==> t.rows[k].id == k
  }

  /** The rows `user_id = :userId OR user_id IS NULL` selects. */
  function VisibleTo(userId: string): Category -> bool {
    (c: Category) => c.userId == Some(userId) || c.userId == None
  }

  /** `SELECT * FROM categories WHERE user_id = :userId OR user_id IS NULL`,
      in table scan order. */
  function GetAllCategories(t: CategoryTable, userId: string): (r: seq<Category>)
    ensures forall c :: c in r <==> c in t.rows.Values && (c.userId == Some(userId) || c.userId.None?)
    ensures WfCategories(t) ==> NoDuplicates(r)
  {
    var r := Filter(Rows(t), VisibleTo(userId));
    assert forall c :: c in r <==> c in t.rows.Values && VisibleTo(userId)(c) by {
      forall c ensures c in r <==> c in t.rows.Values && VisibleTo(userId)(c) {
        FilterMembership(Rows(t), VisibleTo(userId), c);
        RowsMembership(t, c);
        ValueAt(t.rows, c);
      }
    }
    assert WfCategories(t) ==> NoDuplicates(r) by {
      if WfCategories(t) {
        RowsDistinct(t, CategoryKey);
        FilterMultiset(Rows(t), VisibleTo(userId));
      }
    }
    r
  }

  /** `SELECT * FROM categories WHERE category_id = :id` */
  function GetCategoryById(t: CategoryTable, id: int): (r: Option<Category>)
    requires WfCategories(t)
    ensures r.Some? ==> r.value in t.rows.Values && r.value.id == id
    ensures r.None? ==> forall c :: c in t.rows.Values ==> c.id != id
  {
    assert forall c :: c in t.rows.Values ==> c.id in t.rows && t.rows[c.id] == c by {
      forall c | c in t.rows.Values ensures c.id in t.rows && t.rows[c.id] == c {
        ValueAt(t.rows, c);
      }
    }
    if id in t.rows then Some(t.rows[id]) else None
  }

  /** `@Insert(onConflict = REPLACE)`; an id of 0 receives a fresh key. */
  function InsertCategory(t: CategoryTable, c: Category): (r: Inserted<Category>)
    requires WfCategories(t)
    ensures WfCategories(r.table)
    ensures c.id != UNSET_ID ==> r.key == c.id
    ensures c.id == UNSET_ID ==> r.key !in t.rows
    ensures r.table.rows.Keys == t.rows.Keys + {r.key}
    ensures r.table.rows[r.key] == c.(id := r.key)
    ensures forall k :: k in t.rows && k != r.key ==> r.table.rows[k] == t.rows[k]
  {
    var k := KeyFor(t, c.id);
    Inserted(Put(t, k, c.(id := k)), k)
  }

  /** A user's category list never shows another user's private category, and
      inserting a shared category makes it visible to everyone. */
  lemma SharedCategoryVisibleToAll(t: CategoryTable, c: Category, userId: string)
    requires WfCategories(t)
    requires c.userId == None
    ensures var r := InsertCategory(t, c);
            r.table.rows[r.key] in GetAllCategories(r.table, userId)
  {
    var r := InsertCategory(t, c);
    ValueAt(r.table.rows, r.table.rows[r.key]);
  }
}

=== FILE: category_module.dfy ===
/**
  `CategoryModuleViewModel`: the screen that lists one spending category's
  transactions. A few screen names stand for a group of stored category
  names; every other name is matched literally.
*/
module CategoryModule {
  import opened Entities
  import opened Text
  import opened Seqs
  import opened Tables
  import opened TransactionDao

  /** The screen names, lower-cased, that stand for a group of categories. */
  const FOOD: string := "food"
  const ENTERTAINMENT: string := "entertainment"
  const UTILITIES: string := "utilities"

  const FOOD_NAMES: seq<string> := ["Food & Drinks", "Groceries", "Dining Out"]
  const ENTERTAINMENT_NAMES: seq<string> := ["Entertainment"]
  const UTILITIES_NAMES: seq<string> := ["Utilities", "Internet & Phone"]

  predicate IsAlias(name: string) {
    Lower(name) in {FOOD, ENTERTAINMENT, UTILITIES}
  }

  /** The category names a screen name matches: its group when its lower-case
      form is one of the group names, otherwise the name itself, case kept.
      The first name matched always begins with the screen name, ignoring case. */
  function NamesToMatch(name: string): (r: seq<string>)
    ensures |r| >= 1
    ensures Lower(name) == FOOD ==> r == FOOD_NAMES
    ensures Lower(name) == ENTERTAINMENT ==> r == ENTERTAINMENT_NAMES
    ensures Lower(name) == UTILITIES ==> r == UTILITIES_NAMES
    ensures !IsAlias(name) ==> r == [name]
    ensures StartsWithIgnoreCase(r[0], name)
  {
    var key := Lower(name);
    if key == FOOD then
      assert Lower(FOOD_NAMES[0][..4]) == FOOD;
      FOOD_NAMES
    else if key == ENTERTAINMENT then
      assert Lower(ENTERTAINMENT_NAMES[0]) == ENTERTAINMENT;
      ENTERTAINMENT_NAMES
    else if key == UTILITIES then
      assert Lower(UTILITIES_NAMES[0]) == UTILITIES;
      UTILITIES_NAMES
    else
      assert name[..|name|] == name;
      [name]
  }

  /** Group names are recognised whatever their case; other names are not
      folded, so two spellings of one name differing only in case may match
      different categories. */
  lemma AliasesIgnoreCase(a: string, b: string)
    requires Lower(a) == Lower(b)
    ensures IsAlias(a) <==> IsAlias(b)
    ensures IsAlias(a) ==> NamesToMatch(a) == NamesToMatch(b)
    ensures !IsAlias(a) ==> NamesToMatch(a) == [a] && NamesToMatch(b) == [b]
  {
  }

  /** The `transactions` flow for a screen name: nothing for the empty name,
      otherwise the current user's rows whose category is one of the names
      matched, newest first. */
  function CategoryTransactions(t: TransactionTable, categories: AutoTable<Category>, userId: string, name: string)
    : (r: seq<Transaction>)
    ensures name == "" ==> r == []
    ensures SortedDesc(r, DateKey)
    ensures name != "" ==> forall x :: x in r <==>
      && x in t.rows.Values && x.userId == userId
      && x.categoryId in categories.rows && categories.rows[x.categoryId].name in NamesToMatch(name)
    ensures name != "" ==> r == Filter(GetAllTransactions(t, userId), InNamedCategories(categories, NamesToMatch(name)))
    ensures WfTransactions(t) ==> NoDuplicates(r)
  {
    if name == "" then [] else GetTransactionsByCategoryNames(t, categories, userId, NamesToMatch(name))
  }

  /** Asking for "FOOD" lists the current user's groceries. */
  lemma GroceriesListedUnderFood(t: TransactionTable, categories: AutoTable<Category>, userId: string, x: Transaction)
    requires x in t.rows.Values && x.userId == userId
    requires x.categoryId in categories.rows && categories.rows[x.categoryId].name == "Groceries"
    ensures x in CategoryTransactions(t, categories, userId, "FOOD")
  {
    assert Lower("FOOD") == FOOD;
  }

  /** A row shows only on its owner's screen, and only when its category row
      exists: a transaction whose category was deleted is listed under no
      name. */
  lemma ListedRowsAreOwnedAndCategorised(t: TransactionTable, categories: AutoTable<Category>,
                                         userId: string, name: string, x: Transaction)
    requires x in CategoryTransactions(t, categories, userId, name)
    ensures x.userId == userId && x.categoryId in categories.rows
    ensures categories.rows[x.categoryId].name in NamesToMatch(name)
  {
  }

  /** `deleteTransaction` is the table's delete: the row leaves every screen
      name's list, and every other listed row stays. */
  lemma DeletedRowLeavesEveryList(t: TransactionTable, categories: AutoTable<Category>,
                                  userId: string, name: string, x: Transaction)
    requires WfTransactions(t)
    ensures x !in CategoryTransactions(TransactionDao.DeleteTransaction(t, x), categories, userId, name)
    ensures forall y :: y in CategoryTransactions(t, categories, userId, name) && y.id != x.id ==>
      y in CategoryTransactions(TransactionDao.DeleteTransaction(t, x), categories, userId, name)
  {
    var r := TransactionDao.DeleteTransaction(t, x);
    if x in r.rows.Values {
      ValueAt(r.rows, x);
    }
    forall y | y in CategoryTransactions(t, categories, userId, name) && y.id != x.id
      ensures y in r.rows.Values
    {
      ValueAt(t.rows, y);
    }
  }
}

=== FILE: details.dfy ===
/**
  `TransactionDetailsViewModel`: one transaction, looked up by the id the
  navigation route carried, with its category's name.
*/
module Details {
  import opened Wrappers
  import opened Entities
  import opened Tables
  import opened TransactionDao
  import opened CategoryDao

  /** The id used when the route carried none. */
  const MISSING_ID: int := -1
  const UNCATEGORIZED: string := "Uncategorized"

  /** The `transaction` flow: the row stored under the route's id, if any. */
  function Shown(t: TransactionTable, routeId: Option<int>): (r: Option<Transaction>)
    requires WfTransactions(t)
    ensures r.Some? ==> r.value in t.rows.Values
    ensures routeId.Some? ==> (r.Some? <==> routeId.value in t.rows) && (r.Some? ==> r.value.id == routeId.value)
    ensures routeId.None? ==> (r.Some? <==> MISSING_ID in t.rows)
  {
    GetTransactionById(t, routeId.GetOr(MISSING_ID))
  }

  /** The `categoryName` flow: the name of the shown row's category, or
      "Uncategorized" when no row is shown or its category row is missing. */
  function CategoryName(categories: CategoryTable, shown: Option<Transaction>): (r: string)
    requires WfCategories(categories)
    ensures shown.Some? && shown.value.categoryId in categories.rows ==>
      r == categories.rows[shown.value.categoryId].name
    ensures !(shown.Some? && shown.value.categoryId in categories.rows) ==> r == UNCATEGORIZED
  {
    match shown
    case None => UNCATEGORIZED
    case Some(x) =>
      match GetCategoryById(categories, x.categoryId)
      case None => UNCATEGORIZED
      case Some(c) => c.name
  }

  /** Table keys are allocated from 1 upwards unless a caller stores an
      explicit id, so without a route argument nothing is shown. */
  lemma MissingRouteShowsNothing(t: TransactionTable, categories: CategoryTable)
    requires WfTransactions(t) && WfCategories(categories)
    requires forall k :: k in t.rows ==> k > 0
    ensures Shown(t, None) == None
    ensures CategoryName(categories, Shown(t, None)) == UNCATEGORIZED
  {
  }

  /** `deleteTransaction`: the table after the delete, and whether `onSuccess`
      ran, which happens once the delete has completed. */
  function DeleteThenNotify(t: TransactionTable, x: Transaction): (r: (TransactionTable, bool))
    requires WfTransactions(t)
    ensures r.1
    ensures WfTransactions(r.0)
    ensures x.id !in r.0.rows
    ensures r.0.rows.Keys == t.rows.Keys - {x.id}
    ensures forall k :: k in r.0.rows ==> r.0.rows[k] == t.rows[k]
  {
    (TransactionDao.DeleteTransaction(t, x), true)
  }

  /** After the delete the screen shows no transaction and the fallback name. */
  lemma DeletedRowNoLongerShown(t: TransactionTable, categories: CategoryTable, x: Transaction)
    requires WfTransactions(t) && WfCategories(categories)
    ensures var after := DeleteThenNotify(t, x).0;
            Shown(after, Some(x.id)) == None && CategoryName(categories, Shown(after, Some(x.id))) == UNCATEGORIZED
  {
  }

  /** Shown with its stored category, the name is that category's. */
  lemma ShownRowNamesItsCategory(t: TransactionTable, categories: CategoryTable, x: Transaction, c: Category)
    requires WfTransactions(t) && WfCategories(categories)
    requires x in t.rows.Values && c in categories.rows.Values && x.categoryId == c.id
    ensures Shown(t, Some(x.id)) == Some(x)
    ensures CategoryName(categories, Shown(t, Some(x.id))) == c.name
  {
    ValueAt(t.rows, x);
    ValueAt(categories.rows, c);
  }
}

=== FILE: entities.dfy ===
/**
  The rows of the app's local database. Kotlin `Double` amounts are exact
  reals, `Long` timestamps (epoch milliseconds) and `Int` keys are integers,
  and a nullable column is an `Option`.
*/
module Entities {
  import opened Wrappers

  /** The two values the app writes into a transaction's or category's `type`. */
  const INCOME: string := "Income"
  const EXPENSE: string := "Expense"

  /** Room's default for an auto-generated key: "no key yet, allocate one". */
  const UNSET_ID: int := 0

  datatype Transaction = Transaction(
    id: int,                      // transaction_id, auto-generated primary key
    userId: string,
    kind: string,                 // the `type` column
    amount: real,
    categoryId: int,
    date: int,
    note: string,
    receiptUrl: Option<string>)

  datatype User = User(
    userId: string,               // primary key, the identity provider's uid
    name: string,
    email: string,
    monthlyBudget: real,
    createdAt: int)

  datatype Category = Category(
    id: int,                      // category_id, auto-generated primary key
    userId: Option<string>,       // None: a category shared by every user
    name: string,
    kind: string,
    color: string)

  datatype SavingsGoal = SavingsGoal(
    id: int,                      // goal_id, auto-generated primary key
    userId: string,
    title: string,
    targetAmount: real,
    savedAmount: real,
    deadline: int)

  /** The `type` string the app stores for an income/expense flag. */
  function KindName(isIncome: bool): (k: string)
    ensures k == INCOME <==> isIncome
    ensures k == EXPENSE <==> !isIncome
  {
    if isIncome then INCOME else EXPENSE
  }

  function Amount(t: Transaction): real {
    t.amount
  }

  function DateKey(t: Transaction): real {
    t.date as real
  }
}

=== FILE: goal_dao.dfy ===
/** `SavingsGoalDao`: the `savings_goals` table. */
module SavingsGoalDao {
  import opened Entities
  import opened Tables
  import opened Seqs

  type GoalTable = AutoTable<SavingsGoal>

  function GoalKey(g: SavingsGoal): int {
    g.id
  }

  ghost predicate WfGoals(t: GoalTable) {
    Valid(t) && forall k :: k in t.rows ==> t.rows[k].id == k
  }

  function GoalOwnedBy(userId: string): SavingsGoal -> bool {
    (g: SavingsGoal) => g.userId == userId
  }

  /** `SELECT * FROM savings_goals WHERE user_id = :userId`, in table scan order. */
  function GetSavingsGoals(t: GoalTable, userId: string): (r: seq<SavingsGoal>)
    ensures forall g :: g in r <==> g in t.rows.Values && g.userId == userId
    ensures WfGoals(t) ==> NoDuplicates(r)
  {
    var r := Filter(Rows(t), GoalOwnedBy(userId));
    assert forall g :: g in r <==> g in t.rows.Values && g.userId == userId by {
      forall g ensures g in r <==> g in t.rows.Values && g.userId == userId {
        FilterMembership(Rows(t), GoalOwnedBy(userId), g);
        RowsMembership(t, g);
        ValueAt(t.rows, g);
      }
    }
    assert WfGoals(t) ==> NoDuplicates(r) by {
      if WfGoals(t) {
        RowsDistinct(t, GoalKey);
        FilterMultiset(Rows(t), GoalOwnedBy(userId));
      }
    }
    r
  }

  /** `@Insert(onConflict = REPLACE)`; an id of 0 receives a fresh key. */
  function InsertGoal(t: GoalTable, g: SavingsGoal): (r: Inserted<SavingsGoal>)
    requires WfGoals(t)
    ensures WfGoals(r.table)
    ensures g.id != UNSET_ID ==> r.key == g.id
    ensures g.id == UNSET_ID ==> r.key !in t.rows
    ensures r.table.rows.Keys == t.rows.Keys + {r.key}
    ensures r.table.rows[r.key] == g.(id := r.key)
    ensures forall k :: k in t.rows && k != r.key ==> r.table.rows[k] == t.rows[k]
  {
    var k := KeyFor(t, g.id);
    Inserted(Put(t, k, g.(id := k)), k)
  }

  /** `@Update`: rewrites the row whose key equals `g.id`; no row, no change. */
  function UpdateGoal(t: GoalTable, g: SavingsGoal): (r: GoalTable)
    requires WfGoals(t)
    ensures WfGoals(r)
    ensures r.rows.Keys == t.rows.Keys
    ensures g.id in t.rows ==> r.rows[g.id] == g
    ensures forall k :: k in t.rows && k != g.id ==> r.rows[k] == t.rows[k]
    ensures g.id !in t.rows ==> r == t
  {
    if g.id in t.rows then Put(t, g.id, g) else t
  }

  /** `@Delete`: removes the row whose key equals `g.id`. */
  function DeleteGoal(t: GoalTable, g: SavingsGoal): (r: GoalTable)
    requires WfGoals(t)
    ensures WfGoals(r)
    ensures r.rows.Keys == t.rows.Keys - {g.id}
    ensures forall k :: k in r.rows ==> r.rows[k] == t.rows[k]
  {
    Remove(t, g.id)
  }

  /** A new goal (id 0) of a user appears in that user's list after insertion,
      and a deleted goal is gone from it. */
  lemma InsertThenDeleteGoal(t: GoalTable, g: SavingsGoal)
    requires WfGoals(t)
    ensures var r := InsertGoal(t, g);
            r.table.rows[r.key] in GetSavingsGoals(r.table, g.userId)
    ensures g !in GetSavingsGoals(DeleteGoal(t, g), g.userId)
  {
    var r := InsertGoal(t, g);
    ValueAt(r.table.rows, r.table.rows[r.key]);
    var d := DeleteGoal(t, g);
    ValueAt(d.rows, g);
  }
}

=== FILE: goals.dfy ===
/**
  Savings goals: `AddGoalViewModel.saveGoal`, and the arithmetic of the goals
  screen (`GoalCard`'s progress bar, remaining amount and completed mark, and
  the two summary totals).
*/
module Goals {
  import opened Wrappers
  import opened Text
  import opened Seqs
  import opened Entities
  import opened Tables
  import opened SavingsGoalDao

  /** A new goal's deadline: thirty days of milliseconds after it is saved. */
  const DEFAULT_GOAL_SPAN_MS: int := 30 * 24 * 60 * 60 * 1000

  // ---------------------------------------------------------------------------
  // Adding a goal

  /** The two text fields of the add-goal form. */
  datatype GoalForm = GoalForm(title: string, targetAmount: string)

  /** The goal table after `saveGoal`, and whether `onSuccess` ran. An
      unparsable target or a blank title leaves everything as it was. */
  function SaveGoal(f: GoalForm, t: GoalTable, userId: string, now: int): (r: (GoalTable, bool))
    requires WfGoals(t)
    ensures WfGoals(r.0)
    ensures (ParseDecimal(f.targetAmount).None? || IsBlank(f.title)) <==> !r.1
    ensures !r.1 ==> r.0 == t
    ensures r.1 ==>
      exists k :: (
        && k !in t.rows && r.0.rows.Keys == t.rows.Keys + {k}
        && r.0.rows[k] == SavingsGoal(k, userId, f.title, ParseDecimal(f.targetAmount).value, 0.0, now + DEFAULT_GOAL_SPAN_MS)
        && forall j :: j in t.rows ==> r.0.rows[j] == t.rows[j])
  {
    match ParseDecimal(f.targetAmount)
    case None => (t, false)
    case Some(amount) =>
      if IsBlank(f.title) then (t, false)
      else
        var ins := InsertGoal(t, SavingsGoal(UNSET_ID, userId, f.title, amount, 0.0, now + DEFAULT_GOAL_SPAN_MS));
        (ins.table, true)
  }

  /** A saved goal is listed for its owner, starts with nothing saved, and is
      due thirty days later. */
  lemma SavedGoalIsListed(f: GoalForm, t: GoalTable, userId: string, now: int)
    requires WfGoals(t)
    requires SaveGoal(f, t, userId, now).1
    ensures exists g :: (
              && g in GetSavingsGoals(SaveGoal(f, t, userId, now).0, userId)
              && g !in GetSavingsGoals(t, userId)
              && g.title == f.title && g.savedAmount == 0.0 && g.deadline == now + 2592000000)
  {
    var r := SaveGoal(f, t, userId, now).0;
    var k :| k !in t.rows && r.rows.Keys == t.rows.Keys + {k}
        && r.rows[k] == SavingsGoal(k, userId, f.title, ParseDecimal(f.targetAmount).value, 0.0, now + DEFAULT_GOAL_SPAN_MS)
        && forall j :: j in t.rows ==> r.rows[j] == t.rows[j];
    var g := r.rows[k];
    assert g in r.rows.Values;
    if g in t.rows.Values {
      ValueAt(t.rows, g);
    }
  }

  // ---------------------------------------------------------------------------
  // A goal's card

  /** Saved over target, or 0 for a target that is not positive. */
  function Progress(g: SavingsGoal): (p: real)
    ensures g.targetAmount > 0.0 ==> p * g.targetAmount == g.savedAmount
    ensures g.targetAmount <= 0.0 ==> p == 0.0
  {
    if g.targetAmount > 0.0 then g.savedAmount / g.targetAmount else 0.0
  }

  /** The width of the bar's filled part: the progress clamped to [0, 1]. */
  function Fill(g: SavingsGoal): (w: real)
    ensures 0.0 <= w <= 1.0
    ensures 0.0 <= Progress(g) <= 1.0 ==> w == Progress(g)
    ensures Progress(g) > 1.0 ==> w == 1.0
    ensures Progress(g) < 0.0 ==> w == 0.0
  {
    var p := Progress(g);
    if p < 0.0 then 0.0 else if p > 1.0 then 1.0 else p
  }

  /** What is still to be saved, never negative. */
  function Remaining(g: SavingsGoal): (m: real)
    ensures m >= 0.0
    ensures m >= g.targetAmount - g.savedAmount
    ensures m == 0.0 || m == g.targetAmount - g.savedAmount
  {
    if g.targetAmount - g.savedAmount < 0.0 then 0.0 else g.targetAmount - g.savedAmount
  }

  /** The card shows the completed mark instead of the remaining amount. */
  predicate Completed(g: SavingsGoal) {
    !(Remaining(g) > 0.0)
  }

  /** The mark appears exactly when the target is reached; for a positive
      target that is exactly when the bar is full. */
  lemma CompletedIffReached(g: SavingsGoal)
    ensures Completed(g) <==> g.savedAmount >= g.targetAmount
    ensures g.targetAmount > 0.0 ==> (Completed(g) <==> Fill(g) == 1.0)
    ensures g.savedAmount + Remaining(g) >= g.targetAmount
  {
    if g.targetAmount > 0.0 {
      var p := Progress(g);
      assert p >= 1.0 <==> g.savedAmount >= g.targetAmount by {
        assert p * g.targetAmount == g.savedAmount;
        if p >= 1.0 {
          assert p * g.targetAmount >= 1.0 * g.targetAmount;
        } else {
          assert p * g.targetAmount < 1.0 * g.targetAmount;
        }
      }
    }
  }

  /** A goal with no positive target shows as completed with an empty bar. */
  lemma ZeroTargetCompletedButEmpty(g: SavingsGoal)
    requires g.targetAmount <= 0.0 && g.savedAmount >= 0.0
    ensures Completed(g) && Fill(g) == 0.0
  {
  }

  // ---------------------------------------------------------------------------
  // Summary totals

  function Saved(g: SavingsGoal): real {
    g.savedAmount
  }

  function Target(g: SavingsGoal): real {
    g.targetAmount
  }

  /** The two summary cards: total saved and total target over the listed goals. */
  function Totals(goals: seq<SavingsGoal>): (r: (real, real))
    ensures goals == [] ==> r == (0.0, 0.0)
    ensures goals != [] ==>
      r == (goals[0].savedAmount + Totals(goals[1..]).0, goals[0].targetAmount + Totals(goals[1..]).1)
  {
    (Sum(goals, Saved), Sum(goals, Target))
  }

  /** The remaining amounts on the cards add up to at least the gap between the
      two totals, and exactly to it when no goal has been over-saved. */
  lemma {:induction false} RemainingCoversGap(goals: seq<SavingsGoal>)
    ensures Sum(goals, Remaining) >= Totals(goals).1 - Totals(goals).0
    ensures (forall i :: 0 <= i < |goals| ==> goals[i].savedAmount <= goals[i].targetAmount) ==>
      Sum(goals, Remaining) == Totals(goals).1 - Totals(goals).0
    decreases |goals|
  {
    if |goals| > 0 {
      RemainingCoversGap(goals[1..]);
    }
  }

  /** When every goal is completed, the saved total reaches the target total. */
  lemma AllCompletedMeansTotalReached(goals: seq<SavingsGoal>)
    requires forall i :: 0 <= i < |goals| ==> Completed(goals[i])
    ensures Totals(goals).0 >= Totals(goals).1
  {
    forall i | 0 <= i < |goals| ensures Remaining(goals[i]) == 0.0 {
      CompletedIffReached(goals[i]);
    }
    SumZero(goals, Remaining);
    RemainingCoversGap(goals);
  }
}

=== FILE: home.dfy ===
/**
  `HomeViewModel`: the dashboard figures derived from the current user's
  transaction list (newest first, as `GetAllTransactions` returns it).
*/
module Home {
  import opened Entities
  import opened Seqs
  import opened Tables
  import opened TransactionDao
  import opened Calendar

  const RECENT_COUNT: nat := 10

  function IsIncome(t: Transaction): bool {
    t.kind == INCOME
  }

  function IsExpense(t: Transaction): bool {
    t.kind == EXPENSE
  }

  function NotIncome(t: Transaction): bool {
    t.kind != INCOME
  }

  /** `if (it.type == "Income") it.amount else -it.amount` */
  function SignedAmount(t: Transaction): real {
    if t.kind == INCOME then t.amount else -t.amount
  }

  /** `take(10)`: the newest ten transactions. */
  function Recent(txs: seq<Transaction>): (r: seq<Transaction>)
    ensures |r| == if |txs| < RECENT_COUNT then |txs| else RECENT_COUNT
    ensures r == txs[..|r|]
  {
    if |txs| <= RECENT_COUNT then txs else txs[..RECENT_COUNT]
  }

  function TotalBalance(txs: seq<Transaction>): real {
    Sum(txs, SignedAmount)
  }

  function TotalIncome(txs: seq<Transaction>): real {
    Sum(Filter(txs, IsIncome), Amount)
  }

  function TotalExpense(txs: seq<Transaction>): real {
    Sum(Filter(txs, IsExpense), Amount)
  }

  /** Newest-first order means the recent list holds the latest dates. */
  lemma RecentAreNewest(txs: seq<Transaction>)
    requires SortedDesc(txs, DateKey)
    ensures forall i, j :: 0 <= i < |Recent(txs)| <= j < |txs| ==> txs[j].date <= Recent(txs)[i].date
  {
  }

  lemma {:induction false} BalanceSplits(txs: seq<Transaction>)
    ensures TotalBalance(txs) == TotalIncome(txs) - Sum(Filter(txs, NotIncome), Amount)
    decreases |txs|
  {
    if |txs| > 0 {
      var x, rest := txs[0], txs[1..];
      BalanceSplits(rest);
      SumConcat(if IsIncome(x) then [x] else [], Filter(rest, IsIncome), Amount);
      SumConcat(if NotIncome(x) then [x] else [], Filter(rest, NotIncome), Amount);
    }
  }

  lemma {:induction false} FilterSameKinds(txs: seq<Transaction>)
    requires forall i :: 0 <= i < |txs| ==> txs[i].kind == INCOME || txs[i].kind == EXPENSE
    ensures Filter(txs, NotIncome) == Filter(txs, IsExpense)
    decreases |txs|
  {
    if |txs| > 0 {
      FilterSameKinds(txs[1..]);
    }
  }

  /** The balance card equals the income card minus the expense card, as long
      as every transaction is typed "Income" or "Expense"; a row of any other
      type lowers the balance without showing as an expense. */
  lemma BalanceIsIncomeMinusExpense(txs: seq<Transaction>)
    ensures TotalBalance(txs) == TotalIncome(txs) - Sum(Filter(txs, NotIncome), Amount)
    ensures (forall i :: 0 <= i < |txs| ==> txs[i].kind == INCOME || txs[i].kind == EXPENSE)
            ==> TotalBalance(txs) == TotalIncome(txs) - TotalExpense(txs)
  {
    BalanceSplits(txs);
    if forall i :: 0 <= i < |txs| ==> txs[i].kind == INCOME || txs[i].kind == EXPENSE {
      FilterSameKinds(txs);
    }
  }

  // ---------------------------------------------------------------------------
  // Spending this month

  function SpentSince(start: int): Transaction -> bool {
    (t: Transaction) => t.kind == EXPENSE && t.date >= start
  }

  /** `monthlySpent` as written: the month starts at `StartAsWritten`, which
      keeps the clock's millisecond. */
  function MonthlySpentAsWritten(txs: seq<Transaction>, c: Clock): real
    requires ValidClock(c)
  {
    Sum(Filter(txs, SpentSince(StartAsWritten(c.monthStart, c))), Amount)
  }

  /** The expenses of the current month: those dated at or after midnight of
      the first. */
  function MonthExpenses(txs: seq<Transaction>, c: Clock): (r: seq<Transaction>)
    ensures forall x :: x in r <==> x in txs && x.kind == EXPENSE && x.date >= c.monthStart
    ensures forall x :: multiset(r)[x] == (if x.kind == EXPENSE && x.date >= c.monthStart then multiset(txs)[x] else 0)
  {
    var r := Filter(txs, SpentSince(c.monthStart));
    assert forall x :: x in r <==> x in txs && SpentSince(c.monthStart)(x) by {
      forall x ensures x in r <==> x in txs && SpentSince(c.monthStart)(x) {
        FilterMembership(txs, SpentSince(c.monthStart), x);
      }
    }
    forall x ensures multiset(r)[x] == if SpentSince(c.monthStart)(x) then multiset(txs)[x] else 0 {
      FilterCount(txs, SpentSince(c.monthStart), x);
    }
    r
  }

  /** `monthlySpent`, with the month starting at midnight. */
  function MonthlySpent(txs: seq<Transaction>, c: Clock): real {
    Sum(MonthExpenses(txs, c), Amount)
  }

  /** An expense dated at the first instant of the month is left out by the
      app's computation, but counted by the corrected one. */
  lemma MonthlySpentAsWrittenMissesFirstInstant()
    ensures var c := Clock(500, 0, 0, 0);
            var x := Transaction(1, "u", EXPENSE, 25.0, 0, 0, "", Wrappers.None);
            && ValidClock(c)
            && MonthlySpentAsWritten([x], c) == 0.0
            && MonthlySpent([x], c) == 25.0
  {
    var c := Clock(500, 0, 0, 0);
    var x := Transaction(1, "u", EXPENSE, 25.0, 0, 0, "", Wrappers.None);
    assert StartAsWritten(c.monthStart, c) == 500;
    assert Filter([x], SpentSince(500)) == [];
    assert Filter([x], SpentSince(0)) == [x];
  }

  /** With non-negative amounts, this month's spending is at most the total
      expense. */
  lemma MonthlyAtMostTotalExpense(txs: seq<Transaction>, c: Clock)
    requires forall i :: 0 <= i < |txs| ==> txs[i].amount >= 0.0
    ensures 0.0 <= MonthlySpent(txs, c) <= TotalExpense(txs)
  {
    var expenses := Filter(txs, IsExpense);
    FilterFilter(txs, IsExpense, (t: Transaction) => t.date >= c.monthStart, SpentSince(c.monthStart));
    forall i | 0 <= i < |expenses| ensures expenses[i].amount >= 0.0 {
      FilterMembership(txs, IsExpense, expenses[i]);
    }
    SumFilterAtMost(expenses, Amount, (t: Transaction) => t.date >= c.monthStart);
  }

  // ---------------------------------------------------------------------------
  // The screen over the database

  /** The dashboard of user `userId`, each figure over `GetAllTransactions`. */
  datatype Dashboard = Dashboard(
    recent: seq<Transaction>,
    totalBalance: real,
    totalIncome: real,
    totalExpense: real,
    monthlySpent: real)

  function DashboardOf(t: TransactionTable, userId: string, c: Clock): (d: Dashboard)
    ensures var txs := GetAllTransactions(t, userId);
      && d.recent == Recent(txs)
      && d.totalIncome == TotalIncome(txs)
      && d.totalExpense == TotalExpense(txs)
      && d.monthlySpent == MonthlySpent(txs, c)
    ensures forall x :: x in d.recent ==> x in t.rows.Values && x.userId == userId
    ensures d.totalBalance == d.totalIncome - Sum(Filter(GetAllTransactions(t, userId), NotIncome), Amount)
  {
    var txs := GetAllTransactions(t, userId);
    BalanceIsIncomeMinusExpense(txs);
    Dashboard(Recent(txs), TotalBalance(txs), TotalIncome(txs), TotalExpense(txs), MonthlySpent(txs, c))
  }

  /** `deleteTransaction`: the row with that id leaves every user's list and
      every other row stays, in the same order. */
  function DeleteTransaction(t: TransactionTable, x: Transaction): (r: TransactionTable)
    requires WfTransactions(t)
    ensures WfTransactions(r)
    ensures forall u :: x !in GetAllTransactions(r, u)
    ensures forall u :: GetAllTransactions(r, u) == Filter(GetAllTransactions(t, u), HasOtherId(x.id))
  {
    var r := TransactionDao.DeleteTransaction(t, x);
    assert forall y :: y in r.rows.Values ==> y.id != x.id by {
      forall y | y in r.rows.Values ensures y.id != x.id {
        ValueAt(r.rows, y);
      }
    }
    forall u ensures GetAllTransactions(r, u) == Filter(GetAllTransactions(t, u), HasOtherId(x.id)) {
      DeleteRemovesOnlyThatRow(t, x, u);
    }
    r
  }
}

=== FILE: profile.dfy ===
/**
  `ProfileViewModel`: editing the user's profile row, the backup and restore
  status line, and the update-check status line. Each action is modelled as the
  sequence of values it writes to its status flow, in order (the two-second
  pause before a status is cleared is not modelled; the clearing is the last
  element).
*/
module Profile {
  import opened Wrappers
  import opened Entities
  import opened UserDao
  import opened TransactionDao
  import opened Backup
  import opened Versions
  import opened Updater

  const NO_CONNECTION_BACKUP: string := "No Internet Connection. Please connect to Wi-Fi or data."
  const UPLOADING: string := "Uploading..."
  const BACKUP_SUCCESSFUL: string := "Backup Successful"
  const BACKUP_FAILED: string := "Backup Failed: "
  const DOWNLOADING: string := "Downloading..."
  const RESTORE_SUCCESSFUL: string := "Restore Successful"
  const RESTORE_FAILED: string := "Restore Failed: "
  /** How string templates render a null message. */
  const NULL_TEXT: string := "null"

  const NO_CONNECTION_UPDATE: string := "No Internet Connection"
  const CHECKING: string := "Checking..."
  const UP_TO_DATE: string := "Up to date"
  const CHECK_FAILED: string := "Check failed"
  const STORAGE_PERMISSION_REQUIRED: string := "Storage Permission Required"
  const DEFAULT_VERSION_NAME: string := "1.0.0"

  // ---------------------------------------------------------------------------
  // The profile row

  /** `updateName`: `seen` is what the `user` flow held at that moment, which
      is `null` until the flow has delivered the row. With a row, only its name
      changes; without one, a new row is written for the current user. */
  function UpdateName(users: UserTable, seen: Option<User>, me: string, name: string, now: int): (r: UserTable)
    requires WfUsers(users)
    ensures WfUsers(r)
    ensures seen.Some? ==> r.Keys == users.Keys
    ensures seen.Some? && seen.value.userId in users ==> r[seen.value.userId] == seen.value.(name := name)
    ensures seen.Some? ==> forall k :: k in users && k != seen.value.userId ==> r[k] == users[k]
    ensures seen.None? ==> r.Keys == users.Keys + {me} && r[me] == User(me, name, "", 0.0, now)
    ensures seen.None? ==> forall k :: k in users && k != me ==> r[k] == users[k]
  {
    match seen
    case Some(u) => UpdateUser(users, u.(name := name))
    case None => InsertUser(users, User(me, name, "", 0.0, now))
  }

  /** `updateMonthlyBudget`: as `updateName`, for the budget; a new row is
      named "User". */
  function UpdateMonthlyBudget(users: UserTable, seen: Option<User>, me: string, amount: real, now: int): (r: UserTable)
    requires WfUsers(users)
    ensures WfUsers(r)
    ensures seen.Some? ==> r.Keys == users.Keys
    ensures seen.Some? && seen.value.userId in users ==> r[seen.value.userId] == seen.value.(monthlyBudget := amount)
    ensures seen.Some? ==> forall k :: k in users && k != seen.value.userId ==> r[k] == users[k]
    ensures seen.None? ==> r.Keys == users.Keys + {me} && r[me] == User(me, DEFAULT_USER_NAME, "", amount, now)
    ensures seen.None? ==> forall k :: k in users && k != me ==> r[k] == users[k]
  {
    match seen
    case Some(u) => UpdateUser(users, u.(monthlyBudget := amount))
    case None => InsertUser(users, User(me, DEFAULT_USER_NAME, "", amount, now))
  }

  /** With the flow up to date, each edit changes exactly one field of the
      user's row and the edits commute. */
  lemma EditsTouchOneField(users: UserTable, me: string, name: string, amount: real, now: int)
    requires WfUsers(users) && me in users
    ensures var r := UpdateName(users, GetUser(users, me), me, name, now);
            r[me].name == name && r[me].(name := users[me].name) == users[me]
    ensures var r := UpdateMonthlyBudget(users, GetUser(users, me), me, amount, now);
            r[me].monthlyBudget == amount && r[me].(monthlyBudget := users[me].monthlyBudget) == users[me]
    ensures var a := UpdateName(users, GetUser(users, me), me, name, now);
            var b := UpdateMonthlyBudget(users, GetUser(users, me), me, amount, now);
            UpdateMonthlyBudget(a, GetUser(a, me), me, amount, now) == UpdateName(b, GetUser(b, me), me, name, now)
  {
    var a := UpdateName(users, GetUser(users, me), me, name, now);
    var b := UpdateMonthlyBudget(users, GetUser(users, me), me, amount, now);
    var ab := UpdateMonthlyBudget(a, GetUser(a, me), me, amount, now);
    var ba := UpdateName(b, GetUser(b, me), me, name, now);
    assert ab.Keys == ba.Keys;
    assert forall k :: k in ab ==> ab[k] == ba[k];
  }

  /** Before the flow has delivered the stored row, a name edit replaces the
      whole row: the stored email and budget are lost. */
  lemma StaleEditResetsRow(users: UserTable, me: string, name: string, now: int)
    requires WfUsers(users) && me in users
    ensures var r := UpdateName(users, None, me, name, now);
            r[me].email == "" && r[me].monthlyBudget == 0.0 && r[me].createdAt == now
  {
  }

  // ---------------------------------------------------------------------------
  // Backup and restore status

  /** "Backup Failed: " or "Restore Failed: " followed by the error's message. */
  function FailureText(prefix: string, o: Outcome): (s: string)
    requires o.Failure?
    ensures s == prefix + (if o.message.Some? then o.message.value else NULL_TEXT)
  {
    prefix + o.message.GetOr(NULL_TEXT)
  }

  /** `uploadBackup`: the status values written, and the cloud store after. */
  function UploadBackup(online: bool, l: Local, uid: Option<string>, now: int, store: CloudStore, writeSucceeds: bool)
    : (r: (seq<string>, CloudStore))
    requires WfLocal(l)
    ensures !online ==> r == ([NO_CONNECTION_BACKUP], store)
    ensures online ==> |r.0| == 2 && r.0[0] == UPLOADING
    ensures online ==> (r.0[1] == BACKUP_SUCCESSFUL <==> writeSucceeds)
    ensures online && !writeSucceeds ==> r == ([UPLOADING, BACKUP_FAILED + NULL_TEXT], store)
    ensures online ==> r.1 == Upload(l, uid, now, store, writeSucceeds).0
  {
    if !online then ([NO_CONNECTION_BACKUP], store)
    else
      var (store', outcome) := Upload(l, uid, now, store, writeSucceeds);
      var last := if outcome == Success then BACKUP_SUCCESSFUL else FailureText(BACKUP_FAILED, outcome);
      assert last == BACKUP_SUCCESSFUL ==> outcome == Success by {
        if outcome != Success {
          assert last[..|BACKUP_FAILED|] == BACKUP_FAILED;
          assert BACKUP_SUCCESSFUL[..|BACKUP_FAILED|] != BACKUP_FAILED by {
            assert BACKUP_SUCCESSFUL[7] != BACKUP_FAILED[7];
          }
        }
      }
      ([UPLOADING, last], store')
  }

  /** `downloadBackup`: the status values written, and the local store after. */
  function DownloadBackup(online: bool, l: Local, uid: Option<string>, now: int, store: CloudStore, reachable: bool)
    : (r: (seq<string>, Local))
    requires WfLocal(l)
    ensures WfLocal(r.1)
    ensures !online ==> r == ([NO_CONNECTION_BACKUP], l)
    ensures online ==> |r.0| == 2 && r.0[0] == DOWNLOADING
    ensures online ==> (r.0[1] == RESTORE_SUCCESSFUL <==> Restore(l, Backup.Fetch(store, uid, reachable), uid, now).1 == Success)
    ensures online ==> r.1 == Restore(l, Backup.Fetch(store, uid, reachable), uid, now).0
    ensures online && reachable && CurrentUserId(uid) !in store ==> r == ([DOWNLOADING, RESTORE_FAILED + BACKUP_NOT_FOUND], l)
  {
    if !online then ([NO_CONNECTION_BACKUP], l)
    else
      var (l', outcome) := Restore(l, Backup.Fetch(store, uid, reachable), uid, now);
      var last := if outcome == Success then RESTORE_SUCCESSFUL else FailureText(RESTORE_FAILED, outcome);
      assert last == RESTORE_SUCCESSFUL ==> outcome == Success by {
        if outcome != Success {
          assert last[..|RESTORE_FAILED|] == RESTORE_FAILED;
          assert RESTORE_SUCCESSFUL[..|RESTORE_FAILED|] != RESTORE_FAILED by {
            assert RESTORE_SUCCESSFUL[8] != RESTORE_FAILED[8];
          }
        }
      }
      ([DOWNLOADING, last], l')
  }

  /** Backing up and then restoring on the same account reports success both
      times and leaves the local data as it was. */
  lemma BackupThenRestore(l: Local, uid: Option<string>, now: int, later: int, store: CloudStore)
    requires WfLocal(l) && IntColumnsFit(l.transactions)
    ensures var up := UploadBackup(true, l, uid, now, store, true);
            var down := DownloadBackup(true, l, uid, later, up.1, true);
            up.0 == [UPLOADING, BACKUP_SUCCESSFUL] && down == ([DOWNLOADING, RESTORE_SUCCESSFUL], l)
  {
    UploadThenRestore(l, uid, now, later, store);
  }

  /** Backing up on one device and restoring on a newly installed one reports
      success both times and recovers the profile and the transaction list. */
  lemma BackupThenRestoreOnNewDevice(l: Local, uid: Option<string>, now: int, later: int, store: CloudStore)
    requires WfLocal(l) && IntColumnsFit(l.transactions)
    ensures var me := CurrentUserId(uid);
            var up := UploadBackup(true, l, uid, now, store, true);
            var down := DownloadBackup(true, EmptyLocal(), uid, later, up.1, true);
            && up.0 == [UPLOADING, BACKUP_SUCCESSFUL]
            && down.0 == [DOWNLOADING, RESTORE_SUCCESSFUL]
            && GetUser(down.1.users, me) == GetUser(l.users, me)
            && GetAllTransactions(down.1.transactions, me) == GetAllTransactions(l.transactions, me)
  {
    UploadThenRestoreOnNewDevice(l, uid, now, later, store);
  }

  // ---------------------------------------------------------------------------
  // The update check

  /** What the check went on to do after finding a release. */
  datatype UpdateAction = NoAction | StartsDownload(release: ReleaseInfo) | RequestsInstallPermission

  /** The device facts the check consults: the installed version name (`None`
      when the package has none), whether the package lookup threw, the SDK
      level and the two grants. */
  datatype Device = Device(
    versionName: Option<string>,
    lookupThrows: bool,
    sdk: int,
    storageGranted: bool,
    canRequestInstalls: bool)

  /** The status shown when a newer release was found. */
  function UpdateAvailable(versionName: string): string {
    "Update Available (" + versionName + ")"
  }

  /** What `checkForUpdates` does once a newer release was found: the storage
      grant is checked first, then the install grant. */
  function Offer(device: Device, info: ReleaseInfo): (r: (seq<Option<string>>, UpdateAction))
    ensures |r.0| == (if HasStoragePermission(device.sdk, device.storageGranted) then 2 else 3)
    ensures r.0[0] == Some(CHECKING) && r.0[1] == Some(UpdateAvailable(info.versionName))
    ensures r.1 == StartsDownload(info) <==>
              HasStoragePermission(device.sdk, device.storageGranted) && CanInstallPackages(device.sdk, device.canRequestInstalls)
    ensures r.1 == RequestsInstallPermission <==>
              HasStoragePermission(device.sdk, device.storageGranted) && !CanInstallPackages(device.sdk, device.canRequestInstalls)
    ensures !HasStoragePermission(device.sdk, device.storageGranted) ==>
              |r.0| == 3 && r.0[2] == Some(STORAGE_PERMISSION_REQUIRED) && r.1 == NoAction
  {
    var shown := [Some(CHECKING), Some(UpdateAvailable(info.versionName))];
    if !HasStoragePermission(device.sdk, device.storageGranted) then
      (shown + [Some(STORAGE_PERMISSION_REQUIRED)], NoAction)
    else if CanInstallPackages(device.sdk, device.canRequestInstalls) then (shown, StartsDownload(info))
    else (shown, RequestsInstallPermission)
  }

  /** `checkForUpdates`: the status values written, in order, and the action. */
  function CheckForUpdatesFlow(online: bool, device: Device, fetch: Fetch): (r: (seq<Option<string>>, UpdateAction))
    ensures !online ==> r == ([Some(NO_CONNECTION_UPDATE), None], NoAction)
    ensures online && device.lookupThrows ==> r == ([Some(CHECKING), Some(CHECK_FAILED), None], NoAction)
    ensures online && !device.lookupThrows ==>
      var found := Updater.CheckForUpdates(online, device.versionName.GetOr(DEFAULT_VERSION_NAME), fetch);
      && (found.None? ==> r == ([Some(CHECKING), Some(UP_TO_DATE), None], NoAction))
      && (found.Some? ==> r == Offer(device, found.value))
  {
    if !online then ([Some(NO_CONNECTION_UPDATE), None], NoAction)
    else if device.lookupThrows then ([Some(CHECKING), Some(CHECK_FAILED), None], NoAction)
    else
      var current := device.versionName.GetOr(DEFAULT_VERSION_NAME);
      match Updater.CheckForUpdates(online, current, fetch)
      case None => ([Some(CHECKING), Some(UP_TO_DATE), None], NoAction)
      case Some(info) => Offer(device, info)
  }

  /** A download starts only for a release newer than the installed version,
      with both grants in place, and the status line is cleared exactly when no
      release was offered. */
  lemma DownloadOnlyWhenNewerAndPermitted(online: bool, device: Device, fetch: Fetch)
    ensures var r := CheckForUpdatesFlow(online, device, fetch);
            r.1.StartsDownload? ==>
              && IsNewerVersion(device.versionName.GetOr(DEFAULT_VERSION_NAME), r.1.release.versionName)
              && HasStoragePermission(device.sdk, device.storageGranted)
              && CanInstallPackages(device.sdk, device.canRequestInstalls)
    ensures var r := CheckForUpdatesFlow(online, device, fetch);
            r.0[|r.0| - 1].None? <==>
              !online || device.lookupThrows
              || Updater.CheckForUpdates(online, device.versionName.GetOr(DEFAULT_VERSION_NAME), fetch).None?
  {
  }

  /** Which grants a download needs depends on the Android version: above
      Android P only the install grant, below Android O only the storage
      grant, and in between both. */
  lemma DownloadGrantsBySdk(device: Device, fetch: Fetch)
    requires !device.lookupThrows
    requires Updater.CheckForUpdates(true, device.versionName.GetOr(DEFAULT_VERSION_NAME), fetch).Some?
    ensures var found := Updater.CheckForUpdates(true, device.versionName.GetOr(DEFAULT_VERSION_NAME), fetch).value;
            var r := CheckForUpdatesFlow(true, device, fetch);
            && (device.sdk > SDK_P ==> (r.1 == StartsDownload(found) <==> device.canRequestInstalls))
            && (device.sdk < SDK_O ==> (r.1 == StartsDownload(found) <==> device.storageGranted))
            && (SDK_O <= device.sdk <= SDK_P ==>
                  (r.1 == StartsDownload(found) <==> device.storageGranted && device.canRequestInstalls))
  {
  }

  /** Once the offered version is the installed one, a second check says the
      app is up to date. */
  lemma SecondCheckUpToDate(online: bool, device: Device, fetch: Fetch)
    requires CheckForUpdatesFlow(online, device, fetch).1.StartsDownload?
    ensures var installed := CheckForUpdatesFlow(online, device, fetch).1.release.versionName;
            CheckForUpdatesFlow(online, device.(versionName := Some(installed)), fetch).0
              == [Some(CHECKING), Some(UP_TO_DATE), None]
  {
    var current := device.versionName.GetOr(DEFAULT_VERSION_NAME);
    var found := Updater.CheckForUpdates(online, current, fetch);
    assert online && !device.lookupThrows && found.Some?;
    var installed := found.value.versionName;
    assert CheckForUpdatesFlow(online, device, fetch).1 == StartsDownload(found.value);
    OfferedOnce(online, current, fetch);
    assert Updater.CheckForUpdates(online, installed, fetch).None?;
  }
}

=== FILE: reports.dfy ===
/**
  `ReportsViewModel`: the expense breakdown by category over a time window
  (the last seven days, the current month or the current year), each category
  with its amount and its share of the window's total.
*/
module Reports {
  import opened Wrappers
  import opened Entities
  import opened Seqs
  import opened Tables
  import opened TransactionDao
  import opened CategoryDao
  import opened Calendar
  import Backup

  const WEEKLY: string := "Weekly"
  const MONTHLY: string := "Monthly"
  const YEARLY: string := "Yearly"
  const INITIAL_FILTER: string := MONTHLY

  /** `percentage` is the exact quotient; the app rounds it to a `Float`. */
  datatype CategorySpending = CategorySpending(category: Category, totalAmount: real, percentage: real)

  function TotalAmount(s: CategorySpending): real {
    s.totalAmount
  }

  function Percentage(s: CategorySpending): real {
    s.percentage
  }

  // ---------------------------------------------------------------------------
  // The time window

  /** `setTimeFilter`: the filter is stored as given; `WindowStart` maps any
      string other than "Weekly" and "Yearly" to the monthly window. */
  datatype ReportsState = ReportsState(timeFilter: string)

  function InitialState(): (s: ReportsState)
    ensures s.timeFilter == MONTHLY
  {
    ReportsState(INITIAL_FILTER)
  }

  function SetTimeFilter(s: ReportsState, filter: string): (r: ReportsState)
    ensures r.timeFilter == filter
  {
    s.(timeFilter := filter)
  }

  /** The window's first instant as the app computes it: seven days back, or
      the first of the year or month with the clock's millisecond kept. */
  function WindowStartAsWritten(filter: string, c: Clock): (r: int)
    requires ValidClock(c)
    ensures r <= c.now
    ensures filter == WEEKLY ==> r == c.weekAgo
    ensures filter == YEARLY ==> c.yearStart <= r < c.yearStart + MS_PER_SECOND
    ensures filter != WEEKLY && filter != YEARLY ==> c.monthStart <= r < c.monthStart + MS_PER_SECOND
  {
    if filter == WEEKLY then c.weekAgo
    else if filter == YEARLY then StartAsWritten(c.yearStart, c)
    else StartAsWritten(c.monthStart, c)
  }

  /** The window's first instant: seven days back, or midnight of the first
      day of the year or month. */
  function WindowStart(filter: string, c: Clock): (r: int)
    requires ValidClock(c)
    ensures r <= c.now
    ensures filter == WEEKLY ==> r == c.weekAgo
  {
    if filter == WEEKLY then c.weekAgo
    else if filter == YEARLY then c.yearStart
    else c.monthStart
  }

  /** Any filter other than the two named ones behaves as "Monthly", and the
      yearly window contains the monthly one. */
  lemma UnknownFilterIsMonthly(filter: string, c: Clock)
    requires ValidClock(c)
    requires filter != WEEKLY && filter != YEARLY
    ensures WindowStart(filter, c) == WindowStart(MONTHLY, c) == c.monthStart
    ensures WindowStart(YEARLY, c) <= WindowStart(MONTHLY, c)
  {
  }

  // ---------------------------------------------------------------------------
  // The breakdown

  function InWindow(start: int, end: int): Transaction -> bool {
    (t: Transaction) => t.kind == EXPENSE && start <= t.date <= end
  }

  /** `transactions.filter { it.type == "Expense" && it.date in start..end }` */
  function ExpensesBetween(txs: seq<Transaction>, start: int, end: int): (r: seq<Transaction>)
    ensures forall x :: x in r <==> x in txs && x.kind == EXPENSE && start <= x.date <= end
    ensures forall x :: multiset(r)[x] == (if x.kind == EXPENSE && start <= x.date <= end then multiset(txs)[x] else 0)
  {
    var r := Filter(txs, InWindow(start, end));
    assert forall x :: multiset(r)[x] == (if x.kind == EXPENSE && start <= x.date <= end then multiset(txs)[x] else 0) by {
      forall x ensures multiset(r)[x] == (if x.kind == EXPENSE && start <= x.date <= end then multiset(txs)[x] else 0) {
        FilterCount(txs, InWindow(start, end), x);
      }
    }
    assert forall x :: x in r <==> x in txs && InWindow(start, end)(x) by {
      forall x ensures x in r <==> x in txs && InWindow(start, end)(x) {
        FilterMembership(txs, InWindow(start, end), x);
      }
    }
    r
  }

  function InCategory(id: int): Transaction -> bool {
    (t: Transaction) => t.categoryId == id
  }

  function NotInCategory(id: int): Transaction -> bool {
    (t: Transaction) => t.categoryId != id
  }

  /** The amount spent in category `id`. */
  function CategoryTotal(expenses: seq<Transaction>, id: int): real {
    Sum(Filter(expenses, InCategory(id)), Amount)
  }

  function CategoryTotalIn(expenses: seq<Transaction>): Category -> real {
    (cat: Category) => CategoryTotal(expenses, cat.id)
  }

  /** `amount / totalExpense`; the app never divides by zero, it returns
      before. */
  function Share(amount: real, total: real): real {
    if total == 0.0 then 0.0 else amount / total
  }

  function SpendingIn(expenses: seq<Transaction>, total: real): Category -> CategorySpending {
    (cat: Category) => CategorySpending(cat, CategoryTotal(expenses, cat.id), Share(CategoryTotal(expenses, cat.id), total))
  }

  function ShareIn(expenses: seq<Transaction>, total: real): Category -> real {
    (cat: Category) => Share(CategoryTotal(expenses, cat.id), total)
  }

  function Positive(s: CategorySpending): bool {
    s.totalAmount > 0.0
  }

  function NotPositive(s: CategorySpending): bool {
    !(s.totalAmount > 0.0)
  }

  /** The categories and their spending in the window `[start, end]`: nothing
      when the window's expenses total zero, else every listed category with a
      positive amount, by decreasing amount. */
  function BreakdownFrom(txs: seq<Transaction>, categories: seq<Category>, start: int, end: int)
    : (r: seq<CategorySpending>)
    ensures var e := ExpensesBetween(txs, start, end);
            var total := Sum(e, Amount);
            && (total == 0.0 ==> r == [])
            && SortedDesc(r, TotalAmount)
            && forall s :: s in r <==>
                 && total != 0.0
                 && s.category in categories
                 && s.totalAmount == CategoryTotal(e, s.category.id)
                 && s.totalAmount > 0.0
                 && s.percentage == s.totalAmount / total
    ensures forall s :: s in r ==> multiset(r)[s] == multiset(categories)[s.category]
    ensures NoDuplicates(categories) ==> NoDuplicates(r)
  {
    var e := ExpensesBetween(txs, start, end);
    var total := Sum(e, Amount);
    if total == 0.0 then [] else Ranked(e, categories, total)
  }

  /** The listed categories with a positive total among `e`, by decreasing
      total: each with its share of `total`, and each as often as its category
      is listed. */
  function Ranked(e: seq<Transaction>, categories: seq<Category>, total: real): (r: seq<CategorySpending>)
    requires total != 0.0
    ensures SortedDesc(r, TotalAmount)
    ensures forall s :: s in r <==>
              && s.category in categories
              && s.totalAmount == CategoryTotal(e, s.category.id)
              && s.totalAmount > 0.0
              && s.percentage == s.totalAmount / total
    ensures forall s :: s in r ==> multiset(r)[s] == multiset(categories)[s.category]
    ensures NoDuplicates(categories) ==> NoDuplicates(r)
  {
    SpendingRowsMembership(e, categories, total);
    SpendingRowsCount(e, categories, total);
    SortDesc(Filter(Map(categories, SpendingIn(e, total)), Positive), TotalAmount)
  }

  /** The rows kept for a nonzero total are exactly the listed categories with
      their own positive total and share. */
  lemma SpendingRowsMembership(e: seq<Transaction>, categories: seq<Category>, total: real)
    requires total != 0.0
    ensures var r := SortDesc(Filter(Map(categories, SpendingIn(e, total)), Positive), TotalAmount);
            forall s :: s in r <==>
              && s.category in categories
              && s.totalAmount == CategoryTotal(e, s.category.id)
              && s.totalAmount > 0.0
              && s.percentage == s.totalAmount / total
  {
    var rows := Map(categories, SpendingIn(e, total));
    var r := SortDesc(Filter(rows, Positive), TotalAmount);
    assert forall s :: s in r <==> s in rows && Positive(s) by {
      forall s ensures s in r <==> s in rows && Positive(s) {
        SortDescMembership(Filter(rows, Positive), TotalAmount, s);
        FilterMembership(rows, Positive, s);
      }
    }
    assert forall s :: s in rows <==> s.category in categories && s == SpendingIn(e, total)(s.category) by {
      forall s ensures s in rows <==> s.category in categories && s == SpendingIn(e, total)(s.category) {
        if s.category in categories && s == SpendingIn(e, total)(s.category) {
          var i :| 0 <= i < |categories| && categories[i] == s.category;
          assert rows[i] == s;
        }
      }
    }
  }

  function CategoryOf(s: CategorySpending): Category {
    s.category
  }

  /** Each kept row occurs exactly as often as its category is listed. */
  lemma SpendingRowsCount(e: seq<Transaction>, categories: seq<Category>, total: real)
    ensures var r := SortDesc(Filter(Map(categories, SpendingIn(e, total)), Positive), TotalAmount);
            && (forall s :: s in r ==> multiset(r)[s] == multiset(categories)[s.category])
            && (NoDuplicates(categories) ==> NoDuplicates(r))
  {
    var rows := Map(categories, SpendingIn(e, total));
    var kept := Filter(rows, Positive);
    var r := SortDesc(kept, TotalAmount);
    SortDescMultiset(kept, TotalAmount);
    forall s: CategorySpending ensures multiset(r)[s] <= multiset(categories)[s.category]
      && (s in r ==> multiset(r)[s] == multiset(categories)[s.category])
    {
      FilterCount(rows, Positive, s);
      MapCount(categories, SpendingIn(e, total), CategoryOf, s);
    }
  }

  function HasTotal(a: real): CategorySpending -> bool {
    KeyIs(TotalAmount, a)
  }

  /** `sortedByDescending` is stable: the rows that share a positive total
      keep the order of their categories in the listing. */
  lemma RankedTiesKeepCategoryOrder(e: seq<Transaction>, categories: seq<Category>, total: real, a: real)
    requires total != 0.0 && a > 0.0
    ensures Filter(Ranked(e, categories, total), HasTotal(a)) == Filter(Map(categories, SpendingIn(e, total)), HasTotal(a))
  {
    var rows := Map(categories, SpendingIn(e, total));
    var kept := Filter(rows, Positive);
    assert Ranked(e, categories, total) == SortDesc(kept, TotalAmount);
    SortDescStable(kept, TotalAmount, a);
    forall x ensures HasTotal(a)(x) == (Positive(x) && HasTotal(a)(x)) {
    }
    FilterFilter(rows, Positive, HasTotal(a), HasTotal(a));
  }

  /** In the breakdown, categories with equal totals appear in listing order. */
  lemma BreakdownTiesKeepCategoryOrder(txs: seq<Transaction>, categories: seq<Category>, start: int, end: int, a: real)
    requires a > 0.0
    ensures var e := ExpensesBetween(txs, start, end);
            var total := Sum(e, Amount);
            total != 0.0 ==>
              Filter(BreakdownFrom(txs, categories, start, end), HasTotal(a))
                == Filter(Map(categories, SpendingIn(e, total)), HasTotal(a))
  {
    var e := ExpensesBetween(txs, start, end);
    var total := Sum(e, Amount);
    if total != 0.0 {
      RankedTiesKeepCategoryOrder(e, categories, total, a);
    }
  }

  /** The breakdown the screen shows for a filter, as the app computes it. */
  function BreakdownAsWritten(txs: seq<Transaction>, categories: seq<Category>, filter: string, c: Clock)
    : (r: seq<CategorySpending>)
    requires ValidClock(c)
    ensures forall s :: s in r ==> s.category in categories && s.totalAmount > 0.0
  {
    BreakdownFrom(txs, categories, WindowStartAsWritten(filter, c), c.now)
  }

  /** The breakdown for a filter, over a window that starts at midnight. */
  function Breakdown(txs: seq<Transaction>, categories: seq<Category>, filter: string, c: Clock)
    : (r: seq<CategorySpending>)
    requires ValidClock(c)
    ensures forall s :: s in r ==> s.category in categories && s.totalAmount > 0.0
  {
    BreakdownFrom(txs, categories, WindowStart(filter, c), c.now)
  }

  /** An expense made at midnight of the first of the month is missing from the
      monthly report the app computes, but present in the corrected one. */
  lemma BreakdownAsWrittenMissesFirstInstant()
    ensures var c := Clock(500, 0, 0, 0);
            var food := Category(1, None, "Food", EXPENSE, "#FF9500");
            var x := Transaction(1, "u", EXPENSE, 25.0, 1, 0, "", None);
            && ValidClock(c)
            && BreakdownAsWritten([x], [food], MONTHLY, c) == []
            && CategorySpending(food, 25.0, 1.0) in Breakdown([x], [food], MONTHLY, c)
  {
    var c := Clock(500, 0, 0, 0);
    var food := Category(1, None, "Food", EXPENSE, "#FF9500");
    var x := Transaction(1, "u", EXPENSE, 25.0, 1, 0, "", None);
    assert Filter([x], InWindow(500, 500)) == [];
    assert Filter([x], InWindow(0, 500)) == [x];
    assert Filter([x], InCategory(1)) == [x];
  }

  /** In the corrected report, an expense dated anywhere from midnight of the
      first of the month up to now shows its category in the monthly
      breakdown, whatever the clock's millisecond. */
  lemma MonthlyReportCountsMidnight(txs: seq<Transaction>, categories: seq<Category>, c: Clock,
                                    x: Transaction, cat: Category)
    requires ValidClock(c) && NonNegative(txs)
    requires x in txs && x.kind == EXPENSE && x.amount > 0.0 && c.monthStart <= x.date <= c.now
    requires cat in categories && x.categoryId == cat.id
    ensures exists s :: s in Breakdown(txs, categories, MONTHLY, c) && s.category == cat
  {
    var e := ExpensesBetween(txs, c.monthStart, c.now);
    FilterNonNegative(txs, InWindow(c.monthStart, c.now));
    var mine := Filter(e, InCategory(cat.id));
    FilterMembership(e, InCategory(cat.id), x);
    FilterNonNegative(e, InCategory(cat.id));
    MemberAtMostSum(mine, Amount, x);
    SumFilterAtMost(e, Amount, InCategory(cat.id));
    var total := Sum(e, Amount);
    var s := SpendingIn(e, total)(cat);
    assert s.totalAmount > 0.0 && total != 0.0;
    assert s in BreakdownFrom(txs, categories, c.monthStart, c.now);
  }

  // ---------------------------------------------------------------------------
  // The shares add up

  ghost predicate DistinctIds(categories: seq<Category>) {
    forall i, j :: 0 <= i < j < |categories| ==> categories[i].id != categories[j].id
  }

  ghost predicate NonNegative(txs: seq<Transaction>) {
    forall i :: 0 <= i < |txs| ==> txs[i].amount >= 0.0
  }

  /** Every expense belongs to one of the categories. */
  ghost predicate Covered(expenses: seq<Transaction>, categories: seq<Category>) {
    forall i :: 0 <= i < |expenses| ==> exists j :: 0 <= j < |categories| && categories[j].id == expenses[i].categoryId
  }

  lemma FilterNonNegative(txs: seq<Transaction>, p: Transaction -> bool)
    requires NonNegative(txs)
    ensures NonNegative(Filter(txs, p))
  {
    var f := Filter(txs, p);
    forall i | 0 <= i < |f| ensures f[i].amount >= 0.0 {
      FilterMembership(txs, p, f[i]);
    }
  }

  /** The per-category amounts of distinct categories add up to at most the
      total, and to exactly the total when every expense is in one of them. */
  lemma {:induction false} CategoryTotalsBound(e: seq<Transaction>, cats: seq<Category>)
    requires NonNegative(e) && DistinctIds(cats)
    ensures Sum(cats, CategoryTotalIn(e)) <= Sum(e, Amount)
    ensures Covered(e, cats) ==> Sum(cats, CategoryTotalIn(e)) == Sum(e, Amount)
    decreases |cats|
  {
    if |cats| == 0 {
      SumNonNegative(e, Amount);
      if Covered(e, cats) {
        assert e == [];
      }
    } else {
      var c0, rest := cats[0], cats[1..];
      var e1 := Filter(e, NotInCategory(c0.id));
      SumPartition(e, Amount, InCategory(c0.id), NotInCategory(c0.id));
      forall i | 0 <= i < |rest| ensures CategoryTotalIn(e)(rest[i]) == CategoryTotalIn(e1)(rest[i]) {
        assert rest[i].id != c0.id by {
          assert rest[i] == cats[i + 1];
        }
        FilterFilter(e, NotInCategory(c0.id), InCategory(rest[i].id), InCategory(rest[i].id));
      }
      SumCongruent(rest, CategoryTotalIn(e), CategoryTotalIn(e1));
      FilterNonNegative(e, NotInCategory(c0.id));
      CategoryTotalsBound(e1, rest);
      if Covered(e, cats) {
        forall i | 0 <= i < |e1| ensures exists j :: 0 <= j < |rest| && rest[j].id == e1[i].categoryId {
          FilterMembership(e, NotInCategory(c0.id), e1[i]);
          var k :| 0 <= k < |e| && e[k] == e1[i];
          var j :| 0 <= j < |cats| && cats[j].id == e[k].categoryId;
          assert j != 0;
          assert rest[j - 1].id == e1[i].categoryId;
        }
      }
    }
  }

  /** The shares of all listed categories, before the positive ones are kept,
      add up to the categories' amounts over the total. */
  lemma RowShares(e: seq<Transaction>, categories: seq<Category>, total: real)
    requires total != 0.0
    ensures Sum(Map(categories, SpendingIn(e, total)), Percentage) == Sum(categories, CategoryTotalIn(e)) / total
  {
    SumMap(categories, SpendingIn(e, total), Percentage, ShareIn(e, total));
    SumScaled(categories, CategoryTotalIn(e), ShareIn(e, total), total);
  }

  lemma NothingSpent(e: seq<Transaction>, cat: Category, total: real)
    requires NonNegative(e) && total > 0.0
    requires !Positive(SpendingIn(e, total)(cat))
    ensures Percentage(SpendingIn(e, total)(cat)) == 0.0
  {
    SumFilterAtMost(e, Amount, InCategory(cat.id));
  }

  /** Dropping the categories with nothing spent loses no share. */
  lemma KeptShares(e: seq<Transaction>, categories: seq<Category>, total: real)
    requires NonNegative(e) && total > 0.0
    ensures var rows := Map(categories, SpendingIn(e, total));
            Sum(Filter(rows, Positive), Percentage) == Sum(rows, Percentage)
  {
    var rows := Map(categories, SpendingIn(e, total));
    SumPartition(rows, Percentage, Positive, NotPositive);
    var dropped := Filter(rows, NotPositive);
    forall i | 0 <= i < |dropped| ensures Percentage(dropped[i]) == 0.0 {
      FilterMembership(rows, NotPositive, dropped[i]);
      var j :| 0 <= j < |rows| && rows[j] == dropped[i];
      NothingSpent(e, categories[j], total);
    }
    SumZero(dropped, Percentage);
  }

  lemma ShareBounds(amount: real, total: real)
    requires 0.0 < amount <= total
    ensures 0.0 < amount / total <= 1.0
  {
  }

  /** With non-negative amounts, every share shown lies in (0, 1]. */
  lemma SharesInRange(txs: seq<Transaction>, categories: seq<Category>, start: int, end: int)
    requires NonNegative(txs)
    ensures forall s :: s in BreakdownFrom(txs, categories, start, end) ==> 0.0 < s.percentage <= 1.0
  {
    var e := ExpensesBetween(txs, start, end);
    FilterNonNegative(txs, InWindow(start, end));
    SumNonNegative(e, Amount);
    var total := Sum(e, Amount);
    var r := BreakdownFrom(txs, categories, start, end);
    forall s | s in r ensures 0.0 < s.percentage <= 1.0 {
      assert total != 0.0 && s.totalAmount == CategoryTotal(e, s.category.id);
      assert s.totalAmount > 0.0 && s.percentage == s.totalAmount / total;
      SumFilterAtMost(e, Amount, InCategory(s.category.id));
      ShareBounds(s.totalAmount, total);
    }
  }

  /** The shares shown add up to the listed categories' amounts over the total. */
  lemma BreakdownShareSum(txs: seq<Transaction>, categories: seq<Category>, start: int, end: int)
    requires NonNegative(txs)
    requires Sum(ExpensesBetween(txs, start, end), Amount) != 0.0
    ensures var e := ExpensesBetween(txs, start, end);
            Sum(BreakdownFrom(txs, categories, start, end), Percentage)
              == Sum(categories, CategoryTotalIn(e)) / Sum(e, Amount)
  {
    var e := ExpensesBetween(txs, start, end);
    var total := Sum(e, Amount);
    FilterNonNegative(txs, InWindow(start, end));
    SumNonNegative(e, Amount);
    var rows := Map(categories, SpendingIn(e, total));
    var kept := Filter(rows, Positive);
    assert BreakdownFrom(txs, categories, start, end) == SortDesc(kept, TotalAmount);
    SortDescSum(kept, TotalAmount, Percentage);
    RowShares(e, categories, total);
    KeptShares(e, categories, total);
  }

  lemma WholeQuotient(total: real)
    requires total != 0.0
    ensures total / total == 1.0
  {
  }

  lemma QuotientAtMostOne(part: real, total: real)
    requires part <= total && total > 0.0
    ensures part / total <= 1.0
  {
  }

  /** With non-negative amounts and distinct categories, every share lies in
      (0, 1] and the shares add up to at most 1; to exactly 1 when every
      expense in the window is in a listed category. */
  lemma SharesAddUp(txs: seq<Transaction>, categories: seq<Category>, start: int, end: int)
    requires NonNegative(txs) && DistinctIds(categories)
    ensures var r := BreakdownFrom(txs, categories, start, end);
            && (forall s :: s in r ==> 0.0 < s.percentage <= 1.0)
            && Sum(r, Percentage) <= 1.0
            && (r != [] && Covered(ExpensesBetween(txs, start, end), categories) ==> Sum(r, Percentage) == 1.0)
  {
    SharesInRange(txs, categories, start, end);
    var e := ExpensesBetween(txs, start, end);
    var total := Sum(e, Amount);
    FilterNonNegative(txs, InWindow(start, end));
    SumNonNegative(e, Amount);
    if total != 0.0 {
      BreakdownShareSum(txs, categories, start, end);
      CategoryTotalsBound(e, categories);
      var part := Sum(categories, CategoryTotalIn(e));
      QuotientAtMostOne(part, total);
      assert Sum(BreakdownFrom(txs, categories, start, end), Percentage) == part / total;
      if Covered(e, categories) {
        assert part == total;
        WholeQuotient(total);
      }
    } else {
      assert BreakdownFrom(txs, categories, start, end) == [];
    }
  }

  // ---------------------------------------------------------------------------
  // The screen over the database

  /** `categorySpending`: the breakdown over the signed-in user's transactions
      and visible categories (`"anonymous"` when nobody is signed in). */
  function CategorySpendingOf(t: TransactionTable, cats: CategoryTable, uid: Option<string>, s: ReportsState, c: Clock)
    : (r: seq<CategorySpending>)
    requires ValidClock(c)
    ensures forall x :: x in r ==> x.category in cats.rows.Values && x.totalAmount > 0.0
    ensures forall x :: x in r ==> x.category.userId.None? || x.category.userId == uid || (uid.None? && x.category.userId == Some(Backup.ANONYMOUS))
    ensures var me := Backup.CurrentUserId(uid);
            r == BreakdownFrom(GetAllTransactions(t, me), GetAllCategories(cats, me), WindowStart(s.timeFilter, c), c.now)
  {
    var me := Backup.CurrentUserId(uid);
    Breakdown(GetAllTransactions(t, me), GetAllCategories(cats, me), s.timeFilter, c)
  }

  /** The screen starts on the monthly window, and choosing any filter other
      than "Weekly" or "Yearly" shows the same breakdown as the initial one;
      the breakdown depends on the state only through its filter. */
  lemma TimeFilterPicksWindow(t: TransactionTable, cats: CategoryTable, uid: Option<string>,
                              s: ReportsState, s': ReportsState, filter: string, c: Clock)
    requires ValidClock(c)
    ensures filter != WEEKLY && filter != YEARLY ==>
              CategorySpendingOf(t, cats, uid, SetTimeFilter(s, filter), c) == CategorySpendingOf(t, cats, uid, InitialState(), c)
    ensures CategorySpendingOf(t, cats, uid, SetTimeFilter(s, filter), c) == CategorySpendingOf(t, cats, uid, SetTimeFilter(s', filter), c)
    ensures var me := Backup.CurrentUserId(uid);
            CategorySpendingOf(t, cats, uid, InitialState(), c)
              == BreakdownFrom(GetAllTransactions(t, me), GetAllCategories(cats, me), c.monthStart, c.now)
  {
  }

  /** The categories a user sees have distinct ids. */
  lemma VisibleCategoriesDistinct(cats: CategoryTable, userId: string)
    requires WfCategories(cats)
    ensures DistinctIds(GetAllCategories(cats, userId))
  {
    var r := GetAllCategories(cats, userId);
    forall i, j | 0 <= i < j < |r| ensures r[i].id != r[j].id {
      NoDuplicatesDistinct(r, i, j);
      ValueAt(cats.rows, r[i]);
      ValueAt(cats.rows, r[j]);
    }
  }

  /** On the screen, with non-negative stored amounts, the shown shares each
      lie in (0, 1] and add up to at most 1. */
  lemma ScreenSharesAddUp(t: TransactionTable, cats: CategoryTable, uid: Option<string>, s: ReportsState, c: Clock)
    requires ValidClock(c) && WfCategories(cats)
    requires forall x :: x in t.rows.Values ==> x.amount >= 0.0
    ensures forall x :: x in CategorySpendingOf(t, cats, uid, s, c) ==> 0.0 < x.percentage <= 1.0
    ensures Sum(CategorySpendingOf(t, cats, uid, s, c), Percentage) <= 1.0
  {
    var me := Backup.CurrentUserId(uid);
    var txs := GetAllTransactions(t, me);
    forall i | 0 <= i < |txs| ensures txs[i].amount >= 0.0 {
      assert txs[i] in txs;
    }
    VisibleCategoriesDistinct(cats, me);
    SharesAddUp(txs, GetAllCategories(cats, me), WindowStart(s.timeFilter, c), c.now);
  }
}

=== FILE: seqs.dfy ===
/**
  The Kotlin collection operations the view-models compose: `filter`, `sumOf`
  and the stable `sortedByDescending`, with the algebra needed to reason about
  the aggregates built from them.
*/
module Seqs {

  // ---------------------------------------------------------------------------
  // filter

  function Filter<T>(s: seq<T>, p: T -> bool): (r: seq<T>)
    ensures |r| <= |s|
    ensures forall i :: 0 <= i < |r| ==> p(r[i])
    decreases |s|
  {
    if |s| == 0 then []
    else (if p(s[0]) then [s[0]] else []) + Filter(s[1..], p)
  }

  lemma {:induction false} FilterMembership<T>(s: seq<T>, p: T -> bool, x: T)
    ensures x in Filter(s, p) <==> x in s && p(x)
    decreases |s|
  {
    if |s| > 0 {
      FilterMembership(s[1..], p, x);
      assert s == [s[0]] + s[1..];
    }
  }

  lemma {:induction false} FilterMultiset<T>(s: seq<T>, p: T -> bool)
    ensures multiset(Filter(s, p)) <= multiset(s)
    decreases |s|
  {
    if |s| > 0 {
      FilterMultiset(s[1..], p);
      assert s == [s[0]] + s[1..];
    }
  }

  lemma {:induction false} FilterConcat<T>(a: seq<T>, b: seq<T>, p: T -> bool)
    ensures Filter(a + b, p) == Filter(a, p) + Filter(b, p)
    decreases |a|
  {
    if |a| > 0 {
      FilterConcat(a[1..], b, p);
      assert (a + b)[1..] == a[1..] + b;
    } else {
      assert a + b == b;
    }
  }

  /** Filtering twice is filtering by the conjunction. */
  lemma {:induction false} FilterFilter<T>(s: seq<T>, p: T -> bool, q: T -> bool, pq: T -> bool)
    requires forall x :: pq(x) == (p(x) && q(x))
    ensures Filter(Filter(s, p), q) == Filter(s, pq)
    decreases |s|
  {
    if |s| > 0 {
      FilterFilter(s[1..], p, q, pq);
      var head := if p(s[0]) then [s[0]] else [];
      FilterConcat(head, Filter(s[1..], p), q);
    }
  }

  /** A filter every element passes keeps the whole sequence. */
  lemma {:induction false} FilterAll<T>(s: seq<T>, p: T -> bool)
    requires forall i :: 0 <= i < |s| ==> p(s[i])
    ensures Filter(s, p) == s
    decreases |s|
  {
    if |s| > 0 {
      FilterAll(s[1..], p);
      assert [s[0]] + s[1..] == s;
    }
  }

  /** Filtering keeps every selected element as often as it occurs and drops
      the rest. */
  lemma {:induction false} FilterCount<T>(s: seq<T>, p: T -> bool, x: T)
    ensures multiset(Filter(s, p))[x] == if p(x) then multiset(s)[x] else 0
    decreases |s|
  {
    if |s| > 0 {
      FilterCount(s[1..], p, x);
      assert s == [s[0]] + s[1..];
    }
  }

  /** Filters that agree on every element of a sequence select the same elements. */
  lemma {:induction false} FilterCongruent<T>(s: seq<T>, p: T -> bool, q: T -> bool)
    requires forall i :: 0 <= i < |s| ==> p(s[i]) == q(s[i])
    ensures Filter(s, p) == Filter(s, q)
    decreases |s|
  {
    if |s| > 0 {
      FilterCongruent(s[1..], p, q);
    }
  }

  // ---------------------------------------------------------------------------
  // sumOf

  function Sum<T>(s: seq<T>, f: T -> real): real
    decreases |s|
  {
    if |s| == 0 then 0.0 else f(s[0]) + Sum(s[1..], f)
  }

  lemma {:induction false} SumConcat<T>(a: seq<T>, b: seq<T>, f: T -> real)
    ensures Sum(a + b, f) == Sum(a, f) + Sum(b, f)
    decreases |a|
  {
    if |a| > 0 {
      SumConcat(a[1..], b, f);
      assert (a + b)[1..] == a[1..] + b;
    } else {
      assert a + b == b;
    }
  }

  lemma {:induction false} SumNonNegative<T>(s: seq<T>, f: T -> real)
    requires forall i :: 0 <= i < |s| ==> f(s[i]) >= 0.0
    ensures Sum(s, f) >= 0.0
    decreases |s|
  {
    if |s| > 0 {
      SumNonNegative(s[1..], f);
    }
  }

  /** Over non-negative terms, each term is at most the sum. */
  lemma {:induction false} MemberAtMostSum<T>(s: seq<T>, f: T -> real, x: T)
    requires forall i :: 0 <= i < |s| ==> f(s[i]) >= 0.0
    requires x in s
    ensures f(x) <= Sum(s, f)
    decreases |s|
  {
    if s[0] == x {
      SumNonNegative(s[1..], f);
    } else {
      assert x in s[1..];
      MemberAtMostSum(s[1..], f, x);
    }
  }

  /** A sum splits into the part a predicate selects and the part it rejects. */
  lemma {:induction false} SumPartition<T>(s: seq<T>, f: T -> real, p: T -> bool, notP: T -> bool)
    requires forall x :: notP(x) == !p(x)
    ensures Sum(s, f) == Sum(Filter(s, p), f) + Sum(Filter(s, notP), f)
    decreases |s|
  {
    if |s| > 0 {
      SumPartition(s[1..], f, p, notP);
      var a := if p(s[0]) then [s[0]] else [];
      var b := if notP(s[0]) then [s[0]] else [];
      SumConcat(a, Filter(s[1..], p), f);
      SumConcat(b, Filter(s[1..], notP), f);
    }
  }

  /** Over non-negative terms, a filtered sum never exceeds the whole sum. */
  lemma {:induction false} SumFilterAtMost<T>(s: seq<T>, f: T -> real, p: T -> bool)
    requires forall i :: 0 <= i < |s| ==> f(s[i]) >= 0.0
    ensures 0.0 <= Sum(Filter(s, p), f) <= Sum(s, f)
    decreases |s|
  {
    if |s| > 0 {
      SumFilterAtMost(s[1..], f, p);
      var a := if p(s[0]) then [s[0]] else [];
      SumConcat(a, Filter(s[1..], p), f);
    }
  }

  /** Summing terms that are each `g` of the same term of `f` divided by `c`. */
  lemma {:induction false} SumScaled<T>(s: seq<T>, f: T -> real, g: T -> real, c: real)
    requires c != 0.0
    requires forall x :: g(x) == f(x) / c
    ensures Sum(s, g) == Sum(s, f) / c
    decreases |s|
  {
    if |s| > 0 {
      SumScaled(s[1..], f, g, c);
    }
  }

  /** Sums agree when the summed functions agree on every element. */
  lemma {:induction false} SumCongruent<T>(s: seq<T>, f: T -> real, g: T -> real)
    requires forall i :: 0 <= i < |s| ==> f(s[i]) == g(s[i])
    ensures Sum(s, f) == Sum(s, g)
    decreases |s|
  {
    if |s| > 0 {
      SumCongruent(s[1..], f, g);
    }
  }

  /** A sum of zero terms is zero. */
  lemma {:induction false} SumZero<T>(s: seq<T>, f: T -> real)
    requires forall i :: 0 <= i < |s| ==> f(s[i]) == 0.0
    ensures Sum(s, f) == 0.0
    decreases |s|
  {
    if |s| > 0 {
      SumZero(s[1..], f);
    }
  }

  // ---------------------------------------------------------------------------
  // map

  function Map<T, U>(s: seq<T>, g: T -> U): (r: seq<U>)
    ensures |r| == |s|
    ensures forall i :: 0 <= i < |s| ==> r[i] == g(s[i])
  {
    seq(|s|, i requires 0 <= i < |s| => g(s[i]))
  }

  /** Mapping a function with a left inverse `proj` keeps multiplicities: `x`
      occurs as often as its preimage `proj(x)`, or not at all when it is not
      an image. */
  lemma {:induction false} MapCount<T, U>(s: seq<T>, g: T -> U, proj: U -> T, x: U)
    requires forall t :: proj(g(t)) == t
    ensures multiset(Map(s, g))[x] == if g(proj(x)) == x then multiset(s)[proj(x)] else 0
    decreases |s|
  {
    if |s| == 0 {
      assert Map(s, g) == [];
    } else {
      MapCount(s[1..], g, proj, x);
      var m := Map(s[1..], g);
      assert s == [s[0]] + s[1..];
      assert Map(s, g) == [g(s[0])] + m;
      assert multiset(Map(s, g))[x] == (if g(s[0]) == x then 1 else 0) + multiset(m)[x];
      assert multiset(s)[proj(x)] == (if s[0] == proj(x) then 1 else 0) + multiset(s[1..])[proj(x)];
      if g(s[0]) == x {
        assert proj(x) == s[0];
      } else if g(proj(x)) == x {
        assert s[0] != proj(x);
      }
    }
  }

  /** Summing over a mapped list is summing the composed function. */
  lemma {:induction false} SumMap<T, U>(s: seq<T>, g: T -> U, f: U -> real, fg: T -> real)
    requires forall x :: fg(x) == f(g(x))
    ensures Sum(Map(s, g), f) == Sum(s, fg)
    decreases |s|
  {
    if |s| > 0 {
      assert Map(s, g)[1..] == Map(s[1..], g);
      SumMap(s[1..], g, f, fg);
    }
  }

  // ---------------------------------------------------------------------------
  // sortedByDescending (stable)

  ghost predicate SortedDesc<T>(s: seq<T>, key: T -> real) {
    forall i, j :: 0 <= i < j < |s| ==> key(s[i]) >= key(s[j])
  }

  function InsertDesc<T>(x: T, s: seq<T>, key: T -> real): (r: seq<T>)
    requires SortedDesc(s, key)
    ensures SortedDesc(r, key)
    ensures |r| == |s| + 1
    ensures forall i :: 0 <= i < |r| ==> r[i] == x || r[i] in s
    decreases |s|
  {
    if |s| == 0 || key(x) >= key(s[0]) then [x] + s
    else
      var rest := InsertDesc(x, s[1..], key);
      assert forall i :: 0 <= i < |rest| ==> key(s[0]) >= key(rest[i]) by {
        forall i | 0 <= i < |rest| ensures key(s[0]) >= key(rest[i]) {
          if rest[i] != x {
            var j :| 0 <= j < |s[1..]| && s[1..][j] == rest[i];
            assert s[j + 1] == rest[i];
          }
        }
      }
      [s[0]] + rest
  }

  /** Kotlin's `sortedByDescending(key)`: a stable insertion sort, so elements
      with equal keys keep their relative order. */
  function SortDesc<T>(s: seq<T>, key: T -> real): (r: seq<T>)
    ensures SortedDesc(r, key)
    ensures |r| == |s|
    decreases |s|
  {
    if |s| == 0 then [] else InsertDesc(s[0], SortDesc(s[1..], key), key)
  }

  lemma {:induction false} InsertDescMultiset<T>(x: T, s: seq<T>, key: T -> real)
    requires SortedDesc(s, key)
    ensures multiset(InsertDesc(x, s, key)) == multiset(s) + multiset{x}
    decreases |s|
  {
    if !(|s| == 0 || key(x) >= key(s[0])) {
      InsertDescMultiset(x, s[1..], key);
      assert s == [s[0]] + s[1..];
    }
  }

  /** Sorting is a permutation. */
  lemma {:induction false} SortDescMultiset<T>(s: seq<T>, key: T -> real)
    ensures multiset(SortDesc(s, key)) == multiset(s)
    decreases |s|
  {
    if |s| > 0 {
      SortDescMultiset(s[1..], key);
      InsertDescMultiset(s[0], SortDesc(s[1..], key), key);
      assert s == [s[0]] + s[1..];
    }
  }

  lemma SortDescMembership<T>(s: seq<T>, key: T -> real, x: T)
    ensures x in SortDesc(s, key) <==> x in s
  {
    SortDescMultiset(s, key);
    assert x in SortDesc(s, key) <==> x in multiset(SortDesc(s, key));
  }

  lemma {:induction false} InsertDescSum<T>(x: T, s: seq<T>, key: T -> real, f: T -> real)
    requires SortedDesc(s, key)
    ensures Sum(InsertDesc(x, s, key), f) == f(x) + Sum(s, f)
    decreases |s|
  {
    if |s| > 0 && key(x) < key(s[0]) {
      InsertDescSum(x, s[1..], key, f);
    }
  }

  /** Sorting does not change a sum. */
  lemma {:induction false} SortDescSum<T>(s: seq<T>, key: T -> real, f: T -> real)
    ensures Sum(SortDesc(s, key), f) == Sum(s, f)
    decreases |s|
  {
    if |s| > 0 {
      SortDescSum(s[1..], key, f);
      InsertDescSum(s[0], SortDesc(s[1..], key), key, f);
    }
  }

  /** An element that goes in front of a descending list also goes in front of
      any filter of it. */
  lemma FilterInsertFront<T>(x: T, s: seq<T>, key: T -> real, p: T -> bool)
    requires SortedDesc(s, key)
    requires |s| == 0 || key(x) >= key(s[0])
    ensures SortedDesc(Filter(s, p), key)
    ensures p(x) ==> InsertDesc(x, Filter(s, p), key) == [x] + Filter(s, p)
  {
    FilterKeepsSortedDesc(s, key, p);
    var fs := Filter(s, p);
    if p(x) && |fs| > 0 {
      FilterMembership(s, p, fs[0]);
      var j :| 0 <= j < |s| && s[j] == fs[0];
      assert key(s[0]) >= key(s[j]);
    }
  }

  /** Filtering commutes with inserting into a descending list. */
  lemma {:induction false} FilterInsertDesc<T>(x: T, s: seq<T>, key: T -> real, p: T -> bool)
    requires SortedDesc(s, key)
    ensures SortedDesc(Filter(s, p), key)
    ensures Filter(InsertDesc(x, s, key), p) ==
            if p(x) then InsertDesc(x, Filter(s, p), key) else Filter(s, p)
    decreases |s|
  {
    FilterKeepsSortedDesc(s, key, p);
    if |s| == 0 || key(x) >= key(s[0]) {
      FilterInsertFront(x, s, key, p);
      FilterConcat([x], s, p);
      assert [x][1..] == [];
    } else {
      FilterInsertDesc(x, s[1..], key, p);
      FilterInsertBehind(x, s, key, p);
      if p(s[0]) {
        if p(x) {
          FilterInsertBehindHead(x, s, key, p);
        }
      } else {
        assert Filter(InsertDesc(x, s, key), p) == Filter(InsertDesc(x, s[1..], key), p);
        assert Filter(s, p) == Filter(s[1..], p);
      }
    }
  }

  /** Inserting behind the head of a list keeps the head in front, filtered
      or not. */
  lemma FilterInsertBehind<T>(x: T, s: seq<T>, key: T -> real, p: T -> bool)
    requires SortedDesc(s, key)
    requires |s| > 0 && key(x) < key(s[0])
    ensures var head := if p(s[0]) then [s[0]] else [];
            && Filter(InsertDesc(x, s, key), p) == head + Filter(InsertDesc(x, s[1..], key), p)
            && Filter(s, p) == head + Filter(s[1..], p)
  {
    var rest := InsertDesc(x, s[1..], key);
    assert InsertDesc(x, s, key) == [s[0]] + rest;
    FilterConcat([s[0]], rest, p);
    assert [s[0]][1..] == [];
  }

  /** An insertion behind a selected head stays behind it after filtering. */
  lemma FilterInsertBehindHead<T>(x: T, s: seq<T>, key: T -> real, p: T -> bool)
    requires SortedDesc(s, key)
    requires |s| > 0 && key(x) < key(s[0]) && p(s[0])
    ensures SortedDesc(Filter(s, p), key) && SortedDesc(Filter(s[1..], p), key)
    ensures InsertDesc(x, Filter(s, p), key) == [s[0]] + InsertDesc(x, Filter(s[1..], p), key)
  {
    FilterKeepsSortedDesc(s, key, p);
    FilterKeepsSortedDesc(s[1..], key, p);
    FilterInsertBehind(x, s, key, p);
    var fs := Filter(s, p);
    assert fs[0] == s[0] && fs[1..] == Filter(s[1..], p);
  }

  /** Sorting then filtering equals filtering then sorting: the stable sort
      keeps the selected elements in the order it would give them alone. */
  lemma {:induction false} SortDescFilter<T>(s: seq<T>, key: T -> real, p: T -> bool)
    ensures Filter(SortDesc(s, key), p) == SortDesc(Filter(s, p), key)
    decreases |s|
  {
    if |s| > 0 {
      SortDescFilter(s[1..], key, p);
      FilterInsertDesc(s[0], SortDesc(s[1..], key), key, p);
      assert Filter(s, p) == (if p(s[0]) then [s[0]] else []) + Filter(s[1..], p);
      var sorted := SortDesc(s[1..], key);
      assert SortDesc(s, key) == InsertDesc(s[0], sorted, key);
      if p(s[0]) {
        var fs := Filter(s, p);
        assert fs == [s[0]] + Filter(s[1..], p);
        assert fs[0] == s[0] && fs[1..] == Filter(s[1..], p);
        assert SortDesc(fs, key) == InsertDesc(s[0], SortDesc(Filter(s[1..], p), key), key);
      } else {
        assert Filter(s, p) == Filter(s[1..], p);
      }
    }
  }

  function KeyIs<T>(key: T -> real, a: real): T -> bool {
    (x: T) => key(x) == a
  }

  /** Sorting a list whose keys are all equal leaves it as it is. */
  lemma {:induction false} SortDescEqualKeys<T>(s: seq<T>, key: T -> real, a: real)
    requires forall i :: 0 <= i < |s| ==> key(s[i]) == a
    ensures SortDesc(s, key) == s
    decreases |s|
  {
    if |s| > 0 {
      SortDescEqualKeys(s[1..], key, a);
      assert SortDesc(s, key) == InsertDesc(s[0], s[1..], key);
      assert s == [s[0]] + s[1..];
    }
  }

  /** Stability: the elements with any one key come out in their original
      order. */
  lemma SortDescStable<T>(s: seq<T>, key: T -> real, a: real)
    ensures Filter(SortDesc(s, key), KeyIs(key, a)) == Filter(s, KeyIs(key, a))
  {
    var f := Filter(s, KeyIs(key, a));
    SortDescFilter(s, key, KeyIs(key, a));
    forall i | 0 <= i < |f| ensures key(f[i]) == a {
      FilterMembership(s, KeyIs(key, a), f[i]);
    }
    SortDescEqualKeys(f, key, a);
  }

  /** A filter keeps a descending order. */
  lemma FilterKeepsSortedDesc<T>(s: seq<T>, key: T -> real, p: T -> bool)
    requires SortedDesc(s, key)
    ensures SortedDesc(Filter(s, p), key)
    decreases |s|
  {
    if |s| > 0 {
      FilterKeepsSortedDesc(s[1..], key, p);
      var rest := Filter(s[1..], p);
      forall i | 0 <= i < |rest| ensures key(s[0]) >= key(rest[i]) {
        FilterMembership(s[1..], p, rest[i]);
        var j :| 0 <= j < |s[1..]| && s[1..][j] == rest[i];
        assert s[j + 1] == rest[i];
      }
    }
  }
}

=== FILE: sms.dfy ===
/**
  `SmsReceiver`: reading a mobile-money or bank SMS as a transaction. The
  amount is group 1 of the first match of `(?i)(?:Tk|BDT)\s*([0-9,.]+)`; the
  type comes from keywords, expense keywords taking precedence.
*/
module Sms {
  import opened Wrappers
  import opened Text
  import opened Entities
  import opened Tables
  import opened Seqs
  import opened TransactionDao

  /** The placeholder owner given to every detected transaction. */
  const SMS_USER_ID: string := "user_123"
  const UNCATEGORIZED: int := 0
  const NOTE_PREFIX: string := "Auto-detected from "
  const EXPENSE_WORDS: seq<string> := ["Payment", "Cash Out", "Send Money", "Paid"]
  const INCOME_WORDS: seq<string> := ["Received", "Cash In", "Salary"]

  // ---------------------------------------------------------------------------
  // The amount pattern

  /** The class `[0-9,.]`. */
  predicate IsAmountChar(c: char) {
    IsDigit(c) || c == ',' || c == '.'
  }

  /** The length of the longest run of `p` characters starting at `i`: what a
      greedy `p*` consumes there. */
  function Span(s: string, i: nat, p: char -> bool): (n: nat)
    requires i <= |s|
    ensures i + n <= |s|
    ensures forall j :: i <= j < i + n ==> p(s[j])
    ensures i + n < |s| ==> !p(s[i + n])
    decreases |s| - i
  {
    if i < |s| && p(s[i]) then 1 + Span(s, i + 1, p) else 0
  }

  /** The length of the currency word (`Tk` or `BDT`, ASCII case-insensitive)
      at `i`, or 0 when there is none. */
  function CurrencyAt(s: string, i: nat): (n: nat)
    ensures n == 0 || n == 2 || n == 3
    ensures n > 0 ==> i + n <= |s|
  {
    if OccursAtIgnoreCase(s, "Tk", i) then 2
    else if OccursAtIgnoreCase(s, "BDT", i) then 3
    else 0
  }

  /** Where group 1 starts when a match is tried at `i`: after the currency
      word and the greedy `\s*`. */
  function AmountStart(s: string, i: nat): (k: nat)
    requires CurrencyAt(s, i) > 0
    ensures k <= |s|
  {
    i + CurrencyAt(s, i) + Span(s, i + CurrencyAt(s, i), IsRegexSpace)
  }

  /** The pattern matches at `i`. Backtracking `\s*` cannot help, since no
      whitespace character is in `[0-9,.]`. */
  predicate MatchesAt(s: string, i: nat) {
    CurrencyAt(s, i) > 0 && Span(s, AmountStart(s, i), IsAmountChar) > 0
  }

  /** Group 1 of the match at `i`. */
  function AmountGroup(s: string, i: nat): (g: string)
    requires MatchesAt(s, i)
    ensures |g| > 0 && forall j :: 0 <= j < |g| ==> IsAmountChar(g[j])
  {
    var k := AmountStart(s, i);
    s[k..k + Span(s, k, IsAmountChar)]
  }

  ghost predicate IsFirstMatch(s: string, i: nat) {
    MatchesAt(s, i) && forall j: nat :: j < i ==> !MatchesAt(s, j)
  }

  function FindFrom(s: string, i: nat): (r: Option<nat>)
    requires i <= |s|
    requires forall j: nat :: j < i ==> !MatchesAt(s, j)
    ensures r.Some? ==> IsFirstMatch(s, r.value)
    ensures r.None? ==> forall j: nat :: !MatchesAt(s, j)
    decreases |s| - i
  {
    if MatchesAt(s, i) then Some(i)
    else if i == |s| then
      assert forall j: nat :: j > |s| ==> CurrencyAt(s, j) == 0;
      None
    else FindFrom(s, i + 1)
  }

  /** `matcher.find()`: the leftmost match, if any. */
  function Find(s: string): (r: Option<nat>)
    ensures r.Some? ==> IsFirstMatch(s, r.value)
    ensures r.None? ==> forall j: nat :: !MatchesAt(s, j)
  {
    FindFrom(s, 0)
  }

  /** `replace(",", "")`: the commas go, every other character stays, in
      order (see `RemoveCommasConcat`). */
  function RemoveCommas(s: string): (r: string)
    ensures ',' !in r
    ensures ',' !in s ==> r == s
    ensures forall c :: c != ',' ==> multiset(r)[c] == multiset(s)[c]
  {
    var r := Filter(s, c => c != ',');
    assert ',' !in r by {
      FilterMembership(s, c => c != ',', ',');
    }
    assert ',' !in s ==> r == s by {
      if ',' !in s {
        FilterAll(s, c => c != ',');
      }
    }
    assert forall c :: c != ',' ==> multiset(r)[c] == multiset(s)[c] by {
      forall c | c != ',' ensures multiset(r)[c] == multiset(s)[c] {
        FilterCount(s, c => c != ',', c);
      }
    }
    r
  }

  /** Removing commas works piece by piece, so the kept characters keep
      their order. */
  lemma RemoveCommasConcat(a: string, b: string)
    ensures RemoveCommas(a + b) == RemoveCommas(a) + RemoveCommas(b)
  {
    FilterConcat(a, b, c => c != ',');
  }

  // ---------------------------------------------------------------------------
  // Classification

  /** `body.contains(word, ignoreCase = true)` for one of the words. */
  predicate MentionsAny(body: string, words: seq<string>) {
    |words| > 0 && (ContainsIgnoreCase(body, words[0]) || MentionsAny(body, words[1..]))
  }

  /** A digit string without a sign is read as a non-negative number. */
  lemma UnsignedAmount(g: string)
    requires forall j :: 0 <= j < |g| ==> IsAmountChar(g[j])
    requires ParseDecimal(g).Some?
    ensures ParseDecimal(g).value >= 0.0
  {
    var k :| 0 <= k < |g| && IsDigit(g[k]);
    assert IsAmountChar(g[0]) && IsAmountChar(g[|g| - 1]);
    ParseDecimalUnsigned(g);
  }

  /** `parseSms(body, sender)` */
  function ParseSms(body: string, sender: string, now: int): (r: Option<Transaction>)
    ensures r.Some? ==> exists i: nat ::
      (IsFirstMatch(body, i) && ParseDecimal(RemoveCommas(AmountGroup(body, i))) == Some(r.value.amount))
    ensures r.Some? ==> r.value.amount >= 0.0
    ensures r.Some? ==> (r.value.kind == EXPENSE <==> MentionsAny(body, EXPENSE_WORDS))
    ensures r.Some? ==> (r.value.kind == INCOME <==> !MentionsAny(body, EXPENSE_WORDS))
    ensures r.Some? ==> r.value == Transaction(UNSET_ID, SMS_USER_ID, r.value.kind, r.value.amount,
                                               UNCATEGORIZED, now, NOTE_PREFIX + sender, None)
    ensures (forall i: nat :: !MatchesAt(body, i)) ==> r.None?
    ensures !MentionsAny(body, EXPENSE_WORDS) && !MentionsAny(body, INCOME_WORDS) ==> r.None?
  {
    match Find(body)
    case None => None
    case Some(i) =>
      var digits := RemoveCommas(AmountGroup(body, i));
      match ParseDecimal(digits)
      case None => None
      case Some(amount) =>
        assert forall j :: 0 <= j < |digits| ==> IsAmountChar(digits[j]) by {
          forall j | 0 <= j < |digits| ensures IsAmountChar(digits[j]) {
            FilterMembership(AmountGroup(body, i), c => c != ',', digits[j]);
          }
        }
        UnsignedAmount(digits);
        var isExpense := MentionsAny(body, EXPENSE_WORDS);
        var isIncome := MentionsAny(body, INCOME_WORDS);
        if isExpense then
          Some(Transaction(UNSET_ID, SMS_USER_ID, EXPENSE, amount, UNCATEGORIZED, now, NOTE_PREFIX + sender, None))
        else if isIncome then
          Some(Transaction(UNSET_ID, SMS_USER_ID, INCOME, amount, UNCATEGORIZED, now, NOTE_PREFIX + sender, None))
        else None
  }

  // ---------------------------------------------------------------------------
  // A message that states an amount is read back with that amount

  lemma {:induction false} SpanOfRun(s: string, i: nat, n: nat, p: char -> bool)
    requires i + n <= |s|
    requires forall j :: i <= j < i + n ==> p(s[j])
    requires i + n == |s| || !p(s[i + n])
    ensures Span(s, i, p) == n
    decreases n
  {
    if n > 0 {
      SpanOfRun(s, i + 1, n - 1, p);
    }
  }

  /** In "Tk <n><tail>" the pattern first matches at 0 and its group is the numeral. */
  lemma StatedAmountMatches(n: nat, tail: string)
    requires tail == [] || !IsAmountChar(tail[0])
    ensures IsFirstMatch("Tk " + ShowNat(n) + tail, 0)
    ensures AmountGroup("Tk " + ShowNat(n) + tail, 0) == ShowNat(n)
  {
    var digits := ShowNat(n);
    var body := "Tk " + digits + tail;
    assert body[0..2] == "Tk";
    assert CurrencyAt(body, 0) == 2;
    assert !IsRegexSpace(body[3]) by {
      assert body[3] == digits[0];
    }
    SpanOfRun(body, 2, 1, IsRegexSpace);
    assert forall j :: 3 <= j < 3 + |digits| ==> body[j] == digits[j - 3];
    if tail != [] {
      assert body[3 + |digits|] == tail[0];
    }
    SpanOfRun(body, 3, |digits|, IsAmountChar);
    assert body[3..3 + |digits|] == digits;
  }

  /** The first match in "Tk <n><tail>" is at 0 and its digits, without
      commas, are the numeral. */
  lemma StatedAmountDigits(n: nat, tail: string)
    requires tail == [] || !IsAmountChar(tail[0])
    ensures Find("Tk " + ShowNat(n) + tail) == Some(0)
    ensures RemoveCommas(AmountGroup("Tk " + ShowNat(n) + tail, 0)) == ShowNat(n)
  {
    StatedAmountMatches(n, tail);
    FilterAll(ShowNat(n), c => c != ',');
  }

  /** Once the first match's digits parse and a keyword is present, the
      message is read with that amount. */
  lemma ReadsFirstMatch(body: string, sender: string, now: int, i: nat, amount: real)
    requires Find(body) == Some(i)
    requires ParseDecimal(RemoveCommas(AmountGroup(body, i))) == Some(amount)
    requires MentionsAny(body, EXPENSE_WORDS) || MentionsAny(body, INCOME_WORDS)
    ensures ParseSms(body, sender, now).Some? && ParseSms(body, sender, now).value.amount == amount
  {
  }

  /** "Tk <n>" followed by any text not continuing the number is read as `n`,
      typed by the keywords it contains. */
  lemma ReadsStatedAmount(n: nat, tail: string, sender: string, now: int)
    requires tail == [] || !IsAmountChar(tail[0])
    requires MentionsAny("Tk " + ShowNat(n) + tail, EXPENSE_WORDS)
          || MentionsAny("Tk " + ShowNat(n) + tail, INCOME_WORDS)
    ensures var r := ParseSms("Tk " + ShowNat(n) + tail, sender, now);
            r.Some? && r.value.amount == n as real
  {
    StatedAmountDigits(n, tail);
    ParseDecimalOfNat(n);
    ReadsFirstMatch("Tk " + ShowNat(n) + tail, sender, now, 0, n as real);
  }

  // ---------------------------------------------------------------------------
  // onReceive

  /** `parseSms` applied to each (body, sender) message. */
  function ParseAll(messages: seq<(string, string)>, now: int): (ps: seq<Option<Transaction>>)
    ensures |ps| == |messages|
    ensures forall i :: 0 <= i < |messages| ==> ps[i] == ParseSms(messages[i].0, messages[i].1, now)
    ensures forall i :: 0 <= i < |ps| && ps[i].Some? ==> ps[i].value.id == UNSET_ID
  {
    seq(|messages|, i requires 0 <= i < |messages| => ParseSms(messages[i].0, messages[i].1, now))
  }

  /** How many messages parse. */
  function CountSome(ps: seq<Option<Transaction>>): nat
    decreases |ps|
  {
    if |ps| == 0 then 0 else (if ps[0].Some? then 1 else 0) + CountSome(ps[1..])
  }

  /** `r` is `t` with one row added per parsed message: each parsed message is
      stored under a key of its own above the sequence value, every added row
      is one of them, and every earlier row is kept. */
  ghost predicate RowsAdded(t: TransactionTable, ps: seq<Option<Transaction>>, r: TransactionTable) {
    && |r.rows| == |t.rows| + CountSome(ps)
    && r.lastKey >= t.lastKey
    && (forall k :: k in t.rows ==> k in r.rows && r.rows[k] == t.rows[k])
    && (forall k :: k in r.rows && k !in t.rows ==>
         k > t.lastKey && exists i :: 0 <= i < |ps| && ps[i].Some? && r.rows[k] == ps[i].value.(id := k))
    && (forall i :: 0 <= i < |ps| && ps[i].Some? ==>
         exists k :: k !in t.rows && k in r.rows && r.rows[k] == ps[i].value.(id := k))
  }

  /** Inserting the parsed messages in turn. */
  function InsertParsed(t: TransactionTable, ps: seq<Option<Transaction>>): (r: TransactionTable)
    requires WfTransactions(t)
    requires forall i :: 0 <= i < |ps| && ps[i].Some? ==> ps[i].value.id == UNSET_ID
    ensures WfTransactions(r)
    ensures RowsAdded(t, ps, r)
    decreases |ps|
  {
    if |ps| == 0 then t
    else
      var t' := if ps[0].Some? then InsertTransaction(t, ps[0].value).table else t;
      var r := InsertParsed(t', ps[1..]);
      InsertParsedStep(t, ps, t', r);
      r
  }

  /** One step of `InsertParsed`: the first message, then the rest. */
  lemma InsertParsedStep(t: TransactionTable, ps: seq<Option<Transaction>>, t': TransactionTable, r: TransactionTable)
    requires WfTransactions(t) && |ps| > 0
    requires ps[0].Some? ==> ps[0].value.id == UNSET_ID
    requires t' == if ps[0].Some? then InsertTransaction(t, ps[0].value).table else t
    requires RowsAdded(t', ps[1..], r)
    ensures RowsAdded(t, ps, r)
  {
    FirstAdded(t, ps[0], t');
    StepAdds(t, ps, t', r);
  }

  /** What inserting one parsed message does to the table. */
  lemma FirstAdded(t: TransactionTable, p: Option<Transaction>, t': TransactionTable)
    requires WfTransactions(t)
    requires p.Some? ==> p.value.id == UNSET_ID
    requires t' == if p.Some? then InsertTransaction(t, p.value).table else t
    ensures |t'.rows| == |t.rows| + (if p.Some? then 1 else 0)
    ensures t'.lastKey >= t.lastKey
    ensures forall k :: k in t.rows ==> k in t'.rows && t'.rows[k] == t.rows[k]
    ensures forall k :: k in t'.rows && k !in t.rows ==> k > t.lastKey && p.Some? && t'.rows[k] == p.value.(id := k)
    ensures p.Some? ==> exists k :: k !in t.rows && k in t'.rows && t'.rows[k] == p.value.(id := k)
  {
    if p.Some? {
      var next := t.lastKey + 1;
      OneMoreKey(t.rows, t'.rows, next);
      assert next !in t.rows && next in t'.rows;
    }
  }

  /** A map with exactly one more key has one more entry. */
  lemma OneMoreKey<V>(m: map<int, V>, m': map<int, V>, k: int)
    requires m'.Keys == m.Keys + {k} && k !in m
    ensures |m'| == |m| + 1
  {
    assert |m'.Keys| == |m.Keys| + 1;
  }

  /** The step, from what the first insertion did and what the rest did. */
  lemma StepAdds(t: TransactionTable, ps: seq<Option<Transaction>>, t': TransactionTable, r: TransactionTable)
    requires |ps| > 0
    requires |t'.rows| == |t.rows| + (if ps[0].Some? then 1 else 0)
    requires t'.lastKey >= t.lastKey
    requires forall k :: k in t.rows ==> k in t'.rows && t'.rows[k] == t.rows[k]
    requires forall k :: k in t'.rows && k !in t.rows ==> k > t.lastKey && ps[0].Some? && t'.rows[k] == ps[0].value.(id := k)
    requires ps[0].Some? ==> exists k :: k !in t.rows && k in t'.rows && t'.rows[k] == ps[0].value.(id := k)
    requires RowsAdded(t', ps[1..], r)
    ensures RowsAdded(t, ps, r)
  {
    AddedRowsFrom(t, ps, t', r);
    EntriesStored(t, ps, t', r);
  }

  /** Every row the step adds comes from one of the messages. */
  lemma AddedRowsFrom(t: TransactionTable, ps: seq<Option<Transaction>>, t': TransactionTable, r: TransactionTable)
    requires |ps| > 0
    requires t'.lastKey >= t.lastKey
    requires forall k :: k in t'.rows && k !in t.rows ==> k > t.lastKey && ps[0].Some? && t'.rows[k] == ps[0].value.(id := k)
    requires forall k :: k in t'.rows ==> k in r.rows && r.rows[k] == t'.rows[k]
    requires forall k :: k in r.rows && k !in t'.rows ==>
      k > t'.lastKey && exists i :: 0 <= i < |ps[1..]| && ps[1..][i].Some? && r.rows[k] == ps[1..][i].value.(id := k)
    ensures forall k :: k in r.rows && k !in t.rows ==>
      k > t.lastKey && exists i :: 0 <= i < |ps| && ps[i].Some? && r.rows[k] == ps[i].value.(id := k)
  {
    forall k | k in r.rows && k !in t.rows
      ensures k > t.lastKey && exists i :: 0 <= i < |ps| && ps[i].Some? && r.rows[k] == ps[i].value.(id := k)
    {
      if k in t'.rows {
        assert ps[0].Some? && r.rows[k] == ps[0].value.(id := k);
      } else {
        var i :| 0 <= i < |ps[1..]| && ps[1..][i].Some? && r.rows[k] == ps[1..][i].value.(id := k);
        assert ps[i + 1] == ps[1..][i];
      }
    }
  }

  /** Every message that parses has a row of its own after the step. */
  lemma EntriesStored(t: TransactionTable, ps: seq<Option<Transaction>>, t': TransactionTable, r: TransactionTable)
    requires |ps| > 0
    requires forall k :: k in t.rows ==> k in t'.rows
    requires ps[0].Some? ==> exists k :: k !in t.rows && k in t'.rows && t'.rows[k] == ps[0].value.(id := k)
    requires forall k :: k in t'.rows ==> k in r.rows && r.rows[k] == t'.rows[k]
    requires forall i :: 0 <= i < |ps[1..]| && ps[1..][i].Some? ==>
      exists k :: k !in t'.rows && k in r.rows && r.rows[k] == ps[1..][i].value.(id := k)
    ensures forall i :: 0 <= i < |ps| && ps[i].Some? ==>
      exists k :: k !in t.rows && k in r.rows && r.rows[k] == ps[i].value.(id := k)
  {
    forall i | 0 <= i < |ps| && ps[i].Some?
      ensures exists k :: k !in t.rows && k in r.rows && r.rows[k] == ps[i].value.(id := k)
    {
      if i == 0 {
        var k :| k !in t.rows && k in t'.rows && t'.rows[k] == ps[0].value.(id := k);
        assert k in r.rows && r.rows[k] == ps[0].value.(id := k);
      } else {
        assert ps[i] == ps[1..][i - 1];
        var k :| k !in t'.rows && k in r.rows && r.rows[k] == ps[1..][i - 1].value.(id := k);
        assert k !in t.rows;
      }
    }
  }

  /** `onReceive`: for an SMS-received broadcast, each (body, sender) message
      that parses is inserted; every insertion allocates a new key. */
  function ReceiveSms(t: TransactionTable, isSmsReceived: bool, messages: seq<(string, string)>, now: int)
    : (r: TransactionTable)
    requires WfTransactions(t)
    ensures WfTransactions(r)
    ensures !isSmsReceived ==> r == t
    ensures isSmsReceived ==> RowsAdded(t, ParseAll(messages, now), r)
  {
    if isSmsReceived then InsertParsed(t, ParseAll(messages, now)) else t
  }
}

=== FILE: tables.dfy ===
/**
  A Room table whose primary key is `@PrimaryKey(autoGenerate = true)`, i.e. an
  SQLite `INTEGER PRIMARY KEY AUTOINCREMENT` column. Rows are a map from key to
  row; `lastKey` is the table's entry in `sqlite_sequence`, the largest key the
  table has ever held, which keys allocated later always exceed.
*/
module Tables {
  import opened Seqs

  datatype AutoTable<V> = AutoTable(rows: map<int, V>, lastKey: int)

  /** The table after an insert, and the key the insert returned (Room's `Long`). */
  datatype Inserted<V> = Inserted(table: AutoTable<V>, key: int)

  function EmptyTable<V>(): (t: AutoTable<V>)
    ensures Valid(t) && t.rows == map[]
  {
    AutoTable(map[], 0)
  }

  /** Key 0 is never stored (Room turns it into "allocate a key") and no
      stored key exceeds the sequence value. */
  ghost predicate Valid<V>(t: AutoTable<V>) {
    && t.lastKey >= 0
    && 0 !in t.rows
    && forall k :: k in t.rows ==> k <= t.lastKey
  }

  /** The key under which a row whose key field holds `id` is stored: an id of
      0 receives the next sequence value, any other id is kept. */
  function KeyFor<V>(t: AutoTable<V>, id: int): (k: int)
    requires Valid(t)
    ensures k != 0
    ensures id != 0 ==> k == id
    ensures id == 0 ==> k !in t.rows && k > t.lastKey
  {
    if id == 0 then t.lastKey + 1 else id
  }

  /** `INSERT OR REPLACE` of a row under a non-zero key. */
  function Put<V>(t: AutoTable<V>, k: int, v: V): (r: AutoTable<V>)
    requires Valid(t) && k != 0
    ensures Valid(r)
    ensures r.rows.Keys == t.rows.Keys + {k}
    ensures r.rows[k] == v
    ensures forall j :: j in t.rows && j != k ==> r.rows[j] == t.rows[j]
    ensures r.lastKey >= t.lastKey
  {
    AutoTable(t.rows[k := v], if k > t.lastKey then k else t.lastKey)
  }

  /** `DELETE ... WHERE key = k`; the sequence value is kept. */
  function Remove<V>(t: AutoTable<V>, k: int): (r: AutoTable<V>)
    ensures Valid(t) ==> Valid(r)
    ensures r.rows.Keys == t.rows.Keys - {k}
    ensures forall j :: j in r.rows ==> r.rows[j] == t.rows[j]
    ensures r.lastKey == t.lastKey
  {
    AutoTable(t.rows - {k}, t.lastKey)
  }

  /** A value is stored exactly when some key maps to it. */
  lemma ValueAt<V>(m: map<int, V>, v: V)
    ensures v in m.Values <==> exists k :: k in m && m[k] == v
  {
    if exists k :: k in m && m[k] == v {
      var k :| k in m && m[k] == v;
      assert m[k] in m.Values;
    }
  }

  // ---------------------------------------------------------------------------
  // Scanning a table in key order

  lemma NonEmptyHasElement(s: set<int>)
    requires s != {}
    ensures exists x :: x in s
  {
    assert (forall x :: x !in s) ==> s == {};
  }

  lemma {:induction false} HasMinimum(s: set<int>)
    requires s != {}
    ensures exists m :: m in s && forall k :: k in s ==> m <= k
    decreases |s|
  {
    NonEmptyHasElement(s);
    var x :| x in s;
    if s != {x} {
      var s' := s - {x};
      HasMinimum(s');
      var m :| m in s' && forall k :: k in s' ==> m <= k;
      if x < m {
        assert forall k :: k in s ==> x <= k by {
          forall k | k in s ensures x <= k {
            if k != x { assert k in s'; }
          }
        }
      } else {
        assert forall k :: k in s ==> m <= k by {
          forall k | k in s ensures m <= k {
            if k != x { assert k in s'; }
          }
        }
        assert m in s;
      }
    } else {
      assert forall k :: k in s ==> x <= k;
    }
  }

  function MinOf(s: set<int>): (m: int)
    requires s != {}
    ensures m in s && forall k :: k in s ==> m <= k
  {
    HasMinimum(s);
    var m :| m in s && forall k :: k in s ==> m <= k;
    m
  }

  ghost predicate StrictlyIncreasing(ks: seq<int>) {
    forall i, j :: 0 <= i < j < |ks| ==> ks[i] < ks[j]
  }

  /** The keys of a set in ascending order. */
  function SortedKeys(s: set<int>): (ks: seq<int>)
    ensures forall k :: k in ks <==> k in s
    ensures StrictlyIncreasing(ks)
    ensures |ks| == |s|
    decreases |s|
  {
    if s == {} then []
    else
      var m := MinOf(s);
      [m] + SortedKeys(s - {m})
  }

  function RowsAt<V>(m: map<int, V>, ks: seq<int>): (r: seq<V>)
    requires forall i :: 0 <= i < |ks| ==> ks[i] in m
    ensures |r| == |ks|
    ensures forall i :: 0 <= i < |ks| ==> r[i] == m[ks[i]]
    decreases |ks|
  {
    if |ks| == 0 then [] else [m[ks[0]]] + RowsAt(m, ks[1..])
  }

  /** A full table scan, in ascending key (rowid) order. */
  function Rows<V>(t: AutoTable<V>): (r: seq<V>)
    ensures |r| == |t.rows|
  {
    var ks := SortedKeys(t.rows.Keys);
    RowsAt(t.rows, ks)
  }

  ghost predicate NoDuplicates<V(!new)>(s: seq<V>) {
    forall x :: multiset(s)[x] <= 1
  }

  /** A list without duplicates holds different values at different positions. */
  lemma NoDuplicatesDistinct<V(!new)>(s: seq<V>, i: int, j: int)
    requires NoDuplicates(s)
    requires 0 <= i < j < |s|
    ensures s[i] != s[j]
  {
    var y := s[j];
    assert s == s[..j] + s[j..];
    assert y in s[j..] && multiset(s[j..])[y] >= 1;
    assert multiset(s)[y] == multiset(s[..j])[y] + multiset(s[j..])[y];
    assert y !in s[..j];
    assert s[i] in s[..j];
  }

  /** Every stored row shows up in a scan and nothing else does. */
  lemma RowsMembership<V>(t: AutoTable<V>, v: V)
    ensures v in Rows(t) <==> exists k :: k in t.rows && t.rows[k] == v
  {
    var ks := SortedKeys(t.rows.Keys);
    var r := Rows(t);
    if v in r {
      var i :| 0 <= i < |r| && r[i] == v;
      assert ks[i] in t.rows && t.rows[ks[i]] == v;
    }
    if exists k :: k in t.rows && t.rows[k] == v {
      var k :| k in t.rows && t.rows[k] == v;
      var i :| 0 <= i < |ks| && ks[i] == k;
      assert r[i] == v;
    }
  }

  lemma {:induction false} RowsAtDistinct<V(!new)>(m: map<int, V>, ks: seq<int>, keyOf: V -> int)
    requires forall i :: 0 <= i < |ks| ==> ks[i] in m
    requires StrictlyIncreasing(ks)
    requires forall k :: k in m ==> keyOf(m[k]) == k
    ensures NoDuplicates(RowsAt(m, ks))
    decreases |ks|
  {
    if |ks| > 0 {
      var rest := RowsAt(m, ks[1..]);
      RowsAtDistinct(m, ks[1..], keyOf);
      var head := m[ks[0]];
      assert head !in rest by {
        forall i | 0 <= i < |rest| ensures rest[i] != head {
          assert keyOf(rest[i]) == ks[i + 1] != ks[0] == keyOf(head);
        }
      }
      assert RowsAt(m, ks) == [head] + rest;
      forall x ensures multiset(RowsAt(m, ks))[x] <= 1 {
        assert multiset(RowsAt(m, ks))[x] == multiset([head])[x] + multiset(rest)[x];
      }
    }
  }

  /** When each row carries its own key, a scan lists each row once. */
  lemma RowsDistinct<V(!new)>(t: AutoTable<V>, keyOf: V -> int)
    requires forall k :: k in t.rows ==> keyOf(t.rows[k]) == k
    ensures NoDuplicates(Rows(t))
  {
    RowsAtDistinct(t.rows, SortedKeys(t.rows.Keys), keyOf);
  }

  // ---------------------------------------------------------------------------
  // A filtered scan depends only on the rows it selects

  lemma TailOfIncreasing(ks: seq<int>)
    requires StrictlyIncreasing(ks) && |ks| > 0
    ensures StrictlyIncreasing(ks[1..])
    ensures forall k :: k in ks[1..] <==> k in ks && k != ks[0]
  {
    forall k | k in ks && k != ks[0] ensures k in ks[1..] {
      var i :| 0 <= i < |ks| && ks[i] == k;
      assert ks[1..][i - 1] == k;
    }
  }

  /** Two ascending key lists holding the same keys are the same list. */
  lemma {:induction false} IncreasingUnique(a: seq<int>, b: seq<int>)
    requires StrictlyIncreasing(a) && StrictlyIncreasing(b)
    requires forall k :: k in a <==> k in b
    ensures a == b
    decreases |a|
  {
    assert |b| > 0 ==> b[0] in b && b[0] in a;
    if |a| > 0 {
      assert a[0] in a;
      var i :| 0 <= i < |b| && b[i] == a[0];
      assert b[0] in b;
      var j :| 0 <= j < |a| && a[j] == b[0];
      assert a[0] <= a[j] && b[0] <= b[i];
      TailOfIncreasing(a);
      TailOfIncreasing(b);
      IncreasingUnique(a[1..], b[1..]);
      assert a == [a[0]] + a[1..] && b == [b[0]] + b[1..];
    }
  }

  lemma {:induction false} FilterKeepsIncreasing(ks: seq<int>, p: int -> bool)
    requires StrictlyIncreasing(ks)
    ensures StrictlyIncreasing(Filter(ks, p))
    decreases |ks|
  {
    if |ks| > 0 {
      TailOfIncreasing(ks);
      FilterKeepsIncreasing(ks[1..], p);
      var rest := Filter(ks[1..], p);
      forall i | 0 <= i < |rest| ensures ks[0] < rest[i] {
        FilterMembership(ks[1..], p, rest[i]);
      }
    }
  }

  /** The keys whose rows a predicate selects. */
  function SelectedKey<V>(m: map<int, V>, p: V -> bool): int -> bool {
    k => k in m && p(m[k])
  }

  lemma {:induction false} FilterRowsAt<V>(m: map<int, V>, ks: seq<int>, p: V -> bool)
    requires forall i :: 0 <= i < |ks| ==> ks[i] in m
    ensures Filter(RowsAt(m, ks), p) == RowsAt(m, Filter(ks, SelectedKey(m, p)))
    decreases |ks|
  {
    if |ks| > 0 {
      FilterRowsAt(m, ks[1..], p);
      var rest := Filter(ks[1..], SelectedKey(m, p));
      assert RowsAt(m, ks) == [m[ks[0]]] + RowsAt(m, ks[1..]);
      if p(m[ks[0]]) {
        assert ([ks[0]] + rest)[1..] == rest;
      }
    }
  }

  /** The keys of the rows a predicate selects, in ascending order. */
  function SelectedKeys<V>(t: AutoTable<V>, p: V -> bool): (ks: seq<int>)
    ensures forall i :: 0 <= i < |ks| ==> ks[i] in t.rows && p(t.rows[ks[i]])
  {
    var ks := Filter(SortedKeys(t.rows.Keys), SelectedKey(t.rows, p));
    assert forall i :: 0 <= i < |ks| ==> ks[i] in t.rows && p(t.rows[ks[i]]) by {
      forall i | 0 <= i < |ks| ensures ks[i] in t.rows && p(t.rows[ks[i]]) {
        assert SelectedKey(t.rows, p)(ks[i]);
      }
    }
    ks
  }

  /** A filtered scan reads the selected keys in ascending order. */
  lemma FilteredScan<V>(t: AutoTable<V>, p: V -> bool)
    ensures Filter(Rows(t), p) == RowsAt(t.rows, SelectedKeys(t, p))
  {
    FilterRowsAt(t.rows, SortedKeys(t.rows.Keys), p);
  }

  /** The selected keys of two tables are the same list when the tables
      select the same keys. */
  lemma SelectedKeysAgree<V>(t: AutoTable<V>, u: AutoTable<V>, p: V -> bool)
    requires forall k :: k in t.rows && p(t.rows[k]) <==> k in u.rows && p(u.rows[k])
    ensures SelectedKeys(t, p) == SelectedKeys(u, p)
  {
    var st, su := SortedKeys(t.rows.Keys), SortedKeys(u.rows.Keys);
    var kt := SelectedKeys(t, p);
    var ku := SelectedKeys(u, p);
    FilterKeepsIncreasing(st, SelectedKey(t.rows, p));
    FilterKeepsIncreasing(su, SelectedKey(u.rows, p));
    forall k ensures k in kt <==> k in ku {
      FilterMembership(st, SelectedKey(t.rows, p), k);
      FilterMembership(su, SelectedKey(u.rows, p), k);
    }
    IncreasingUnique(kt, ku);
  }

  /** Filtering two scans gives the same list when the two tables select the
      same keys and hold the same rows under them. */
  lemma FilteredScansAgree<V>(t: AutoTable<V>, u: AutoTable<V>, p: V -> bool)
    requires forall k :: k in t.rows && p(t.rows[k]) <==> k in u.rows && p(u.rows[k])
    requires forall k :: k in t.rows && p(t.rows[k]) ==> t.rows[k] == u.rows[k]
    ensures Filter(Rows(t), p) == Filter(Rows(u), p)
  {
    FilteredScan(t, p);
    FilteredScan(u, p);
    SelectedKeysAgree(t, u, p);
    RowsAtAgree(t.rows, u.rows, SelectedKeys(t, p));
  }

  lemma RowsAtAgree<V>(m: map<int, V>, n: map<int, V>, ks: seq<int>)
    requires forall i :: 0 <= i < |ks| ==> ks[i] in m && ks[i] in n && m[ks[i]] == n[ks[i]]
    ensures RowsAt(m, ks) == RowsAt(n, ks)
  {
    var a, b := RowsAt(m, ks), RowsAt(n, ks);
    assert forall i :: 0 <= i < |ks| ==> a[i] == b[i];
  }
}

=== FILE: text.dfy ===
/**
  The string primitives of the Kotlin/JVM standard library that the app's logic
  relies on: trimming, blank checks, ASCII case folding, `split`, and the two
  number parsers `String.toIntOrNull` and `String.toDoubleOrNull`, and
  `String.length`, which counts UTF-16 code units.
  Strings are `seq<char>`; only the ASCII behaviour of case folding and
  whitespace classification is modelled.
*/
module Text {
  import opened Wrappers

  const INT_MIN: int := -0x8000_0000
  const INT_MAX: int := 0x7FFF_FFFF

  /** The range of a Kotlin `Int`. */
  predicate IsInt32(n: int) {
    INT_MIN <= n <= INT_MAX
  }

  // ---------------------------------------------------------------------------
  // Character classes

  /** Kotlin's `Char.isWhitespace()` on the ASCII range: TAB..CR, the four
      information separators and SPACE. */
  predicate IsWhitespace(c: char) {
    9 <= c as int <= 13 || 28 <= c as int <= 32
  }

  /** The `\s` class of `java.util.regex` (no UNICODE_CHARACTER_CLASS flag). */
  predicate IsRegexSpace(c: char) {
    c as int == 32 || 9 <= c as int <= 13
  }

  /** The characters `java.lang.String.trim()` removes: every code point up to SPACE. */
  predicate IsJavaTrimmed(c: char) {
    c as int <= 32
  }

  predicate IsDigit(c: char) {
    '0' <= c <= '9'
  }

  predicate AllDigits(s: string) {
    forall i :: 0 <= i < |s| ==> IsDigit(s[i])
  }

  predicate HasDigit(s: string) {
    exists i :: 0 <= i < |s| && IsDigit(s[i])
  }

  /** Kotlin's `CharSequence.isBlank()`. */
  predicate IsBlank(s: string) {
    forall i :: 0 <= i < |s| ==> IsWhitespace(s[i])
  }

  // ---------------------------------------------------------------------------
  // Length in UTF-16 code units

  /** The code units a character takes in a JVM string: two, a surrogate
      pair, for a code point above U+FFFF, else one. */
  function Utf16Units(c: char): nat {
    if c as int >= 0x1_0000 then 2 else 1
  }

  /** Kotlin's `String.length`, which counts UTF-16 code units: every
      character counts once, or twice when it lies outside the Basic
      Multilingual Plane. */
  function Utf16Length(s: string): (n: nat)
    ensures |s| <= n <= 2 * |s|
    ensures n == |s| <==> forall i :: 0 <= i < |s| ==> s[i] as int < 0x1_0000
    ensures n == 2 * |s| <==> forall i :: 0 <= i < |s| ==> s[i] as int >= 0x1_0000
  {
    if s == [] then 0
    else
      var n := Utf16Units(s[0]) + Utf16Length(s[1..]);
      assert forall i :: 1 <= i < |s| ==> s[i] == s[1..][i - 1];
      n
  }

  /** The code-unit length adds up over concatenation. */
  lemma {:induction false} Utf16LengthConcat(a: string, b: string)
    ensures Utf16Length(a + b) == Utf16Length(a) + Utf16Length(b)
  {
    if a == [] {
      assert a + b == b;
    } else {
      assert (a + b)[0] == a[0] && (a + b)[1..] == a[1..] + b;
      Utf16LengthConcat(a[1..], b);
    }
  }

  // ---------------------------------------------------------------------------
  // Trimming

  function StripStart(s: string, pad: char -> bool): (r: string)
    ensures |r| <= |s| && r == s[|s| - |r|..]
    ensures forall i :: 0 <= i < |s| - |r| ==> pad(s[i])
    ensures r == [] || !pad(r[0])
    decreases |s|
  {
    if |s| > 0 && pad(s[0]) then StripStart(s[1..], pad) else s
  }

  function StripEnd(s: string, pad: char -> bool): (r: string)
    ensures |r| <= |s| && r == s[..|r|]
    ensures forall i :: |r| <= i < |s| ==> pad(s[i])
    ensures r == [] || !pad(r[|r| - 1])
    decreases |s|
  {
    if |s| > 0 && pad(s[|s| - 1]) then StripEnd(s[..|s| - 1], pad) else s
  }

  /** Removes the longest prefix and the longest suffix made of `pad` characters. */
  function Strip(s: string, pad: char -> bool): (r: string)
    ensures r == [] <==> forall i :: 0 <= i < |s| ==> pad(s[i])
    ensures r != [] ==> !pad(r[0]) && !pad(r[|r| - 1])
    ensures (forall i :: 0 <= i < |s| ==> !pad(s[i])) ==> r == s
  {
    var t := StripStart(s, pad);
    var r := StripEnd(t, pad);
    r
  }

  /** Kotlin's `String.trim()`. */
  function Trim(s: string): (r: string)
    ensures r == [] <==> IsBlank(s)
  {
    Strip(s, IsWhitespace)
  }

  /** `java.lang.String.trim()`, applied by `Double.parseDouble` before parsing. */
  function JavaTrim(s: string): string {
    Strip(s, IsJavaTrimmed)
  }

  // ---------------------------------------------------------------------------
  // Case-insensitive comparison (ASCII)

  function LowerChar(c: char): char {
    if 'A' <= c <= 'Z' then (c as int + 32) as char else c
  }

  /** Kotlin's `String.lowercase()` on ASCII letters. */
  function Lower(s: string): (r: string)
    ensures |r| == |s|
    ensures forall i :: 0 <= i < |s| ==> r[i] == LowerChar(s[i])
  {
    seq(|s|, i requires 0 <= i < |s| => LowerChar(s[i]))
  }

  predicate OccursAtIgnoreCase(s: string, needle: string, i: nat) {
    i + |needle| <= |s| && Lower(s[i..i + |needle|]) == Lower(needle)
  }

  /** `s.startsWith(prefix, ignoreCase = true)`. */
  predicate StartsWithIgnoreCase(s: string, prefix: string) {
    OccursAtIgnoreCase(s, prefix, 0)
  }

  /** `s.contains(needle, ignoreCase = true)`. */
  predicate ContainsIgnoreCase(s: string, needle: string) {
    exists i: nat | i <= |s| :: OccursAtIgnoreCase(s, needle, i)
  }

  /** `s.endsWith(suffix)`, case-sensitive. */
  predicate EndsWith(s: string, suffix: string) {
    |suffix| <= |s| && s[|s| - |suffix|..] == suffix
  }

  // ---------------------------------------------------------------------------
  // split / joinToString

  function Join(parts: seq<string>, sep: char): string
    decreases |parts|
  {
    if |parts| == 0 then ""
    else if |parts| == 1 then parts[0]
    else parts[0] + [sep] + Join(parts[1..], sep)
  }

  /** Kotlin's `s.split(sep)`: every occurrence of `sep` separates two parts,
      so empty parts are kept and the result is never empty. */
  function Split(s: string, sep: char): (parts: seq<string>)
    ensures |parts| >= 1
    ensures forall i :: 0 <= i < |parts| ==> sep !in parts[i]
    ensures Join(parts, sep) == s
    decreases |s|
  {
    if |s| == 0 then [""]
    else
      var rest := Split(s[1..], sep);
      if s[0] == sep then
        assert ([""] + rest)[1..] == rest;
        [""] + rest
      else
        var parts := [[s[0]] + rest[0]] + rest[1..];
        assert parts[1..] == rest[1..];
        assert sep !in [s[0]] + rest[0] by {
          assert forall c :: c in [s[0]] + rest[0] ==> c == s[0] || c in rest[0];
        }
        parts
  }

  lemma {:induction false} SplitWithoutSeparator(p: string, sep: char)
    requires sep !in p
    ensures Split(p, sep) == [p]
    decreases |p|
  {
    if |p| > 0 {
      SplitWithoutSeparator(p[1..], sep);
      assert [p[0]] + p[1..] == p;
    }
  }

  lemma {:induction false} SplitAfterPart(p: string, sep: char, t: string)
    requires sep !in p
    ensures Split(p + [sep] + t, sep) == [p] + Split(t, sep)
    decreases |p|
  {
    var s := p + [sep] + t;
    if |p| == 0 {
      assert s[1..] == t;
    } else {
      assert s[1..] == p[1..] + [sep] + t;
      SplitAfterPart(p[1..], sep, t);
      assert [p[0]] + p[1..] == p;
    }
  }

  /** `split` undoes `joinToString` when no part contains the separator. */
  lemma {:induction false} SplitJoin(parts: seq<string>, sep: char)
    requires |parts| >= 1
    requires forall i :: 0 <= i < |parts| ==> sep !in parts[i]
    ensures Split(Join(parts, sep), sep) == parts
    decreases |parts|
  {
    if |parts| == 1 {
      SplitWithoutSeparator(parts[0], sep);
    } else {
      SplitJoin(parts[1..], sep);
      SplitAfterPart(parts[0], sep, Join(parts[1..], sep));
      assert [parts[0]] + parts[1..] == parts;
    }
  }

  // ---------------------------------------------------------------------------
  // Digits

  function DigitValue(c: char): (d: nat)
    requires IsDigit(c)
    ensures d < 10
  {
    c as int - '0' as int
  }

  function DigitChar(d: nat): (c: char)
    requires d < 10
    ensures IsDigit(c) && DigitValue(c) == d
  {
    ('0' as int + d) as char
  }

  /** The value of a string of decimal digits (most significant first). */
  function DigitsValue(s: string): nat
    requires AllDigits(s)
    decreases |s|
  {
    if |s| == 0 then 0 else DigitsValue(s[..|s| - 1]) * 10 + DigitValue(s[|s| - 1])
  }

  /** The decimal rendering of a natural number, without leading zeros. */
  function ShowNat(n: nat): (s: string)
    ensures |s| >= 1 && AllDigits(s)
    decreases n
  {
    if n < 10 then [DigitChar(n)] else ShowNat(n / 10) + [DigitChar(n % 10)]
  }

  lemma {:induction false} ShowNatRoundTrip(n: nat)
    ensures DigitsValue(ShowNat(n)) == n
    decreases n
  {
    if n >= 10 {
      var s := ShowNat(n);
      ShowNatRoundTrip(n / 10);
      assert s[..|s| - 1] == ShowNat(n / 10);
    }
  }

  /** The number of leading decimal digits of `s`. */
  function LeadingDigits(s: string): (n: nat)
    ensures n <= |s| && AllDigits(s[..n])
    ensures n < |s| ==> !IsDigit(s[n])
    decreases |s|
  {
    if |s| > 0 && IsDigit(s[0]) then
      var n := 1 + LeadingDigits(s[1..]);
      assert s[..n] == [s[0]] + s[1..][..n - 1];
      n
    else 0
  }

  lemma {:induction false} LeadingDigitsOfDigits(s: string, t: string)
    requires AllDigits(s)
    requires t == [] || !IsDigit(t[0])
    ensures LeadingDigits(s + t) == |s|
    decreases |s|
  {
    if |s| > 0 {
      assert (s + t)[1..] == s[1..] + t;
      LeadingDigitsOfDigits(s[1..], t);
    } else {
      assert s + t == t;
    }
  }

  // ---------------------------------------------------------------------------
  // Number parsing

  /** Kotlin's `String.toIntOrNull()`: an optional sign followed by at least one
      decimal digit, rejected when the value does not fit in an `Int`. */
  function ParseInt32(s: string): (r: Option<int>)
    ensures r.Some? ==> IsInt32(r.value)
    ensures r.Some? ==> HasDigit(s)
  {
    if |s| == 0 then None
    else
      var digits := if s[0] == '-' || s[0] == '+' then s[1..] else s;
      if |digits| == 0 || !AllDigits(digits) then None
      else
        var magnitude: int := DigitsValue(digits);
        var v: int := if s[0] == '-' then -magnitude else magnitude;
        assert IsDigit(s[|s| - 1]);
        if IsInt32(v) then Some(v) else None
  }

  /** `toIntOrNull` undoes the decimal rendering of every non-negative `Int`. */
  lemma ParseShowNat(n: nat)
    requires n <= INT_MAX
    ensures ParseInt32(ShowNat(n)) == Some(n)
  {
    ShowNatRoundTrip(n);
  }

  function Pow10(n: nat): (p: nat)
    ensures p >= 1
  {
    if n == 0 then 1 else 10 * Pow10(n - 1)
  }

  /** The value of the decimal numeral `whole.frac`. */
  function DecimalValue(whole: string, frac: string): (x: real)
    requires AllDigits(whole) && AllDigits(frac)
    ensures x >= 0.0
  {
    DigitsValue(whole) as real + DigitsValue(frac) as real / Pow10(|frac|) as real
  }

  /** Digits with at most one '.', and at least one digit in all. */
  function ParseUnsignedDecimal(s: string): (r: Option<real>)
    ensures r.Some? ==> r.value >= 0.0
    ensures r.Some? ==> HasDigit(s)
  {
    var i := LeadingDigits(s);
    if i == |s| then
      if i == 0 then None else assert IsDigit(s[0]); Some(DigitsValue(s) as real)
    else if s[i] != '.' || !AllDigits(s[i + 1..]) || (i == 0 && i + 1 == |s|) then None
    else
      assert if i > 0 then IsDigit(s[0]) else IsDigit(s[i + 1]);
      Some(DecimalValue(s[..i], s[i + 1..]))
  }

  /** `String.toDoubleOrNull()` on plain decimal notation: surrounding blanks are
      trimmed, an optional sign is followed by digits with at most one '.'. */
  function ParseDecimal(s: string): (r: Option<real>)
    ensures r.Some? ==> HasDigit(s)
  {
    var t := JavaTrim(s);
    if |t| == 0 then None
    else
      var unsigned := if t[0] == '-' || t[0] == '+' then t[1..] else t;
      match ParseUnsignedDecimal(unsigned)
      case None => None
      case Some(m) =>
        assert HasDigit(t) by {
          var i :| 0 <= i < |unsigned| && IsDigit(unsigned[i]);
          if t[0] == '-' || t[0] == '+' {
            assert t[i + 1] == unsigned[i];
          }
        }
        var k :| 0 <= k < |t| && IsDigit(t[k]);
        DigitInStripped(s, IsJavaTrimmed, k);
        Some(if t[0] == '-' then -m else m)
  }

  lemma DigitInStripped(s: string, pad: char -> bool, k: nat)
    requires k < |Strip(s, pad)|
    ensures exists i :: 0 <= i < |s| && Strip(s, pad)[k] == s[i]
  {
    var t := StripStart(s, pad);
    var r := StripEnd(t, pad);
    assert r[k] == t[k] == s[|s| - |t| + k];
  }

  /** A string that starts and ends with a visible character is its own Java trim. */
  lemma JavaTrimVisible(s: string)
    requires |s| > 0 && !IsJavaTrimmed(s[0]) && !IsJavaTrimmed(s[|s| - 1])
    ensures JavaTrim(s) == s
  {
  }

  /** A numeral with no padding and no sign is read as it stands. */
  lemma ParseDecimalUnsigned(s: string)
    requires |s| > 0 && !IsJavaTrimmed(s[0]) && !IsJavaTrimmed(s[|s| - 1])
    requires s[0] != '-' && s[0] != '+'
    ensures ParseDecimal(s) == ParseUnsignedDecimal(s)
  {
    JavaTrimVisible(s);
  }

  lemma UnsignedFraction(d: string, f: string)
    requires |d| > 0 && AllDigits(d) && AllDigits(f)
    ensures ParseUnsignedDecimal(d + ['.'] + f) == Some(DecimalValue(d, f))
  {
    var s := d + ['.'] + f;
    var i := |d|;
    assert s == d + (['.'] + f);
    LeadingDigitsOfDigits(d, ['.'] + f);
    assert s[..i] == d;
    assert s[i] == '.';
    assert s[i + 1..] == f;
  }

  /** `toDoubleOrNull` reads back a whole number followed by a '.' and a run of
      fraction digits as the exact decimal value. */
  lemma ParseDecimalOfFraction(w: nat, f: string)
    requires AllDigits(f)
    ensures ParseDecimal(ShowNat(w) + ['.'] + f) == Some(DecimalValue(ShowNat(w), f))
  {
    var s := ShowNat(w) + ['.'] + f;
    assert s[0] == ShowNat(w)[0];
    JavaTrimVisible(s);
    UnsignedFraction(ShowNat(w), f);
  }

  /** `toDoubleOrNull` reads back the rendering of a whole number. */
  lemma ParseDecimalOfNat(w: nat)
    ensures ParseDecimal(ShowNat(w)) == Some(w as real)
  {
    var s := ShowNat(w);
    assert !IsJavaTrimmed(s[0]) && !IsJavaTrimmed(s[|s| - 1]);
    assert JavaTrim(s) == s;
    LeadingDigitsOfDigits(s, []);
    assert s + [] == s;
    assert s[..|s|] == s;
    ShowNatRoundTrip(w);
  }
}

=== FILE: transaction_dao.dfy ===
/**
  `TransactionDao`: the queries and writes on the `transactions` table.
  Row order: `ORDER BY date DESC` leaves rows with equal dates in an unspecified
  order; the model breaks such ties by ascending key, the table's scan order.
*/
module TransactionDao {
  import opened Wrappers
  import opened Entities
  import opened Tables
  import opened Seqs

  type TransactionTable = AutoTable<Transaction>

  function TransactionKey(t: Transaction): int {
    t.id
  }

  /** Every row is stored under its own `transaction_id`. */
  ghost predicate WfTransactions(t: TransactionTable) {
    Valid(t) && forall k :: k in t.rows ==> t.rows[k].id == k
  }

  // ---------------------------------------------------------------------------
  // Queries

  function OwnedBy(userId: string): Transaction -> bool {
    (x: Transaction) => x.userId == userId
  }

  function OfKind(kind: string): Transaction -> bool {
    (x: Transaction) => x.kind == kind
  }

  /** `SELECT * FROM transactions WHERE user_id = :userId ORDER BY date DESC` */
  function GetAllTransactions(t: TransactionTable, userId: string): (r: seq<Transaction>)
    ensures SortedDesc(r, DateKey)
    ensures forall x :: x in r <==> x in t.rows.Values && x.userId == userId
    ensures WfTransactions(t) ==> NoDuplicates(r)
  {
    var owned := Filter(Rows(t), OwnedBy(userId));
    var r := SortDesc(owned, DateKey);
    assert forall x :: x in r <==> x in t.rows.Values && x.userId == userId by {
      forall x ensures x in r <==> x in t.rows.Values && x.userId == userId {
        SortDescMembership(owned, DateKey, x);
        FilterMembership(Rows(t), OwnedBy(userId), x);
        RowsMembership(t, x);
      }
    }
    assert WfTransactions(t) ==> NoDuplicates(r) by {
      if WfTransactions(t) {
        RowsDistinct(t, TransactionKey);
        FilterMultiset(Rows(t), OwnedBy(userId));
        SortDescMultiset(owned, DateKey);
      }
    }
    r
  }

  /** `SELECT * FROM transactions WHERE transaction_id = :id` */
  function GetTransactionById(t: TransactionTable, id: int): (r: Option<Transaction>)
    requires WfTransactions(t)
    ensures r.Some? ==> r.value in t.rows.Values && r.value.id == id
    ensures r.None? ==> forall x :: x in t.rows.Values ==> x.id != id
  {
    assert forall x :: x in t.rows.Values ==> x.id in t.rows && t.rows[x.id] == x by {
      forall x | x in t.rows.Values ensures x.id in t.rows && t.rows[x.id] == x {
        ValueAt(t.rows, x);
      }
    }
    if id in t.rows then Some(t.rows[id]) else None
  }

  /** `... WHERE user_id = :userId AND type = :type ORDER BY date DESC`: the rows of
      `GetAllTransactions` with that type, in the same order. */
  function GetTransactionsByType(t: TransactionTable, userId: string, kind: string): (r: seq<Transaction>)
    ensures SortedDesc(r, DateKey)
    ensures forall x :: x in r <==> x in t.rows.Values && x.userId == userId && x.kind == kind
    ensures r == Filter(GetAllTransactions(t, userId), OfKind(kind))
    ensures WfTransactions(t) ==> NoDuplicates(r)
  {
    var all := GetAllTransactions(t, userId);
    var r := Filter(all, OfKind(kind));
    FilterKeepsSortedDesc(all, DateKey, OfKind(kind));
    FilterMultiset(all, OfKind(kind));
    assert forall x :: x in r <==> x in all && x.kind == kind by {
      forall x ensures x in r <==> x in all && x.kind == kind {
        FilterMembership(all, OfKind(kind), x);
      }
    }
    r
  }

  /** The inner join of a transaction with its category succeeds and the
      category's name is one of `names`. */
  predicate InNamedCategory(categories: AutoTable<Category>, names: seq<string>, x: Transaction) {
    x.categoryId in categories.rows && categories.rows[x.categoryId].name in names
  }

  function InNamedCategories(categories: AutoTable<Category>, names: seq<string>): Transaction -> bool {
    x => InNamedCategory(categories, names, x)
  }

  /** `SELECT t.* FROM transactions t INNER JOIN categories c ON t.category_id = c.category_id
      WHERE t.user_id = :userId AND c.name IN (:categoryNames) ORDER BY t.date DESC` */
  function GetTransactionsByCategoryNames(t: TransactionTable, categories: AutoTable<Category>,
                                          userId: string, names: seq<string>): (r: seq<Transaction>)
    ensures SortedDesc(r, DateKey)
    ensures forall x :: x in r <==>
      && x in t.rows.Values && x.userId == userId
      && x.categoryId in categories.rows && categories.rows[x.categoryId].name in names
    ensures r == Filter(GetAllTransactions(t, userId), InNamedCategories(categories, names))
    ensures WfTransactions(t) ==> NoDuplicates(r)
  {
    var all := GetAllTransactions(t, userId);
    var r := Filter(all, InNamedCategories(categories, names));
    FilterKeepsSortedDesc(all, DateKey, InNamedCategories(categories, names));
    FilterMultiset(all, InNamedCategories(categories, names));
    assert forall x :: x in r <==> x in all && InNamedCategory(categories, names, x) by {
      forall x ensures x in r <==> x in all && InNamedCategory(categories, names, x) {
        FilterMembership(all, InNamedCategories(categories, names), x);
      }
    }
    r
  }

  // ---------------------------------------------------------------------------
  // Writes

  /** `@Insert(onConflict = REPLACE)`: an id of 0 receives a fresh key, any other
      id replaces the row stored under it. Returns the row's key. */
  function InsertTransaction(t: TransactionTable, x: Transaction): (r: Inserted<Transaction>)
    requires WfTransactions(t)
    ensures WfTransactions(r.table)
    ensures x.id != UNSET_ID ==> r.key == x.id
    ensures x.id == UNSET_ID ==> r.key !in t.rows
    ensures r.table.rows.Keys == t.rows.Keys + {r.key}
    ensures r.table.rows[r.key] == x.(id := r.key)
    ensures forall k :: k in t.rows && k != r.key ==> r.table.rows[k] == t.rows[k]
    ensures r.table.lastKey >= t.lastKey
  {
    var k := KeyFor(t, x.id);
    Inserted(Put(t, k, x.(id := k)), k)
  }

  /** `@Update`: rewrites the row whose key equals `x.id`; no row, no change. */
  function UpdateTransaction(t: TransactionTable, x: Transaction): (r: TransactionTable)
    requires WfTransactions(t)
    ensures WfTransactions(r)
    ensures r.rows.Keys == t.rows.Keys
    ensures x.id in t.rows ==> r.rows[x.id] == x
    ensures forall k :: k in t.rows && k != x.id ==> r.rows[k] == t.rows[k]
    ensures x.id !in t.rows ==> r == t
  {
    if x.id in t.rows then Put(t, x.id, x) else t
  }

  /** `@Delete`: removes the row whose key equals `x.id`, whatever its other fields. */
  function DeleteTransaction(t: TransactionTable, x: Transaction): (r: TransactionTable)
    requires WfTransactions(t)
    ensures WfTransactions(r)
    ensures r.rows.Keys == t.rows.Keys - {x.id}
    ensures forall k :: k in r.rows ==> r.rows[k] == t.rows[k]
  {
    Remove(t, x.id)
  }

  // ---------------------------------------------------------------------------
  // Properties relating the writes to the queries

  /** A row reads back under the key its insertion reported. */
  lemma InsertThenGet(t: TransactionTable, x: Transaction)
    requires WfTransactions(t)
    ensures var r := InsertTransaction(t, x);
            GetTransactionById(r.table, r.key) == Some(x.(id := r.key))
  {
  }

  /** After a delete, no row has the deleted id. */
  lemma DeleteThenGet(t: TransactionTable, x: Transaction)
    requires WfTransactions(t)
    ensures GetTransactionById(DeleteTransaction(t, x), x.id) == None
  {
  }

  /** Re-inserting a row exactly as stored changes nothing: REPLACE with equal
      contents, and the sequence value already covers its key. */
  lemma ReinsertStoredRow(t: TransactionTable, x: Transaction)
    requires WfTransactions(t)
    requires x in t.rows.Values
    ensures InsertTransaction(t, x).table == t
  {
    ValueAt(t.rows, x);
    var k :| k in t.rows && t.rows[k] == x;
    assert x.id == k && k != 0;
    var r := InsertTransaction(t, x).table;
    assert r.rows == t.rows;
  }

  /** A full listing is the user's rows of a key-order scan, sorted newest
      first. */
  lemma GetAllIsSortedScan(t: TransactionTable, userId: string)
    ensures GetAllTransactions(t, userId) == SortDesc(Filter(Rows(t), OwnedBy(userId)), DateKey)
  {
  }

  function HasOtherId(id: int): Transaction -> bool {
    (y: Transaction) => y.id != id
  }

  function OwnedWithOtherId(userId: string, id: int): Transaction -> bool {
    (y: Transaction) => y.userId == userId && y.id != id
  }

  /** A delete takes exactly the row with the deleted id out of a listing and
      keeps every other row, in the same order. */
  lemma DeleteRemovesOnlyThatRow(t: TransactionTable, x: Transaction, userId: string)
    requires WfTransactions(t)
    ensures GetAllTransactions(DeleteTransaction(t, x), userId) ==
            Filter(GetAllTransactions(t, userId), HasOtherId(x.id))
  {
    var r := DeleteTransaction(t, x);
    var q := OwnedWithOtherId(userId, x.id);
    forall i | 0 <= i < |Rows(r)| ensures OwnedBy(userId)(Rows(r)[i]) == q(Rows(r)[i]) {
      RowsMembership(r, Rows(r)[i]);
    }
    FilterCongruent(Rows(r), OwnedBy(userId), q);
    FilteredScansAgree(r, t, q);
    FilterFilter(Rows(t), OwnedBy(userId), HasOtherId(x.id), q);
    SortDescFilter(Filter(Rows(t), OwnedBy(userId)), DateKey, HasOtherId(x.id));
    GetAllIsSortedScan(t, userId);
    GetAllIsSortedScan(r, userId);
  }

  /** A delete of a stored row leaves every other user's listing as it was. */
  lemma DeleteKeepsOtherUsers(t: TransactionTable, x: Transaction, userId: string)
    requires WfTransactions(t)
    requires x in t.rows.Values && x.userId != userId
    ensures GetAllTransactions(DeleteTransaction(t, x), userId) == GetAllTransactions(t, userId)
  {
    var all := GetAllTransactions(t, userId);
    ValueAt(t.rows, x);
    forall i | 0 <= i < |all| ensures HasOtherId(x.id)(all[i]) {
      assert all[i] in all;
      ValueAt(t.rows, all[i]);
    }
    FilterAll(all, HasOtherId(x.id));
    DeleteRemovesOnlyThatRow(t, x, userId);
  }
}

=== FILE: updater.dfy ===
/**
  The self-update path: fetching the latest release description, deciding
  whether it is newer than the installed version, and the broadcast receiver
  that launches the installer when the download completes. The network, the
  download manager and the package manager are parameters: what they answered
  is passed in.
*/
module Updater {
  import opened Wrappers
  import opened Text
  import opened Versions

  const DEFAULT_RELEASE_NOTES: string := "No release notes provided."
  const APK_SUFFIX: string := ".apk"
  const UPDATE_FILE_NAME: string := "stitch_update.apk"
  const HTTP_OK: int := 200
  /** `DownloadManager.STATUS_SUCCESSFUL` */
  const STATUS_SUCCESSFUL: int := 8
  /** The default `getLongExtra` returns when the broadcast carries no download id. */
  const NO_DOWNLOAD_ID: int := -1
  /** `Build.VERSION_CODES.O` and `Build.VERSION_CODES.P`. */
  const SDK_O: int := 26
  const SDK_P: int := 28

  datatype ReleaseInfo = ReleaseInfo(
    versionName: string,
    downloadUrl: string,
    releaseNotes: string,
    releaseUrl: string)

  datatype Asset = Asset(name: string, browserDownloadUrl: string)

  /** The fields of the latest-release JSON object the check reads; a missing
      `body` is `None`. */
  datatype Release = Release(tagName: string, body: Option<string>, htmlUrl: string, assets: seq<Asset>)

  /** What the request for the latest release produced: an exception (no
      connection, timeout), or a status code and, when the body is a release
      object with every required field, that release. */
  datatype Fetch = Threw | Responded(code: int, payload: Option<Release>)

  // ---------------------------------------------------------------------------
  // Reading the release

  /** The tag with one leading 'v' or 'V' removed. */
  function StripTag(tag: string): (r: string)
    ensures |tag| > 0 && (tag[0] == 'v' || tag[0] == 'V') ==> r == tag[1..]
    ensures !(|tag| > 0 && (tag[0] == 'v' || tag[0] == 'V')) ==> r == tag
  {
    assert |tag| > 0 ==> Lower(tag[0..1]) == [LowerChar(tag[0])];
    if StartsWithIgnoreCase(tag, "v") then tag[1..] else tag
  }

  ghost predicate IsApk(a: Asset) {
    EndsWith(a.name, APK_SUFFIX)
  }

  /** `i` is the index of the first asset whose name ends in ".apk". */
  ghost predicate IsFirstApk(assets: seq<Asset>, i: nat) {
    i < |assets| && IsApk(assets[i]) && forall j :: 0 <= j < i ==> !IsApk(assets[j])
  }

  function FirstApkFrom(assets: seq<Asset>, i: nat): (r: Option<nat>)
    requires i <= |assets|
    requires forall j :: 0 <= j < i ==> !IsApk(assets[j])
    ensures r.Some? ==> IsFirstApk(assets, r.value)
    ensures r.None? ==> forall j :: 0 <= j < |assets| ==> !IsApk(assets[j])
    decreases |assets| - i
  {
    if i == |assets| then None
    else if EndsWith(assets[i].name, APK_SUFFIX) then Some(i)
    else FirstApkFrom(assets, i + 1)
  }

  /** The loop over `assets` that stops at the first ".apk" file. */
  function FirstApk(assets: seq<Asset>): (r: Option<nat>)
    ensures r.Some? ==> IsFirstApk(assets, r.value)
    ensures r.None? ==> forall j :: 0 <= j < |assets| ==> !IsApk(assets[j])
  {
    FirstApkFrom(assets, 0)
  }

  /** `checkForUpdates(currentVersion)`: the release is offered exactly when the
      device is online, the request answered 200 with a release, the release
      has an ".apk" asset, and its version is newer than the installed one. */
  function CheckForUpdates(online: bool, currentVersion: string, fetch: Fetch): (r: Option<ReleaseInfo>)
    ensures r.Some? <==>
      && online && fetch.Responded? && fetch.code == HTTP_OK && fetch.payload.Some?
      && (exists i: nat :: IsFirstApk(fetch.payload.value.assets, i))
      && IsNewerVersion(currentVersion, StripTag(fetch.payload.value.tagName))
    ensures r.Some? ==>
      var release := fetch.payload.value;
      && IsNewerVersion(currentVersion, r.value.versionName)
      && r.value.versionName == StripTag(release.tagName)
      && (exists i: nat :: IsFirstApk(release.assets, i) && r.value.downloadUrl == release.assets[i].browserDownloadUrl)
      && r.value.releaseNotes == (if release.body.Some? then release.body.value else DEFAULT_RELEASE_NOTES)
      && r.value.releaseUrl == release.htmlUrl
  {
    if !online then None
    else match fetch
      case Threw => None
      case Responded(code, payload) =>
        if code != HTTP_OK || payload.None? then None
        else
          var release := payload.value;
          var versionName := StripTag(release.tagName);
          match FirstApk(release.assets)
          case None => None
          case Some(i) =>
            if IsNewerVersion(currentVersion, versionName) then
              Some(ReleaseInfo(versionName, release.assets[i].browserDownloadUrl,
                               release.body.GetOr(DEFAULT_RELEASE_NOTES), release.htmlUrl))
            else None
  }

  /** Once the offered version is installed, the same release is no longer offered. */
  lemma OfferedOnce(online: bool, currentVersion: string, fetch: Fetch)
    requires CheckForUpdates(online, currentVersion, fetch).Some?
    ensures CheckForUpdates(online, CheckForUpdates(online, currentVersion, fetch).value.versionName, fetch).None?
  {
    var v := CheckForUpdates(online, currentVersion, fetch).value.versionName;
    NewerIsStrictTotalOrder(v, v, v);
  }

  /** A release is never offered to a device already on a newer version. */
  lemma NoDowngrade(online: bool, currentVersion: string, fetch: Fetch)
    requires fetch.Responded? && fetch.payload.Some?
    requires IsNewerVersion(StripTag(fetch.payload.value.tagName), currentVersion)
    ensures CheckForUpdates(online, currentVersion, fetch).None?
  {
    var v := StripTag(fetch.payload.value.tagName);
    NewerIsStrictTotalOrder(v, currentVersion, v);
  }

  /** A tag "v" followed by a rendered version reads back as that version. */
  lemma StripTagOfVersion(parts: seq<nat>)
    requires |parts| >= 1 && AllInt32(parts)
    ensures ParseVersion(StripTag(['v'] + ShowVersion(parts))) == parts
    ensures ParseVersion(StripTag(ShowVersion(parts))) == parts
  {
    var s := ShowVersion(parts);
    ShownVersionStartsWithDigit(parts);
    assert StripTag(s) == s;
    assert StripTag(['v'] + s) == s by {
      assert (['v'] + s)[1..] == s;
    }
    ParseShowVersion(parts);
  }

  lemma ShownVersionStartsWithDigit(parts: seq<nat>)
    requires |parts| >= 1
    ensures |ShowVersion(parts)| >= 1 && IsDigit(ShowVersion(parts)[0])
  {
    assert IsDigit(ShowNat(parts[0])[0]);
    assert ShowParts(parts)[0] == ShowNat(parts[0]);
    JoinStartsWithFirst(ShowParts(parts), '.');
  }

  lemma JoinStartsWithFirst(parts: seq<string>, sep: char)
    requires |parts| >= 1 && |parts[0]| >= 1
    ensures |Join(parts, sep)| >= 1 && Join(parts, sep)[0] == parts[0][0]
  {
  }

  // ---------------------------------------------------------------------------
  // Permissions

  /** `hasStoragePermission()`: only Android P and older need the storage grant. */
  function HasStoragePermission(sdk: int, storageGranted: bool): (b: bool)
    ensures b <==> sdk > SDK_P || storageGranted
  {
    if sdk <= SDK_P then storageGranted else true
  }

  /** `canInstallPackages()`: from Android O on, the per-app install grant decides. */
  function CanInstallPackages(sdk: int, canRequestInstalls: bool): (b: bool)
    ensures b <==> sdk < SDK_O || canRequestInstalls
  {
    if sdk >= SDK_O then canRequestInstalls else true
  }

  // ---------------------------------------------------------------------------
  // Downloading and installing

  /** An enqueued download and whether its completion receiver is registered. */
  datatype Download = Download(downloadId: int, registered: bool)

  /** `downloadAndInstallUpdate`: offline, nothing happens; otherwise the
      download is enqueued (`enqueued` is the id the download manager returned,
      `None` when enqueueing threw) and the receiver registered. */
  function StartDownload(online: bool, enqueued: Option<int>): (r: Option<Download>)
    ensures r.Some? <==> online && enqueued.Some?
    ensures r.Some? ==> r.value.registered && r.value.downloadId == enqueued.value
  {
    if !online then None
    else match enqueued
      case None => None
      case Some(id) => Some(Download(id, true))
  }

  /** A completion broadcast: the id it carries, and the status the query for
      the download returned (`None` when the cursor is null or empty; a missing
      status column reads as -1). */
  datatype Completion = Completion(extraId: Option<int>, status: Option<int>)

  predicate InstallsOn(d: Download, e: Completion) {
    && d.registered
    && e.extraId.GetOr(NO_DOWNLOAD_ID) == d.downloadId
    && e.status == Some(STATUS_SUCCESSFUL)
  }

  /** The receiver's `onReceive`: on the matching successful completion it
      unregisters itself and calls `installApk`, which launches the installer
      only when the downloaded file exists. Returns whether it launched. */
  function OnDownloadComplete(d: Download, e: Completion, apkExists: bool): (r: (Download, bool))
    ensures r.0.downloadId == d.downloadId
    ensures r.0.registered <==> d.registered && !InstallsOn(d, e)
    ensures r.1 <==> InstallsOn(d, e) && apkExists
  {
    if !d.registered then (d, false)
    else
      var id := e.extraId.GetOr(NO_DOWNLOAD_ID);
      if d.downloadId == id && e.status == Some(STATUS_SUCCESSFUL) then
        (d.(registered := false), apkExists)
      else (d, false)
  }

  /** Feeding a sequence of broadcasts (each with whether the file existed then)
      to the receiver; returns the final state and the number of launches. */
  function OnCompletions(d: Download, events: seq<(Completion, bool)>): (r: (Download, nat))
    ensures r.0.downloadId == d.downloadId
    ensures r.1 <= (if d.registered then 1 else 0)
    ensures r.0.registered ==> d.registered
    ensures r.1 == 1 ==> !r.0.registered
    decreases |events|
  {
    if |events| == 0 then (d, 0)
    else
      var (d', launched) := OnDownloadComplete(d, events[0].0, events[0].1);
      var (d'', n) := OnCompletions(d', events[1..]);
      (d'', n + if launched then 1 else 0)
  }

  /** The installer launches at most once, and only for a broadcast carrying
      the download's own id with a successful status. */
  lemma {:induction false} InstallOnlyOnMatchingSuccess(d: Download, events: seq<(Completion, bool)>)
    requires OnCompletions(d, events).1 == 1
    ensures exists i :: 0 <= i < |events| && events[i].1
                     && events[i].0.extraId.GetOr(NO_DOWNLOAD_ID) == d.downloadId
                     && events[i].0.status == Some(STATUS_SUCCESSFUL)
    decreases |events|
  {
    var (d', launched) := OnDownloadComplete(d, events[0].0, events[0].1);
    if launched {
      assert events[0].1 && InstallsOn(d, events[0].0);
    } else {
      assert OnCompletions(d', events[1..]).1 == 1;
      InstallOnlyOnMatchingSuccess(d', events[1..]);
      var i :| 0 <= i < |events[1..]| && events[1..][i].1
               && events[1..][i].0.extraId.GetOr(NO_DOWNLOAD_ID) == d'.downloadId
               && events[1..][i].0.status == Some(STATUS_SUCCESSFUL);
      assert events[i + 1] == events[1..][i];
    }
  }
}

=== FILE: user_dao.dfy ===
/**
  `UserDao`: the `users` table, keyed by the identity provider's uid (a string,
  so no key is ever generated).
*/
module UserDao {
  import opened Wrappers
  import opened Entities

  type UserTable = map<string, User>

  /** Every row is stored under its own `user_id`. */
  ghost predicate WfUsers(users: UserTable) {
    forall k :: k in users ==> users[k].userId == k
  }

  /** `SELECT * FROM users WHERE user_id = :userId LIMIT 1` */
  function GetUser(users: UserTable, userId: string): (r: Option<User>)
    requires WfUsers(users)
    ensures r.Some? ==> r.value in users.Values && r.value.userId == userId
    ensures r.None? ==> forall u :: u in users.Values ==> u.userId != userId
  {
    if userId in users then Some(users[userId]) else None
  }

  /** `@Insert(onConflict = REPLACE)`: the row under `u.userId` becomes `u`. */
  function InsertUser(users: UserTable, u: User): (r: UserTable)
    requires WfUsers(users)
    ensures WfUsers(r)
    ensures r.Keys == users.Keys + {u.userId}
    ensures r[u.userId] == u
    ensures forall k :: k in users && k != u.userId ==> r[k] == users[k]
  {
    users[u.userId := u]
  }

  /** `@Update`: rewrites an existing row; a uid with no row changes nothing. */
  function UpdateUser(users: UserTable, u: User): (r: UserTable)
    requires WfUsers(users)
    ensures WfUsers(r)
    ensures r.Keys == users.Keys
    ensures u.userId in users ==> r[u.userId] == u
    ensures forall k :: k in users && k != u.userId ==> r[k] == users[k]
  {
    if u.userId in users then users[u.userId := u] else users
  }

  /** Inserting reads back the inserted row; updating does so only when the row existed. */
  lemma WriteThenGet(users: UserTable, u: User)
    requires WfUsers(users)
    ensures GetUser(InsertUser(users, u), u.userId) == Some(u)
    ensures GetUser(UpdateUser(users, u), u.userId) ==
            if GetUser(users, u.userId).Some? then Some(u) else None
  {
  }
}

=== FILE: versions.dfy ===
/**
  Version strings as the update check compares them: the string is trimmed,
  split at every '.', and the segments that parse as an `Int` are kept in
  order (the others are dropped). Two versions are compared segment by segment,
  a missing segment counting as 0.
*/
module Versions {
  import opened Wrappers
  import opened Text

  /** `mapNotNull { it.toIntOrNull() }` over the segments. */
  function NumericParts(segments: seq<string>): (r: seq<int>)
    ensures |r| <= |segments|
    ensures forall i :: 0 <= i < |r| ==> IsInt32(r[i])
    decreases |segments|
  {
    if |segments| == 0 then []
    else match ParseInt32(segments[0])
      case Some(v) => [v] + NumericParts(segments[1..])
      case None => NumericParts(segments[1..])
  }

  /** A segment that is not an `Int` is dropped rather than read as 0, so the
      segments after it move one place to the left. */
  lemma {:induction false} DroppedSegment(a: seq<string>, bad: string, b: seq<string>)
    requires ParseInt32(bad).None?
    ensures NumericParts(a + [bad] + b) == NumericParts(a) + NumericParts(b)
    decreases |a|
  {
    if |a| == 0 {
      assert a + [bad] + b == [bad] + b;
      assert ([bad] + b)[1..] == b;
    } else {
      assert (a + [bad] + b)[1..] == a[1..] + [bad] + b;
      DroppedSegment(a[1..], bad, b);
      assert a == [a[0]] + a[1..];
    }
  }

  function ParseVersion(s: string): (r: seq<int>)
    ensures forall i :: 0 <= i < |r| ==> IsInt32(r[i])
  {
    NumericParts(Split(Trim(s), '.'))
  }

  /** `parts.getOrElse(i) { 0 }` */
  function PartAt(parts: seq<int>, i: nat): int {
    if i < |parts| then parts[i] else 0
  }

  function Max(a: nat, b: nat): nat {
    if a < b then b else a
  }

  /** The two versions have equal segments at every index in `[lo, hi)`. */
  ghost predicate AgreeBetween(c: seq<int>, r: seq<int>, lo: nat, hi: nat) {
    forall j: nat :: lo <= j < hi ==> PartAt(c, j) == PartAt(r, j)
  }

  /** `c` comes before `r` in the lexicographic order of zero-padded sequences. */
  ghost predicate LexLess(c: seq<int>, r: seq<int>) {
    exists k: nat :: AgreeBetween(c, r, 0, k) && PartAt(c, k) < PartAt(r, k)
  }

  /** Equal once both are padded with zeros: "1.0" and "1.0.0" are the same version. */
  ghost predicate PaddedEqual(c: seq<int>, r: seq<int>) {
    forall j: nat :: PartAt(c, j) == PartAt(r, j)
  }

  /** The comparison loop of `isNewerVersion`, from index `i` on: the first
      index where the segments differ decides. */
  function NewerFrom(c: seq<int>, r: seq<int>, i: nat): (b: bool)
    ensures b <==> exists k: nat :: i <= k && AgreeBetween(c, r, i, k) && PartAt(c, k) < PartAt(r, k)
    decreases Max(|c|, |r|) - i
  {
    if i >= Max(|c|, |r|) then
      assert forall k: nat :: i <= k ==> PartAt(c, k) == 0 == PartAt(r, k);
      false
    else if PartAt(c, i) < PartAt(r, i) then
      assert AgreeBetween(c, r, i, i);
      true
    else if PartAt(c, i) > PartAt(r, i) then
      assert forall k: nat :: i < k ==> !AgreeBetween(c, r, i, k) by {
        forall k: nat | i < k ensures !AgreeBetween(c, r, i, k) {
          assert PartAt(c, i) != PartAt(r, i);
        }
      }
      false
    else
      var b := NewerFrom(c, r, i + 1);
      assert forall k: nat :: i + 1 <= k ==> (AgreeBetween(c, r, i, k) <==> AgreeBetween(c, r, i + 1, k));
      assert AgreeBetween(c, r, i, i) && !(PartAt(c, i) < PartAt(r, i));
      b
  }

  /** `isNewerVersion(current, remote)`: the remote version is strictly newer. */
  function IsNewerVersion(current: string, remote: string): (b: bool)
    ensures b <==> LexLess(ParseVersion(current), ParseVersion(remote))
  {
    NewerFrom(ParseVersion(current), ParseVersion(remote), 0)
  }

  // ---------------------------------------------------------------------------
  // The comparison is a strict total order on versions up to zero padding

  lemma LexAsymmetric(c: seq<int>, r: seq<int>)
    requires LexLess(c, r)
    ensures !LexLess(r, c)
  {
    var i: nat :| AgreeBetween(c, r, 0, i) && PartAt(c, i) < PartAt(r, i);
    forall k: nat ensures !(AgreeBetween(r, c, 0, k) && PartAt(r, k) < PartAt(c, k)) {
      if k > i {
        assert !AgreeBetween(r, c, 0, k) by {
          assert PartAt(r, i) != PartAt(c, i);
        }
      } else if k < i {
        assert PartAt(c, k) == PartAt(r, k);
      }
    }
  }

  lemma LexTransitive(a: seq<int>, b: seq<int>, c: seq<int>)
    requires LexLess(a, b) && LexLess(b, c)
    ensures LexLess(a, c)
  {
    var i: nat :| AgreeBetween(a, b, 0, i) && PartAt(a, i) < PartAt(b, i);
    var j: nat :| AgreeBetween(b, c, 0, j) && PartAt(b, j) < PartAt(c, j);
    var k: nat := if i < j then i else j;
    assert AgreeBetween(a, c, 0, k) by {
      forall m: nat | m < k ensures PartAt(a, m) == PartAt(c, m) {
        assert PartAt(a, m) == PartAt(b, m) == PartAt(c, m);
      }
    }
    assert PartAt(a, k) < PartAt(c, k) by {
      assert PartAt(a, k) <= PartAt(b, k) <= PartAt(c, k);
    }
  }

  lemma {:induction false} FirstDifference(c: seq<int>, r: seq<int>, i: nat)
    requires AgreeBetween(c, r, 0, i)
    ensures PaddedEqual(c, r) || LexLess(c, r) || LexLess(r, c)
    decreases Max(|c|, |r|) - i
  {
    if i >= Max(|c|, |r|) {
      assert PaddedEqual(c, r) by {
        forall j: nat ensures PartAt(c, j) == PartAt(r, j) {
          if j < i {
            assert AgreeBetween(c, r, 0, i);
          }
        }
      }
    } else if PartAt(c, i) < PartAt(r, i) {
      assert LexLess(c, r);
    } else if PartAt(c, i) > PartAt(r, i) {
      assert AgreeBetween(r, c, 0, i);
      assert LexLess(r, c);
    } else {
      FirstDifference(c, r, i + 1);
    }
  }

  /** Exactly one of: newer, older, the same version. */
  lemma LexTrichotomy(c: seq<int>, r: seq<int>)
    ensures PaddedEqual(c, r) || LexLess(c, r) || LexLess(r, c)
    ensures PaddedEqual(c, r) ==> !LexLess(c, r) && !LexLess(r, c)
    ensures LexLess(c, r) ==> !LexLess(r, c)
  {
    FirstDifference(c, r, 0);
    if LexLess(c, r) {
      LexAsymmetric(c, r);
    }
  }

  /** `isNewerVersion` orders version strings strictly and totally, versions
      equal up to trailing zero segments being the same. */
  lemma NewerIsStrictTotalOrder(a: string, b: string, c: string)
    ensures !IsNewerVersion(a, a)
    ensures IsNewerVersion(a, b) ==> !IsNewerVersion(b, a)
    ensures IsNewerVersion(a, b) && IsNewerVersion(b, c) ==> IsNewerVersion(a, c)
    ensures IsNewerVersion(a, b) || IsNewerVersion(b, a) || PaddedEqual(ParseVersion(a), ParseVersion(b))
    ensures PaddedEqual(ParseVersion(a), ParseVersion(b)) ==> !IsNewerVersion(a, b) && !IsNewerVersion(b, a)
  {
    var pa, pb, pc := ParseVersion(a), ParseVersion(b), ParseVersion(c);
    LexTrichotomy(pa, pa);
    assert PaddedEqual(pa, pa);
    LexTrichotomy(pa, pb);
    if IsNewerVersion(a, b) && IsNewerVersion(b, c) {
      LexTransitive(pa, pb, pc);
    }
  }

  // ---------------------------------------------------------------------------
  // Rendering a version and reading it back

  function ShowParts(parts: seq<nat>): (r: seq<string>)
    ensures |r| == |parts|
    ensures forall i :: 0 <= i < |r| ==> r[i] == ShowNat(parts[i])
  {
    seq(|parts|, i requires 0 <= i < |parts| => ShowNat(parts[i]))
  }

  /** "1.10.2" from [1, 10, 2]. */
  function ShowVersion(parts: seq<nat>): string {
    Join(ShowParts(parts), '.')
  }

  predicate AllInt32(parts: seq<nat>) {
    forall i :: 0 <= i < |parts| ==> parts[i] <= INT_MAX
  }

  lemma {:induction false} NumericPartsOfShown(parts: seq<nat>)
    requires AllInt32(parts)
    ensures NumericParts(ShowParts(parts)) == parts
    decreases |parts|
  {
    if |parts| > 0 {
      ParseShowNat(parts[0]);
      assert ShowParts(parts)[1..] == ShowParts(parts[1..]);
      NumericPartsOfShown(parts[1..]);
    }
  }

  lemma {:induction false} JoinChars(parts: seq<string>, sep: char, c: char)
    requires c in Join(parts, sep)
    ensures c == sep || exists i :: 0 <= i < |parts| && c in parts[i]
    decreases |parts|
  {
    if |parts| > 1 {
      if c !in parts[0] && c != sep {
        JoinChars(parts[1..], sep, c);
        var i :| 0 <= i < |parts[1..]| && c in parts[1..][i];
        assert c in parts[i + 1];
      }
    }
  }

  /** A version rendered from `Int`-sized numbers parses back to them. */
  lemma ParseShowVersion(parts: seq<nat>)
    requires |parts| >= 1 && AllInt32(parts)
    ensures ParseVersion(ShowVersion(parts)) == parts
  {
    var shown := ShowParts(parts);
    var s := ShowVersion(parts);
    forall i | 0 <= i < |s| ensures !IsWhitespace(s[i]) {
      JoinChars(shown, '.', s[i]);
      if s[i] != '.' {
        var j :| 0 <= j < |shown| && s[i] in shown[j];
        var m :| 0 <= m < |shown[j]| && shown[j][m] == s[i];
        assert IsDigit(ShowNat(parts[j])[m]);
      }
    }
    assert Trim(s) == s;
    forall i | 0 <= i < |shown| ensures '.' !in shown[i] {
      assert AllDigits(ShowNat(parts[i]));
    }
    SplitJoin(shown, '.');
    NumericPartsOfShown(parts);
  }

  /** Appending a zero segment yields the same version: neither is newer. */
  lemma TrailingZeroIsSameVersion(parts: seq<nat>)
    requires |parts| >= 1 && AllInt32(parts)
    ensures !IsNewerVersion(ShowVersion(parts), ShowVersion(parts + [0]))
    ensures !IsNewerVersion(ShowVersion(parts + [0]), ShowVersion(parts))
  {
    var a, b := ShowVersion(parts), ShowVersion(parts + [0]);
    ParseShowVersion(parts);
    ParseShowVersion(parts + [0]);
    assert PaddedEqual(ParseVersion(a), ParseVersion(b)) by {
      forall j: nat ensures PartAt(parts, j) == PartAt(parts + [0], j) {
        if j < |parts| {
          assert (parts + [0])[j] == parts[j];
        }
      }
    }
    NewerIsStrictTotalOrder(a, b, a);
  }

  lemma ParseOneNine()
    ensures ParseVersion("1.9") == [1, 9]
  {
    assert ShowParts([1, 9]) == ["1", "9"];
    assert ShowVersion([1, 9]) == "1.9";
    ParseShowVersion([1, 9]);
  }

  lemma ParseOneTen()
    ensures ParseVersion("1.10") == [1, 10]
  {
    assert ShowNat(10) == "10";
    assert ShowParts([1, 10]) == ["1", "10"];
    assert ShowVersion([1, 10]) == "1.10";
    ParseShowVersion([1, 10]);
  }

  /** Segments compare as numbers, not as text: 1.10 is newer than 1.9. */
  lemma NumericComparison()
    ensures IsNewerVersion("1.9", "1.10")
  {
    ParseOneNine();
    ParseOneTen();
    var c: seq<int>, r: seq<int> := [1, 9], [1, 10];
    assert AgreeBetween(c, r, 0, 1);
    assert PartAt(c, 1) < PartAt(r, 1);
    assert LexLess(c, r);
  }
}

=== FILE: wrappers.dfy ===
/** Kotlin's nullable types (`T?`) are modelled as `Option<T>`. */
module Wrappers {

  datatype Option<+T> = None | Some(value: T) {

    /** Kotlin's elvis operator `x ?: default`. */
    function GetOr(default: T): T {
      match this
      case Some(v) => v
      case None => default
    }
  }
}
